=== FILE: README.md ===
# Local Whisper Captions — a Dafny model of its core

Local Whisper Captions is a Chrome extension. It captures a tab's audio,
transcribes it on the device with a Whisper speech model, and shows the text
as a caption overlay on the page. It has four parts:

- a background worker, which owns the caption session state and answers the popup;
- an offscreen document, which buffers and gates the audio, loads the model and calls the engine;
- a content script, which keeps the caption history and the overlay box;
- an older standalone recognition worker.

This project models the rules those parts follow as pure Dafny functions over
immutable datatypes, and proves what those rules promise.

| file | module | what it models |
|---|---|---|
| `wrappers.dfy` | `Wrappers` | `Option` |
| `text.dfy` | `Text` | JavaScript string helpers: `trim` over the `\s` class, ASCII `toLowerCase`, `includes`, `startsWith`/`endsWith`, `join`, number-to-text, `a \|\| b` on strings |
| `jsnum.dfy` | `JsNum` | what `Number(...)` yields (finite or not), `Math.round`, `Math.floor`, clamping |
| `settings.dfy` | `Settings` | the eleven runtime tuning fields, their ranges, and the shared sanitiser core; the offscreen copy of the sanitiser |
| `background.dfy` | `Background` | background helpers: tuning sanitiser, installed-model list, subtitle layout, load log, tab URL check, retarget status |
| `language.dfy` | `Language` | normalising the caption language choice (identical in the background and the popup) |
| `session.dfy` | `Session` | the background's caption session and every message that changes it, with the commands it sends to other parts |
| `popup.dfy` | `Popup` | the popup's sanitiser copy, status line, load-log text and control states |
| `sample_buffer.dfy` | `SampleBuffer` | the offscreen PCM chunk buffer: push, trim to the keep window, read the newest samples |
| `resample.dfy` | `Resample` | linear resampling to 16 kHz and the RMS level |
| `models.dfy` | `Models` | model classification, window length, engine decoding options, retry rule, engine output to text |
| `dispatch.dfy` | `Dispatch` | the dispatch gate: interval, minimum audio, silence and voice hold |
| `transcriber.dfy` | `Transcriber` | the single-flight engine executor with one queued window, retry, emission and warning rate limit |
| `model_loader.dfy` | `ModelLoader` | the offscreen model-load lifecycle: request loop, heartbeat, load timer, progress throttle, success and failure |
| `captions.dfy` | `Captions` | the content script's caption text cleaning, replace/regression rules, history and layout |
| `worker.dfy` | `Worker` | the standalone recognition worker: preflight, recognizer cache, INIT, TRANSCRIBE and its two-job queue |

The effects of the source become data:

- Messages sent to other parts are `Session.Command` values, `Worker.Posted` values, or list fields of the model state, such as transcripts, warnings and errors.
- Answers from the outside world are parameters:
  - the network preflight outcome;
  - the tab URL lookup and whether tab capture succeeds;
  - whether the engine call resolves or throws, and with what;
  - whether the model pipeline loads;
  - the current time in milliseconds;
  - the timestamp text of a log line.

Where the code and its own messages disagree, the model follows the code:

- The heartbeat ends a load that shows no progress with the error "Model load stalled" (`src/offscreen.js:211-213`). The load it gave up on is still awaited, and when it resolves later it still marks the model ready (`src/offscreen.js:549-561`). This is modelled as written and logged as a finding, with the guarded version beside it.
- The popup tells the user "Start will auto-load" the selected model when another one is loaded (`src/popup.js:291`). `startCaptioning` in fact throws "Model not loaded" before its unreachable call to `loadModel` (`src/background.js:609-616`).

Other behaviour the model states, because a reader might expect otherwise:

- An empty audio chunk is still pushed onto the buffer.
- The voice hold is inclusive: a silent window still goes out exactly `voiceHoldMs` after the last voice, and not one millisecond later.
- In the background's sanitiser, a tuning field that is present but not finite falls back to the default, not to the current value.
- A model progress value of exactly 1 is read as a whole fraction, so it shows as 100 %; 0.5 shows as 50 %, and 2 shows as 2 %.
- A start from stopped captions does not check the tab's address; only a move of running captions to another tab does.
- The popup locks the language for an id ending in `.en`, case-sensitively. This differs from the background's English-only rule, which lowercases the id and also requires `whisper-`.

## Model

| member | source | states |
|---|---|---|
| Settings.Build | src/offscreen.js:156-167 | the settings record built from a per-field value function holds exactly those values, field by field |
| Settings.FromSettings | src/offscreen.js:145-149 | passing a settings record in as an update object gives every field as a present, finite number |
| Settings.Overlay | src/background.js:83-87 | spreading an update over a base object: each field is the update's field when present, else the base's |
| Settings.Pick | src/offscreen.js:151-154 | `toNum`: a finite number is kept; a missing or non-finite value becomes the fallback |
| Settings.ClampField | src/offscreen.js:156-167 | clamping into a field's range gives an admissible value; an admissible value is unchanged; below the range gives the lower bound, above it the upper bound |
| Settings.FixStrideBelowChunk | src/offscreen.js:169-174 | the stride fix-up keeps the stride admissible and strictly below its chunk length; it becomes chunk - 0.1 exactly when it was not already below |
| Settings.StrideUpdateFrame | src/offscreen.js:169-174 | the stride fix-up changes only the two stride fields |
| Settings.ClampAll | src/offscreen.js:156-167 | every field is the clamped, picked value, so every field is admissible |
| Settings.SanitizeFrom | src/offscreen.js:145-177 | the sanitised settings are valid: all in range and both strides below their chunks. Non-stride fields are the clamped source or fallback value; each stride is kept when below its chunk, else chunk - 0.1 |
| Settings.SanitizeKeepsAdmissible | src/offscreen.js:151-167 | a finite in-range update of a non-stride field survives sanitising unchanged |
| Settings.SanitizeFallsBack | src/offscreen.js:151-154 | a missing or non-finite field takes the clamped fallback |
| Settings.SanitizeClampsOutOfRange | src/offscreen.js:156-167 | a finite value outside a field's range becomes the nearer bound |
| Settings.SanitizeValidIsIdentity | src/offscreen.js:145-177 | valid settings passed back in come out unchanged, whatever the fallback |
| Settings.SanitizeIdempotent | src/offscreen.js:145-177 | sanitising is idempotent: sanitised settings passed in again are a fixed point |
| Settings.SanitizeRuntimeSettings | src/offscreen.js:145-181 | the offscreen sanitiser (update over the current settings) always yields valid settings |
| Settings.RuntimeSettingsFieldSource | src/offscreen.js:145-167 | an admissible finite update of a field is taken as is; a missing or non-finite one keeps the clamped current value |
| Settings.RuntimeEmptyUpdateKeepsValid | src/offscreen.js:179-181 | applying an empty update to valid settings changes nothing |
| Settings.OffscreenDefaultsValid | src/offscreen.js:21-32 | the offscreen defaults are valid settings |
| Settings.StrideExamples | src/offscreen.js:169-174 | chunk 5 with stride 8 gives stride 4.9; chunk 10 with stride 2 keeps both |
| Background.DefaultsValid | src/background.js:28-40 | the background's default tuning is valid |
| Background.TuningSource | src/background.js:83-87 | the field source is the update's field when present, else the current tuning's field when present, else the default |
| Background.SanitizeTuning | src/background.js:82-126 | the background sanitiser always yields valid tuning |
| Background.TuningPrecedence | src/background.js:82-126 | field by field: a finite update wins, clamped; a present non-finite update gives the default; with no update, a finite current value is kept, clamped, and otherwise the default applies |
| Background.TuningStrideExample | src/background.js:118-123 | chunk 5 with stride 8 and no current tuning gives stride 4.9 |
| Background.SanitizeTuningStable | src/background.js:82-126 | sanitised tuning stored as the current tuning and sanitised again with no update is unchanged |
| Background.Keys | src/background.js:128-136 | the installed-model keys are the entries trimmed, one for one |
| Background.FirstsMembers | src/background.js:133-143 | the de-duplicating pass keeps exactly the non-empty keys |
| Background.AppendDistinct | src/background.js:137-141 | appending a key not yet seen keeps the list free of duplicates |
| Background.FirstsDistinct | src/background.js:133-143 | the de-duplicating pass yields no duplicates |
| Background.NormalizeInstalled | src/background.js:128-144 | the normalised list has no duplicates and holds exactly the non-empty trimmed entries; no list gives an empty one |
| Background.FirstsOfDistinct | src/background.js:133-143 | a duplicate-free list with no empty key passes through unchanged |
| Background.KeysOfTrimmed | src/background.js:128-135 | trimming a list of trimmed entries changes nothing |
| Background.NormalizedEntries | src/background.js:128-144 | every entry of a normalised list is non-empty and trimmed |
| Background.NormalizedIsFixed | src/background.js:128-144 | a duplicate-free list of non-empty trimmed entries is already normal |
| Background.NormalizeInstalledIdempotent | src/background.js:128-144 | normalising twice is the same as normalising once |
| Background.NormalizeInstalledModels | src/background.js:128-144 | the loop with its seen-set computes the normalised list |
| Background.FirstsStep | src/background.js:135-142 | one loop step keeps a key exactly when it is non-empty and not yet kept |
| Background.AppendStaysNormal | src/background.js:166-184 | appending a new non-empty trimmed id to a normal list keeps it normal |
| Background.MarkModelInstalled | src/background.js:166-184 | a blank id, or one already installed, leaves the list as it is; otherwise the trimmed id is appended to the normalised list |
| Background.MarkModelInstalledIdempotent | src/background.js:166-184 | after marking, a non-blank id is installed, and marking it again changes nothing |
| Background.MarkModelInstalledKeepsNormal | src/background.js:166-184 | marking keeps a normal list normal |
| Background.RoundInto | src/background.js:251-273 | a coordinate is `Math.round` of the value when that lies within the bounds, and the nearer bound otherwise; an integral value within the bounds is kept |
| Background.SanitizeSubtitleLayout | src/background.js:251-273 | a layout is accepted exactly when it has four finite numbers; each accepted field is its value rounded into its bounds (width 260-2400, height 56-1600, left and top ±8000), so an accepted layout lies within them |
| Background.SanitizeLayoutKeepsInBounds | src/background.js:251-273 | an in-bounds layout is accepted unchanged |
| Background.SanitizeLayoutIdempotent | src/background.js:251-273 | sanitising an accepted layout again gives the same layout |
| Background.Newest | src/background.js:289 | keeping the newest n entries gives the last min(n, length) entries |
| Background.NewestElements | src/background.js:289 | the entries kept are all entries of the original list |
| Background.AppendLoadLog | src/background.js:275-294 | a blank message, or one the last line already ends with, leaves the log alone; otherwise the stamped line is appended as the newest and the log keeps at most 80 lines |
| Background.LogLineEndsWithMessage | src/background.js:283-288 | a stamped line ends with a space and its message, which is what the repeat check looks for |
| Background.AppendLoadLogDeduplicates | src/background.js:275-294 | appending the same message twice in a row logs it once, whatever the two timestamps |
| Background.AppendLoadLogBounded | src/background.js:275-294 | the log never grows past 80 lines |
| Background.IsCapturableTabUrl | src/background.js:388-400 | a tab can be captured exactly when its URL is non-empty and starts with `http://` or `https://` |
| Background.ToRetargetStatus | src/background.js:402-411 | the status is one of three: a Chrome-page error gives the internal-page status; otherwise a missing-invocation or activeTab error gives the open-extension status; any other error gives "waiting for active tab" |
| Background.RetargetStatusIgnoresCase | src/background.js:403 | the status does not depend on the letter case of the error text |
| Language.AliasesAreCodes | src/background.js:51-72 | every English name maps to a two-letter code, and every name is longer than a code |
| Language.AliasNotInherited | src/background.js:51-75 | no English name in the lookup is one of the inherited object member names |
| Language.Normalize | src/background.js:46-80 | the result is always a two-letter code: blank gives `en`, a known name its code, a code itself, anything else `en` |
| Language.NormalizeAsWritten | src/background.js:46-80 | as written, the lookup yields an inherited object member exactly for the names `constructor` and `__proto__`; every other result is a two-letter code |
| Language.AsWrittenAgreesElsewhere | src/background.js:46-80 | the code's plain-object lookup agrees with the intended rule on every input except the inherited member names |
| Language.KeyOfLowerTrimmed | src/background.js:47 | the lookup key of a trimmed, lowercase string is the string itself |
| Language.ConstructorIsNotACode | src/background.js:73-75 | as written, "constructor" finds the inherited object member rather than a code; the intended rule gives `en` |
| Language.KeyOfCode | src/background.js:47 | a two-letter code is its own lookup key |
| Language.NormalizeIdempotent | src/popup.js:41-75 | normalising an already normalised language changes nothing |
| Session.Log | src/background.js:275-294 | logging touches only the load log and keeps it within 80 lines |
| Session.SelectLanguage | src/background.js:537 | an English-only model always gets `en`; any other model gets the normalised choice, which is always a code |
| Session.RequestTuning | src/background.js:538 | the requested tuning, the update over the stored or default tuning, is valid |
| Session.Teardown | src/background.js:886-896 | the offscreen capture is stopped exactly when captions run or a tab is targeted, and exactly the targeted tab's captions are cleared |
| Session.Fail | src/background.js:943-966 | a failed request ends captioning and loading with status "error" and its message; the ready flag, loaded model, selection and tuning are kept, and the offscreen capture is torn down |
| Session.LoadModel | src/background.js:535-598 | the session takes the requested model, the language fitted to it and the requested tuning. An already loaded model skips the preload and reads "model ready". Otherwise a passing preflight sends one preload with that selection and marks loading, and a throwing preflight ends in the error state with the capture torn down |
| Session.LoadReadyModelSkipsPreload | src/background.js:569-573 | loading the model that is already ready sends nothing, leaves it ready, and does not depend on the network |
| Session.EnglishOnlyLoadUsesEnglish | src/background.js:537 | loading an English-only model always selects `en`, whatever the language asked for |
| Session.CaptureTuning | src/background.js:495 | the tuning sent with a retargeted capture is valid |
| Session.Retarget | src/background.js:413-520 | when captions are not running, or already run on the target, nothing happens. Otherwise captions keep running, the error is cleared and the previously targeted tab, if any, is told to clear its subtitles. Either the capture starts on a capturable, reachable target with the session's model, language and tuning and the status reads "switching tabs", or the capture is stopped, no tab is targeted and the status says why: "waiting for active tab" without a target, "waiting: active tab is not capturable" for an address that cannot be captured, and the classified failure message when the switch fails. The ready model is never touched |
| Session.StartRequiresReadyModel | src/background.js:609-611 | starting with a model that is not the ready one fails with "Model not loaded", starts nothing and preloads nothing |
| Session.StartCapturesReadyModel | src/background.js:600-649 | from a stopped session, captions run exactly when a tab is given, the requested model is the ready one and capture succeeds; then exactly one capture starts on that tab with the fitted language and requested tuning; otherwise the result is the error state |
| Session.StartWhileRunningRetargets | src/background.js:618-621 | starting while captions run is a retarget to the given tab |
| Session.StopCaptioning | src/background.js:651-676 | stopping ends captioning, clears the error, shows "model ready" or "idle", changes nothing else, stops the capture and clears the previous tab |
| Session.OffscreenStatus | src/background.js:787-813 | a status report clears the error and takes the new status, except that "model ready" or "stopped" does not overwrite the waiting status of a running session with no tab; model and capture flags are kept |
| Session.OffscreenProgress | src/background.js:815-852 | a progress report takes the status and a non-empty stage, clears the error and keeps the flags; it adds a log line only when status or stage changed |
| Session.TenthsText | src/background.js:856-857 | whole seconds print without a decimal and other times with one decimal digit, as JavaScript prints a number of tenths divided by ten |
| Session.TenthsTextRoundTrip | src/background.js:856-857 | reading the printed seconds back gives the same number of tenths, so different load times never print alike |
| Session.ReadyStatus | src/background.js:856-873 | the ready status is plain "model ready" exactly when the load took under 50 ms; otherwise it names the time, which reads back as the load time rounded to tenths of a second |
| Session.OffscreenModelReady | src/background.js:854-880 | a ready report marks the reported model (or the session's) loaded and ready, not loading, records it as installed, clears the error and sets the ready status |
| Session.ReadyStatusExamples | src/background.js:856-873 | 2340 ms reads "model ready (2.3s)"; 40 ms rounds to zero seconds and reads "model ready" |
| Session.OffscreenError | src/background.js:881-916 | an offscreen error ends captioning and loading with the error (or "Unknown error"); the model stays ready only if no load was running; the capture is torn down |
| Session.OffscreenWarning | src/background.js:917-923 | a runtime warning changes only the load log |
| Session.OffscreenTranscript | src/background.js:924-940 | a transcript is forwarded, as one caption message to the targeted tab, exactly when captions run and it comes from that tab |
| Session.SetTuning | src/background.js:718-740 | the stored tuning becomes the valid requested tuning, and it is forwarded to the offscreen document exactly when captions run or a model is ready or loading |
| Session.SetSubtitleLayout | src/background.js:747-761 | a layout is stored, sanitised, exactly when it is valid; an invalid one leaves the session unchanged |
| Session.GetState | src/background.js:700-716 | reading the state fills in a valid default tuning when none is stored and otherwise changes nothing |
| Session.InitialCoherent | src/background.js:3-18 | the initial session is coherent: no tab without running captions, never ready and loading at once, ready only with a loaded model, log within bounds, installed list normal, tuning valid |
| Session.LoadModelKeepsCoherent | src/background.js:535-598 | loading keeps the session coherent |
| Session.StartCaptioningKeepsCoherent | src/background.js:600-649 | starting keeps the session coherent |
| Session.StartCaptioning | src/background.js:600-611 | a start without a tab fails with "No active tab selected"; captions run after a start only if the requested model is the ready one; a start never changes which model is ready |
| Session.RetargetKeepsCoherent | src/background.js:413-520 | retargeting keeps the session coherent |
| Session.StopKeepsCoherent | src/background.js:651-676 | stopping keeps the session coherent |
| Session.StatusKeepsCoherent | src/background.js:787-813 | a status report keeps the session coherent |
| Session.ProgressKeepsCoherent | src/background.js:815-852 | a progress report keeps the session coherent |
| Session.WarningKeepsCoherent | src/background.js:917-923 | a warning keeps the session coherent |
| Session.ReadyKeepsCoherent | src/background.js:854-880 | a ready report keeps the session coherent |
| Session.ErrorKeepsCoherent | src/background.js:881-916 | an error report keeps the session coherent |
| Session.SetTuningKeepsCoherent | src/background.js:718-740 | a tuning update keeps the session coherent |
| Session.SetLayoutKeepsCoherent | src/background.js:747-761 | a layout update keeps the session coherent |
| Session.GetStateKeepsCoherent | src/background.js:700-716 | reading the state keeps the session coherent |
| Popup.SanitizeTuning | src/popup.js:81-124 | the popup's sanitiser always yields valid tuning |
| Popup.IsSelectedModelReady | src/popup.js:77-79 | the popup shows the selection as ready only when the session is ready with exactly the selected model loaded |
| Popup.PopupAgreesWithBackground | src/popup.js:81-124 | the popup's copy equals the background's sanitiser with no current tuning, for every update |
| Popup.PopupFieldSource | src/popup.js:81-124 | each non-stride field is the update's finite value clamped into range, or the default |
| Popup.FormatStatus | src/popup.js:155-166 | an error is shown first; a running session shows its status (or "running") on its tab; otherwise the status, or "Idle" |
| Popup.StatusAfterStopAndError | src/popup.js:155-166 | after a stop the popup reads "model ready" or "idle"; after an offscreen error it reads "Error: " and the message |
| Popup.FormatLoadLog | src/popup.js:222-229 | no log lines read "No logs yet."; otherwise the newest 20 lines joined by newlines |
| Popup.JoinEndsWithLast | src/popup.js:222-229 | joined lines end with the last line |
| Popup.LoadLogShowsNewest | src/popup.js:222-229 | the shown log ends with the newest line, and a log of at most 20 lines is shown whole |
| Popup.ReadySelectionStarts | src/popup.js:77-79 | with captions stopped and a start the browser does not refuse, starting the selected model runs captions exactly when the popup shows it as ready, and then on the given tab with that model |
| Popup.Render | src/popup.js:253-300 | load and start are disabled exactly while loading or running, stop exactly while not running; the language is locked to `en` exactly for an `.en` model |
| Popup.ControlsExclusive | src/popup.js:253-300 | whenever stop is enabled, load and start are disabled |
| Popup.LockCoversLowercaseEnglishOnly | src/popup.js:279-283 | every lowercase id the background treats as English-only is locked by the popup |
| Popup.LockAndEnglishOnlyDiffer | src/popup.js:279-283 | "custom-model.en" is locked by the popup but is not English-only for the background |
| Popup.LockedButNotEnglishOnly | src/popup.js:279-283 | any id ending in `.en` with no uppercase letter and no `w` is locked by the popup but is not English-only for the background |
| SampleBuffer.FlattenAppend | src/offscreen.js:747-753 | the samples of the chunks plus one more chunk are the old samples followed by that chunk |
| SampleBuffer.FlattenSplit | src/offscreen.js:83-93 | the samples of a chunk list split at any point are the two parts' samples in order |
| SampleBuffer.FlattenFrom | src/offscreen.js:95-109 | the samples from chunk i on are chunk i followed by the rest |
| SampleBuffer.Push | src/offscreen.js:747-750 | pushing a chunk appends it, keeps the sample count exact, and puts its samples after the old ones |
| SampleBuffer.Trim | src/offscreen.js:83-93 | trimming drops only the oldest chunks, ends within the limit or empty, and drops a chunk only while the samples from it on exceed the limit |
| SampleBuffer.TrimWithinLimit | src/offscreen.js:83-93 | with a non-negative limit the trimmed buffer holds at most the limit |
| SampleBuffer.TrimTight | src/offscreen.js:83-93 | the last chunk dropped was needed: keeping it would exceed the limit |
| SampleBuffer.TrimKeepsNewest | src/offscreen.js:83-93 | the trimmed samples are the newest samples of the buffer |
| SampleBuffer.Receive | src/offscreen.js:747-753 | a received chunk leaves the buffer within the keep window, and what is kept is the newest part of the old samples followed by the chunk |
| SampleBuffer.GetLastSamples | src/offscreen.js:95-109 | the backwards copy returns min(count, held) samples, and they are the newest ones held |
| SampleBuffer.CopyStep | src/offscreen.js:100-106 | one backwards copy step keeps the output a suffix of all samples |
| SampleBuffer.LastSamplesAll | src/offscreen.js:95-109 | asking for at least as many samples as are held returns all of them |
| Resample.OutputLength | src/offscreen.js:116-117 | the output holds at least one sample |
| Resample.ReadIndexInBounds | src/offscreen.js:120-125 | every output position reads within the input |
| Resample.Interpolate | src/offscreen.js:121-125 | an interpolated sample lies between its two neighbouring input samples |
| Resample.SampleAtPosition | src/offscreen.js:120-126 | output sample i interpolates the input at position i times the ratio |
| Resample.ResampleByRatio | src/offscreen.js:116-128 | the output length is the rounded input length over the ratio, and at least one |
| Resample.ResampleLinear | src/offscreen.js:111-129 | equal rates or an empty input return the input unchanged; otherwise the output has the rate-adjusted length |
| Resample.ResampleSample | src/offscreen.js:120-126 | every output sample lies between the two input samples it interpolates |
| Resample.ResampleWholeFactor | src/offscreen.js:111-129 | downsampling by a whole factor k picks every k-th input sample |
| Resample.ResampleAt | src/offscreen.js:120-126 | the resampled sequence at i is the interpolation at i |
| Resample.InterpolateAtIndex | src/offscreen.js:121-125 | interpolating at a whole index returns that sample |
| Resample.SumSquares | src/offscreen.js:131-143 | the energy of a window is never negative |
| Resample.MeanSquare | src/offscreen.js:131-143 | the mean square is never negative, and an empty window has none |
| Resample.SumSquaresOfSilence | src/offscreen.js:131-143 | an all-zero window has zero energy |
| Resample.SilenceIsBelowThreshold | src/offscreen.js:131-143 | an all-zero window never reaches a positive silence threshold |
| Models.ValidWindows | src/offscreen.js:257-262 | with valid settings the general window is 0.8-12 s and the base window 0.5-12 s |
| Models.WindowSecondsFor | src/offscreen.js:257-262 | base models use the base window, all others the general window, and the window is always 0.5-12 s |
| Models.DecodeLanguage | src/offscreen.js:298 | the language passed to the engine is trimmed and lowercased, `en` when blank, never empty and never uppercase |
| Models.BuildOptions | src/offscreen.js:271-301 | timestamps are never requested; chunk and stride come from the base or general settings by model size; only a multilingual model clears forced decoder ids, and it gets the task and the language only when forced |
| Models.OptionsStrideBelowChunk | src/offscreen.js:271-301 | with valid settings every option set has a positive stride below its chunk length |
| Models.EnglishOnlyOptionsIgnoreLanguage | src/offscreen.js:284-286 | for an English-only model the options do not depend on the language or the flags, and name no language |
| Models.IsEnglishOnly | src/offscreen.js:248-251 | an English-only id names a `whisper-` model and ends in `.en`; as `whisper-` holds no dot the two cannot overlap, so such an id has at least 11 characters |
| Models.MarkersDoNotOverlap | src/offscreen.js:248-251 | a text containing `whisper-` and ending in `.en` has at least 11 characters |
| Models.EnglishOnlyIgnoresCase | src/offscreen.js:248-251 | whether a model is English-only does not depend on the letter case of its id |
| Models.RetrySurvivesWrapping | src/offscreen.js:321-324 | the retry test looks only for its markers, so a message that asks for a retry still does once wrapped in any leading and trailing text |
| Models.TokenLookupErrorRetried | src/offscreen.js:321-324 | a missing language-token error ("reading '<\|fr\|>'") is retried without forced language |
| Models.OutOfMemoryNotRetried | src/offscreen.js:321-324 | an "out of memory" failure is not retried |
| Models.ShouldRetryWithoutForcedLanguage | src/offscreen.js:321-324 | a failed call is retried exactly when "reading '<\|" or "lang_to_id" occurs in its message |
| Models.NormalizeText | src/offscreen.js:231-245 | engine output as text: a string as is, else an object's string `text`, else empty |
| Models.NormalizeTextRoundTrip | src/whisper-worker.js:117-131 | a text returned bare or as an object's `text` normalises back to itself, in the worker's copy as in the offscreen one |
| Models.NormalizeTextIdempotent | src/offscreen.js:231-245 | normalising the text of a normalised output gives it back |
| Dispatch.ResetVoice | src/offscreen.js:673 | a stop forgets the last voice time and keeps the last dispatch time |
| Dispatch.WindowAudio | src/offscreen.js:653-655 | a non-empty window of buffered audio resamples to a non-empty window |
| Dispatch.Evaluate | src/offscreen.js:638-666 | a window is sent exactly when captions run, the model is ready, there is audio, the interval has passed, enough audio is held, and the window is voiced or within the voice hold. A skip changes nothing. A send records its time, carries the resampled window, and records voice exactly when the window was voiced |
| Dispatch.DispatchesAreSpaced | src/offscreen.js:643-646 | after a send, nothing more is sent until the dispatch interval has passed |
| Dispatch.VoiceHoldBoundary | src/offscreen.js:658-662 | a silent window still goes out exactly at the end of the voice hold, and not one millisecond later |
| Dispatch.SilenceAfterResetNeverDispatches | src/offscreen.js:658-662 | after a stop, silence sends nothing once the hold has run out, whatever the capture and model flags |
| Transcriber.Submit | src/offscreen.js:578-595 | a window is dropped unless capturing with a ready model; while a call runs it replaces the queued window; otherwise it starts a call with forced options |
| Transcriber.ResultText | src/offscreen.js:613 | a transcript is trimmed text |
| Transcriber.Emit | src/offscreen.js:613-617 | text is emitted exactly when capturing, non-empty and different from the last emitted text, and then becomes the last text |
| Transcriber.Warn | src/offscreen.js:618-626 | a warning is sent only when more than 1.5 s have passed since the last one |
| Transcriber.Settle | src/offscreen.js:597-626 | a finished call leaves the running set, records one relaxed retry when the first attempt failed on a language token, emits at most one new trimmed transcript while capturing, and sends at most one rate-limited warning |
| Transcriber.Complete | src/offscreen.js:597-636 | a completion keeps at most one engine call in flight, and only ever adds calls to the call log |
| Transcriber.CompleteRetriesOnce | src/offscreen.js:597-611 | a completion adds at most one relaxed retry and then starts the queued window, if any, when still capturing with a ready model |
| Transcriber.CompleteEmission | src/offscreen.js:613-617 | a completion emits either nothing or one new, non-empty, trimmed transcript that differs from the last one |
| Transcriber.CompleteWarningRateLimit | src/offscreen.js:618-626 | a completion warns only after more than 1.5 s of quiet, and then sends one warning |
| Transcriber.StopAsWritten | src/offscreen.js:668-673 | the stop as written clears the busy flag, the queued window and the last text even while a call is still running |
| Transcriber.Stop | src/offscreen.js:668-673 | the corrected stop clears the queued window and the last text but keeps the busy flag of a running call |
| Transcriber.InitialSingleFlight | src/offscreen.js:583-588 | at start no call runs and the executor is idle |
| Transcriber.SubmitKeepsSingleFlight | src/offscreen.js:583-588 | a submission keeps at most one engine call in flight |
| Transcriber.CompleteKeepsSingleFlight | src/offscreen.js:627-635 | a completion keeps at most one engine call in flight |
| Transcriber.StopKeepsSingleFlight | src/offscreen.js:668-673 | the corrected stop keeps at most one engine call in flight |
| Transcriber.LatestWindowWins | src/offscreen.js:583-586 | of three windows submitted during one call, the middle one is dropped and the newest runs next |
| Transcriber.StopAsWrittenBreaksSingleFlight | src/offscreen.js:668-673 | with the stop as written, a restart while a call runs puts two engine calls in flight |
| Transcriber.StopQueuesBehindRunningCall | src/offscreen.js:668-673 | with the corrected stop, a window submitted after a restart waits behind the running call |
| ModelLoader.SetModelError | src/offscreen.js:373-384 | a failure ends loading, drops readiness and the recognizer, reports the message, and leaves the loader consistent |
| ModelLoader.BeginRequestAsWritten | src/offscreen.js:410-419 | as written, a request drops a recognizer held for the current model whenever that model is not ready, even while its load runs |
| ModelLoader.BeginRequest | src/offscreen.js:410-419 | the corrected entry drops such a recognizer only when no load runs, and keeps the loader consistent |
| ModelLoader.LoopStep | src/offscreen.js:421-441 | the loop is done exactly when the current model is ready and waits exactly while a load is pending; otherwise a new load starts with the next id and fresh timers, not yet pending and with the recognizer left as it was |
| ModelLoader.Arm | src/offscreen.js:443-463 | installing the load's promise makes it pending and leaves a recognizer for the current model held; a recognizer for another model is dropped together with readiness, and loading and the load ids are untouched |
| ModelLoader.RequestBeforeArmBeginsAgain | src/offscreen.js:421-443 | a request arriving while a new load awaits its first progress message does not wait: it begins a second load with the next id, which becomes the active one |
| ModelLoader.ArmedLoadMakesRequestsWait | src/offscreen.js:421-424 | once the load is armed, a request for the current model waits for it |
| ModelLoader.HeartbeatVerdict | src/offscreen.js:201-229 | the heartbeat is idle when nothing loads; it finds a stall after 10 s without progress, and a timeout after 180 s in total when there is no stall |
| ModelLoader.Heartbeat | src/offscreen.js:201-229 | a stalled or timed-out load fails with one error; otherwise the tick changes nothing |
| ModelLoader.LoadTimer | src/offscreen.js:444-449 | the 180 s timer fails only the load that is still active, and otherwise changes nothing |
| ModelLoader.Progress | src/offscreen.js:463-473 | a progress event is reported exactly when it belongs to the active load and 350 ms have passed since the last report; a report refreshes the progress signal |
| ModelLoader.ReportsAreThrottled | src/offscreen.js:468-473 | two reported progress events are at least 350 ms apart |
| ModelLoader.ReportDefersStall | src/offscreen.js:201-229 | a report keeps the load from being declared stalled for the next 10 s |
| ModelLoader.ResolvedAsWritten | src/offscreen.js:549-561 | as written, a resolving load makes the current model ready whatever happened in the meantime |
| ModelLoader.Resolved | src/offscreen.js:549-571 | the corrected success counts only for the active load holding a recognizer, and the ready model is the one that recognizer was built for; it keeps the loader consistent |
| ModelLoader.Failed | src/offscreen.js:562-566 | a failed load drops the recognizer and leaves nothing loading or ready |
| ModelLoader.GuardedLifecycleConsistent | src/offscreen.js:410-576 | every corrected lifecycle step, arming included, keeps a ready model's recognizer held, nothing loading while a model is ready, and the active load id handed out |
| ModelLoader.SatisfiedHoldsRecognizer | src/offscreen.js:421 | under consistency, a ready current model has its recognizer held and no load runs |
| ModelLoader.StalledLoadResolvesWithoutRecognizer | src/offscreen.js:551-561 | as written, a load declared stalled can still resolve later and leave the model ready with no recognizer |
| ModelLoader.ReentrantRequestLosesRecognizer | src/offscreen.js:415-419 | as written, a second request for the loading model drops its recognizer, and the later success leaves the model ready with none |
| ModelLoader.GuardedScenarios | src/offscreen.js:410-576 | with the corrections, the stalled load is not marked ready and the second request keeps the recognizer, so the model becomes ready with it |
| ModelLoader.ProgressPercent | src/offscreen.js:475-487 | a finite progress above 1 is rounded as a percentage and one of at most 1 is scaled from a fraction; failing that, loaded over a positive total is scaled; otherwise there is no percentage. A value 0-100, or bytes within a positive total, give 0-100 |
| ModelLoader.FractionAndPercentAgree | src/offscreen.js:483-484 | a fraction above 0.01 and the same amount as a percentage report the same percent |
| ModelLoader.BytesAgreeWithFraction | src/offscreen.js:483-486 | byte counts within a positive total report what their ratio would report as a fraction |
| ModelLoader.ProgressOfOneIsFull | src/offscreen.js:483-484 | a progress of exactly 1 reads as 100 %, 0.5 as 50 % and 2 as 2 % |
| Captions.Collapse | src/content.js:232-236 | collapsing whitespace never lengthens the text, keeps a leading non-space character, and turns a leading run of whitespace into one space |
| Captions.NonSpaceAppend | src/content.js:232-236 | the non-whitespace characters of two joined texts are those of each, joined |
| Captions.NonSpaceOfSpaces | src/content.js:232-236 | a text of whitespace only has no other characters |
| Captions.TrimStartKeepsNonSpace | src/content.js:233 | removing leading whitespace keeps every other character |
| Captions.TrimEndKeepsNonSpace | src/content.js:233 | removing trailing whitespace keeps every other character |
| Captions.TrimKeepsNonSpace | src/content.js:233 | trimming keeps every non-whitespace character, in order |
| Captions.CollapseKeepsNonSpace | src/content.js:232-236 | collapsing whitespace loses and adds no character other than whitespace |
| Captions.CollapseSingleSpaced | src/content.js:232-236 | the collapsed text has no two whitespace characters in a row, and its only whitespace is plain spaces |
| Captions.TrimStartBeforeWord | src/content.js:232-236 | trimming the front of whitespace followed by a word leaves exactly the word and what follows it |
| Captions.TrimStartAppend | src/content.js:232-236 | trimming the front of a text that ends in a word only affects that text, not what is appended after it |
| Captions.CollapseSpaceRun | src/content.js:234 | a run of whitespace in front of a word becomes exactly one space |
| Captions.CollapseWordCons | src/content.js:234 | a leading non-whitespace character is kept and the rest is collapsed on its own |
| Captions.CollapseSpaceCons | src/content.js:234 | a leading whitespace character becomes one space, and the rest is collapsed after its own leading whitespace |
| Captions.AfterWordSpaceStep | src/content.js:234 | leading whitespace in front of a text that ends in a word does not change how the whitespace after that word collapses |
| Captions.AfterWordWordStep | src/content.js:234 | a word character in front does not change how the whitespace after a word collapses |
| Captions.AfterWordBase | src/content.js:234 | a one-character word followed by whitespace collapses to that character, one space, and the rest collapsed |
| Captions.CollapseAfterWord | src/content.js:234 | whitespace following a word becomes exactly one space, and collapsing continues from the next word |
| Captions.CollapseJoin | src/content.js:234 | two words separated by any run of whitespace collapse to the two words collapsed on their own, joined by exactly one space |
| Captions.CollapseLast | src/content.js:234 | a text that ends in a word still ends in that character once collapsed |
| Captions.SingleSpacedPiece | src/content.js:232-236 | any piece of single-spaced text is single-spaced |
| Captions.NormalizeCaptionText | src/content.js:232-236 | the cleaned caption is trimmed |
| Captions.NormalizedCaptionShape | src/content.js:232-236 | the cleaned caption neither starts nor ends with whitespace, has single spaces only, and no other whitespace characters |
| Captions.NormalizeKeepsNonSpace | src/content.js:232-236 | cleaning changes only whitespace: the other characters of the caption are kept, in order |
| Captions.NormalizeJoin | src/content.js:232-236 | cleaning two trimmed, non-empty texts separated by any whitespace gives the two cleaned texts joined by exactly one space: whitespace between words is kept as one space, never dropped |
| Captions.StripPunct | src/content.js:238-243 | stripping never lengthens the text and leaves no caption punctuation or whitespace |
| Captions.StripPunctChar | src/content.js:238-243 | a single character is dropped exactly when it is punctuation or whitespace, and kept otherwise |
| Captions.StripPunctAppend | src/content.js:238-243 | stripping works character by character: the core of two joined texts is the two cores joined |
| Captions.StripCaptionPunctuation | src/content.js:238-243 | the punctuation-free core holds no punctuation |
| Captions.StripEmptyIffAllPunct | src/content.js:238-243 | the core is empty exactly when the text is all punctuation |
| Captions.StripIdempotent | src/content.js:238-243 | stripping twice is the same as stripping once |
| Captions.ShouldReplaceLastCaption | src/content.js:244-277 | nothing replaces an empty last caption; text that equals, contains or is contained in the last caption replaces it |
| Captions.ReplaceByCores | src/content.js:258-276 | otherwise the punctuation-free cores decide: containment either way or a core at least as long replaces; with an empty core the longer raw text replaces |
| Captions.ReplaceIsTotal | src/content.js:244-277 | between two non-empty captions, one of them always replaces the other: the newer never has to be appended in both orders |
| Captions.ReplaceIgnoresPunctuation | src/content.js:258-270 | a caption whose punctuation-free core equals the non-empty core of the last caption replaces it, whatever its punctuation and spacing |
| Captions.CommonPrefix | src/content.js:279-286 | the common prefix length is the longest agreeing prefix of both texts |
| Captions.CommonPrefixLength | src/content.js:279-286 | the scanning loop computes the common prefix length |
| Captions.PrefixUnique | src/content.js:279-286 | a prefix on which the texts agree and then differ, or end, is the common prefix |
| Captions.IsLikelyPartialRegression | src/content.js:288-310 | only a shorter, non-empty text can be a partial regression of a non-empty last caption |
| Captions.ThreeQuarters | src/content.js:307-309 | the 0.75 prefix ratio test is the integer test 4p >= 3m |
| Captions.PartialRegressionIff | src/content.js:288-310 | a regression holds exactly when the new text is shorter, the lowercased cores are non-empty and one contains the other, both are at least 6 long, and their common prefix covers at least 75% of the shorter core |
| Captions.ShowCaption | src/content.js:312-336 | an empty, repeated or regressing caption leaves the history alone; any other caption replaces the newest line when that line exists and the replace rule holds, and is otherwise appended, keeping the newest 8 lines |
| Captions.AppendKeepsNewest | src/content.js:329-334 | appending a caption and keeping the newest 8 lines drops lines only from the front |
| Captions.ShowCaptionShape | src/content.js:312-336 | the history stays within 8 lines, and a caption either changes nothing, replaces the last line, or is appended after dropping the oldest lines |
| Captions.FirstCaptionAppends | src/content.js:312-334 | the first non-empty caption starts the history |
| Captions.ClearSubtitles | src/content.js:453-459 | clearing empties the caption history |
| Captions.ClampInt | src/content.js:123-125 | clamping gives a value within bounds and keeps one already within them |
| Captions.HalfRounded | src/content.js:178 | half of a free span, rounded, stays within the span |
| Captions.NormalizeLayout | src/content.js:164-182 | the box always fits the window; each finite field is rounded and clamped into its range, a missing width is the widest allowed, a missing height the minimum, a missing left centres the box and a missing top puts it at the bottom |
| Captions.NormalizeLayoutKeepsFitting | src/content.js:164-182 | a box that already fits is kept unchanged |
| Captions.MissingLayoutIsDefault | src/content.js:127-133 | in a window of at least 260 by 92 pixels, a page with no stored box gets the default box unchanged |
| Captions.NormalizeLayoutIdempotent | src/content.js:164-182 | normalising a normalised box changes nothing |
| Worker.ProbeCandidates | src/whisper-worker.js:74-92 | with no candidates left, the preflight fails with the missing-assets message |
| Worker.PreflightOutcome | src/whisper-worker.js:52-100 | a hub request that throws fails with its message; a hub answer that is not ok fails with the status and model |
| Worker.ProbePassesIff | src/whisper-worker.js:81-91 | the probe passes exactly when some candidate answers ok after every earlier one answered not ok |
| Worker.PreflightPassesIff | src/whisper-worker.js:52-100 | the preflight passes exactly when the hub answers ok and one of the three runtime files is reachable |
| Worker.RunPreflight | src/whisper-worker.js:52-100 | the loop computes the preflight outcome, probes no file when the hub fails, probes at most three, and stops at the first reachable one |
| Worker.GetRecognizerAsWritten | src/whisper-worker.js:102-115 | as written, the cache is rebuilt only for a different model, so it always ends holding the requested model |
| Worker.FailedLoadIsNeverRetried | src/whisper-worker.js:102-115 | as written, a cached failed load for a model is returned again even though a new load would succeed |
| Worker.GetRecognizer | src/whisper-worker.js:102-115 | the corrected lookup reuses only a successful cached load of the same model; otherwise it builds a new generation and returns that load's outcome, so a load that succeeds gives no error |
| Worker.GetRecognizerReuses | src/whisper-worker.js:102-115 | after a successful load, the next lookup for the same model reuses it and builds nothing |
| Worker.LookupsAgreeOnHealthyCache | src/whisper-worker.js:102-115 | on an empty or healthy cache the corrected lookup behaves exactly as written |
| Worker.LoadMs | src/whisper-worker.js:184 | the reported load time is non-negative and the elapsed time rounded |
| Worker.OnInit | src/whisper-worker.js:174-198 | INIT updates the default language even when it fails, leaves the job queue and the job in flight with its lookup alone, and posts READY exactly when the preflight passes and the recognizer loads; READY names the model, the default language and the load time |
| Worker.OnTranscribe | src/whisper-worker.js:133-213 | a job takes the message language or the default and the cached model or the default model; while busy the queue keeps the newest two jobs and the recognizer is untouched, and when idle the job starts at once with its recognizer looked up |
| Worker.StartJob | src/whisper-worker.js:141-144 | a dequeued job runs with the rest still queued, and its recognizer is looked up at once; the lookup's error stays with the job |
| Worker.OnJobDone | src/whisper-worker.js:140-165 | a finished job posts the error of the lookup taken at its dequeue when that failed, otherwise TRANSCRIPT with the normalised output text exactly when the engine resolved, and ERROR otherwise; then the next queued job starts with its own lookup, or processing ends with the recognizer untouched |
| Worker.InitLeavesJobInFlight | src/whisper-worker.js:140-198 | an INIT arriving while a job runs does not change what that job posts, because its recognizer was looked up when it was dequeued |
| Worker.InitialCoherent | src/whisper-worker.js:11-16 | the initial worker is coherent: processing exactly while a job runs, an empty queue when idle, at most two queued jobs, non-empty languages |
| Worker.OnInitKeepsCoherent | src/whisper-worker.js:174-198 | INIT keeps the worker coherent |
| Worker.OnTranscribeKeepsCoherent | src/whisper-worker.js:201-213 | TRANSCRIBE keeps the worker coherent |
| Worker.OnJobDoneKeepsCoherent | src/whisper-worker.js:140-165 | finishing a job keeps the worker coherent |
| Worker.DecodesInJobLanguage | src/whisper-worker.js:147 | a running job is decoded in its own language, never the fallback |
| Worker.JobDoneRunsFirstPending | src/whisper-worker.js:140-162 | finishing a job removes exactly the first pending job, keeps the worker coherent, never posts READY, a thrown recognition posts ERROR, and a failed lookup posts its error |
| Worker.DrainQueue | src/whisper-worker.js:133-166 | processing runs every pending job in order, posts one message per job, never READY, an ERROR for each recognition that throws, and ends idle with an empty queue |
| Worker.QueueStaysBounded | src/whisper-worker.js:208-210 | the queue never holds more than two jobs |
| Worker.FullQueueDropsOldest | src/whisper-worker.js:202-210 | a job arriving at a full queue drops the oldest queued job and goes last |

## Left out

- I/O, Chrome APIs and timers are left out: messaging, storage, tab capture, offscreen document management, `setInterval`/`setTimeout` and `Date.now`. Their effects are commands or state fields, their answers are parameters, and time is an integer millisecond parameter.
- Floating point is not modelled bit for bit. Samples, rates and settings are exact reals, and RMS is compared as a mean square against the squared threshold.
- `toLowerCase` is modelled on ASCII letters only. Strings are sequences of characters, not UTF-16 code units.
- The engine, the `pipeline` factory and `probeOnnxTransfer` are foreign code. Their outcomes are parameters: an engine call resolves with an output or throws with a message.
- `canForceLanguageSelection` inspects the engine's tokenizer, so the forced-language flag is a parameter of the options.
- WebGPU-then-WASM backend selection and `disposeRecognizerLater` are left out. Only whether a recognizer is held, and for which model, matters to the lifecycle.
- The background's `loadStats` fields (percent, bytes, file, elapsed time) are left out; the session keeps only the stage. `isLikelyLegacyFullscreenLayout` and `isLikelyOversizedLayout` are also left out: they only decide whether a saved layout is discarded for the default, and they depend on the live window size.
- `onStartup` rehydration and the `GET_SUBTITLE_LAYOUT` and `POPUP_OPENED` handlers only read or re-send state that the modelled operations already produce. They are not modelled, and neither are the drag, resize and debounced-save handlers of the overlay.
- The log timestamp is the `stamp` parameter, not a clock reading.
- Session.LoadModel: a failure to send PRELOAD_MODEL after the preflight passes is folded into the preflight's throw outcome.
- Session.StartCaptioning: a START_CAPTURE send failure after the state update is folded into the probe failure.
- Worker: `postModelProgress`, the WORKER_BOOT message, the `env` configuration, `initId` and the fetch timeouts are left out. A timed-out fetch is a `Threw` response.
- Worker.OnJobDone: error messages are taken as given, without the `error.message || String(error)` fallback. The outcome of the recognizer lookup is known as the job is dequeued: the load's outcome is a parameter of the dequeuing step, not a later event.
- Worker.OnInit: uses the corrected Worker.GetRecognizer, so it differs from src/whisper-worker.js:174-198 after a failed load. A second INIT for the same model loads again and posts READY when that load succeeds; the code returns the cached rejection and posts ERROR.
- Worker.OnJobDone: uses the corrected Worker.GetRecognizer as well, so a job for a model whose earlier load failed gets a fresh load here, while src/whisper-worker.js:140-165 fails it with the cached rejection.
- Worker.StartJob: uses the corrected Worker.GetRecognizer as well, and so do Worker.OnTranscribe and Worker.OnJobDone through it, so a dequeued job differs from src/whisper-worker.js:141-144 in the same way after a failed load.
- ModelLoader.Arm: builds the recognizer as the promise is installed. The code sets it only after awaiting `probeOnnxTransfer` (src/offscreen.js:461-462), so a request arriving during that probe finds no recognizer to drop there.
- ModelLoader.GuardedLifecycleConsistent: the invariant does not say that a running load holds a recognizer. Between the start of a load (src/offscreen.js:427) and its arming (:443) it holds none.
- Session.SelectLanguage: uses the corrected Language.Normalize, so the languages "constructor" and "__proto__" select `en`, where src/background.js:537 passes on the inherited object member.
- Session.LoadModel: selects its language through Session.SelectLanguage, so it differs in the same way for "constructor" and "__proto__".
- Session.StartCaptioning: selects its language through Session.SelectLanguage, so it differs in the same way for "constructor" and "__proto__".
- Worker.RunPreflight: the origin of the runtime file URLs is abstract. The probe is a function of the file name.
- `audio-processor.js` and `scripts/build.mjs` are not part of this model. One forwards raw audio frames; the other is build tooling.

## Findings

| source | as written | input that shows it | evidently intended | confidence | as-written member | corrected member |
|---|---|---|---|---|---|---|
| src/offscreen.js:668-673 | `stopCapture` clears `transcribeBusy` while an engine call may still be running | start, submit window 1 (a call starts), stop, start again, submit window 2 while call 1 runs: a second call starts | at most one engine call in flight; a window submitted after a restart waits behind the running call | not executed | Transcriber.StopAsWritten | Transcriber.Stop |
| src/offscreen.js:415-419, 549-561 | the success handler marks the current model ready without checking that its load is still the active one, and a re-entrant request drops the recognizer of the model being loaded | a request starts load 1; the heartbeat declares it stalled at +10 s; load 1 then resolves. Or: a second request for the same model arrives while load 1 runs, and load 1 resolves | a model is ready only while its recognizer is held; stale or superseded loads are ignored | not executed | ModelLoader.ResolvedAsWritten | ModelLoader.Resolved |
| src/background.js:46-80 | the language lookup uses a plain object literal, so inherited property names match | the language "constructor" (or "__proto__") yields an inherited object member, not a two-letter code | only the twenty listed names map to codes; anything else that is not a code gives `en` | not executed | Language.NormalizeAsWritten | Language.Normalize |
| src/whisper-worker.js:102-115 | `getRecognizer` keeps a rejected pipeline promise cached for its model | INIT for model M whose load fails, then INIT for M again after the network recovers: the cached rejection is returned and no new load is tried | a failed load is retried on the next request, as the offscreen document does by clearing its cache on error (src/offscreen.js:563-565) | not executed | Worker.GetRecognizerAsWritten | Worker.GetRecognizer |

The counterexample lemmas are Transcriber.StopAsWrittenBreaksSingleFlight,
ModelLoader.StalledLoadResolvesWithoutRecognizer and ModelLoader.ReentrantRequestLosesRecognizer,
Language.ConstructorIsNotACode, and Worker.FailedLoadIsNeverRetried. The proved
properties of the corrected members are Transcriber.StopKeepsSingleFlight and
Transcriber.StopQueuesBehindRunningCall, ModelLoader.GuardedLifecycleConsistent and
ModelLoader.GuardedScenarios, Language.NormalizeIdempotent, and Worker.GetRecognizer's own
contract with Worker.GetRecognizerReuses. The rest of the model uses the corrected members;
the members that therefore differ from the code on those inputs are listed under "## Left out".

=== FILE: background.dfy ===
/**
 * The small pure helpers of the background service worker: the tuning
 * sanitiser (merging over the defaults and the current tuning), the list of
 * installed models, the subtitle layout it stores, the bounded load log, and
 * the capturability of a tab's URL.
 */
module Background {
  import opened Wrappers
  import opened JsNum
  import opened Text
  import opened Settings

  /** The defaults the background worker and the popup share (a window of 3 seconds). */
  const Defaults: Settings := Settings(3.0, 0.5, 700.0, 10.0, 2.0, 0.007, 800.0, 1.8, 6.0, 1.5)

  lemma DefaultsValid()
    ensures Valid(Defaults)
  {
    forall f ensures Admissible(f, Defaults.Get(f)) {
      match f
      case DispatchIntervalMs => assert IsIntegral(700.0) by { assert (700.0).Floor == 700; }
      case VoiceHoldMs => assert IsIntegral(800.0) by { assert (800.0).Floor == 800; }
      case _ =>
    }
  }

  /** The merged source object `{ ...defaults, ...current, ...next }`. */
  function TuningSource(next: Option<Raw>, current: Option<Raw>): (r: Raw)
    ensures forall f :: r.Get(f) ==
              if ObjectOrEmpty(next).Get(f).Some? then ObjectOrEmpty(next).Get(f)
              else if ObjectOrEmpty(current).Get(f).Some? then ObjectOrEmpty(current).Get(f)
              else Some(Finite(Defaults.Get(f)))
  {
    Overlay(Overlay(FromSettings(Defaults), ObjectOrEmpty(current)), ObjectOrEmpty(next))
  }

  /**
   * The background copy of the sanitiser: the update over the current tuning
   * over the defaults; a missing or non-finite value falls back to the default.
   */
  function SanitizeTuning(next: Option<Raw>, current: Option<Raw>): (r: Settings)
    ensures Valid(r)
  {
    SanitizeFrom(TuningSource(next, current), Defaults)
  }

  /**
   * Precedence: the update's key wins over the current tuning's, which wins
   * over the default. A present key whose value is not finite falls back to
   * the default, not to the value under it.
   */
  lemma TuningPrecedence(next: Option<Raw>, current: Option<Raw>, f: Field)
    requires !IsStride(f)
    ensures var n := ObjectOrEmpty(next).Get(f);
            var c := ObjectOrEmpty(current).Get(f);
            var r := SanitizeTuning(next, current).Get(f);
            && (HasFinite(n) ==> r == ClampField(f, n.value.value))
            && (n.Some? && !HasFinite(n) ==> r == Defaults.Get(f))
            && (n.None? && HasFinite(c) ==> r == ClampField(f, c.value.value))
            && (n.None? && c.Some? && !HasFinite(c) ==> r == Defaults.Get(f))
            && (n.None? && c.None? ==> r == Defaults.Get(f))
  {
    DefaultsValid();
    assert Admissible(f, Defaults.Get(f));
  }

  /** The strides of the sanitised tuning stay below their chunks: chunk 5 with stride 8 gives 4.9. */
  lemma TuningStrideExample()
    ensures SanitizeTuning(Some(Empty.(chunkLengthS := Some(Finite(5.0)), strideLengthS := Some(Finite(8.0)))),
                           None).strideLengthS == 4.9
  {
    var src := TuningSource(Some(Empty.(chunkLengthS := Some(Finite(5.0)), strideLengthS := Some(Finite(8.0)))), None);
    assert src.Get(ChunkLengthS) == Some(Finite(5.0));
    assert src.Get(StrideLengthS) == Some(Finite(8.0));
    assert Admissible(ChunkLengthS, 5.0);
    assert Admissible(StrideLengthS, 8.0);
  }

  /** A stored sanitised tuning passed back as the current tuning, with no update, is kept. */
  lemma SanitizeTuningStable(next: Option<Raw>, current: Option<Raw>)
    ensures var t := SanitizeTuning(next, current);
            SanitizeTuning(None, Some(FromSettings(t))) == t
  {
    var t := SanitizeTuning(next, current);
    assert TuningSource(None, Some(FromSettings(t))) == FromSettings(t);
    SanitizeValidIsIdentity(t, Defaults);
  }

  // ---------------------------------------------------------------------------
  // Installed models

  /** Each list entry trimmed, as the entries are compared. */
  function Keys(list: seq<string>): (keys: seq<string>)
    ensures |keys| == |list|
    ensures forall i :: 0 <= i < |list| ==> keys[i] == Trim(list[i])
  {
    seq(|list|, i requires 0 <= i < |list| => Trim(list[i]))
  }

  /** The first occurrence of every non-empty key, in order of first occurrence. */
  function Firsts(keys: seq<string>): seq<string>
    decreases |keys|
  {
    if |keys| == 0 then []
    else
      var pre := keys[..|keys| - 1];
      var k := keys[|keys| - 1];
      if k == "" || k in pre then Firsts(pre) else Firsts(pre) + [k]
  }

  /** `Firsts` holds exactly the non-empty keys. */
  lemma {:induction false} FirstsMembers(keys: seq<string>)
    ensures forall x :: x in Firsts(keys) <==> x != "" && x in keys
    decreases |keys|
  {
    if |keys| > 0 {
      var pre := keys[..|keys| - 1];
      FirstsMembers(pre);
      assert keys == pre + [keys[|keys| - 1]];
    }
  }

  predicate Distinct(s: seq<string>) {
    forall i, j :: 0 <= i < j < |s| ==> s[i] != s[j]
  }

  /** Appending an element that is not yet in a list of distinct elements keeps them distinct. */
  lemma AppendDistinct(s: seq<string>, x: string)
    requires Distinct(s) && x !in s
    ensures Distinct(s + [x])
  {
    forall i, j | 0 <= i < j < |s| + 1 ensures (s + [x])[i] != (s + [x])[j] {
      if j == |s| {
        assert (s + [x])[i] == s[i] && s[i] in s;
      }
    }
  }

  /** No key occurs twice in `Firsts`. */
  lemma {:induction false} FirstsDistinct(keys: seq<string>)
    ensures Distinct(Firsts(keys))
    decreases |keys|
  {
    if |keys| > 0 {
      var pre := keys[..|keys| - 1];
      var k := keys[|keys| - 1];
      FirstsDistinct(pre);
      FirstsMembers(pre);
      if !(k == "" || k in pre) {
        AppendDistinct(Firsts(pre), k);
      }
    }
  }

  /** The normalised installed-model list: empty for a non-array, otherwise `Firsts` of the trimmed entries. */
  function NormalizeInstalled(list: Option<seq<string>>): (r: seq<string>)
    ensures Distinct(r)
    ensures list.None? ==> r == []
    ensures forall x :: x in r <==> list.Some? && x != "" && x in Keys(list.value)
  {
    if list.None? then []
    else
      FirstsMembers(Keys(list.value));
      FirstsDistinct(Keys(list.value));
      Firsts(Keys(list.value))
  }

  lemma {:induction false} FirstsOfDistinct(keys: seq<string>)
    requires Distinct(keys) && forall i :: 0 <= i < |keys| ==> keys[i] != ""
    ensures Firsts(keys) == keys
    decreases |keys|
  {
    if |keys| > 0 {
      var pre := keys[..|keys| - 1];
      FirstsOfDistinct(pre);
      assert keys == pre + [keys[|keys| - 1]];
    }
  }

  /** A trimmed entry is its own key. */
  lemma KeysOfTrimmed(list: seq<string>)
    requires forall i :: 0 <= i < |list| ==> IsTrimmed(list[i])
    ensures Keys(list) == list
  {
    forall i | 0 <= i < |list| ensures Keys(list)[i] == list[i] {
      TrimOfTrimmed(list[i]);
    }
  }

  /** Every entry of a normalised list is trimmed and non-empty. */
  lemma NormalizedEntries(list: Option<seq<string>>)
    ensures forall x :: x in NormalizeInstalled(list) ==> x != "" && IsTrimmed(x)
  {
    if list.Some? {
      forall x | x in NormalizeInstalled(list) ensures x != "" && IsTrimmed(x) {
        var i :| 0 <= i < |list.value| && Keys(list.value)[i] == x;
      }
    }
  }

  /** A list of distinct, trimmed, non-empty ids is its own normal form. */
  lemma NormalizedIsFixed(r: seq<string>)
    requires Distinct(r)
    requires forall x :: x in r ==> x != "" && IsTrimmed(x)
    ensures NormalizeInstalled(Some(r)) == r
  {
    forall i | 0 <= i < |r| ensures IsTrimmed(r[i]) && r[i] != "" {
      assert r[i] in r;
    }
    KeysOfTrimmed(r);
    FirstsOfDistinct(r);
  }

  /** Normalising a normalised list changes nothing. */
  lemma NormalizeInstalledIdempotent(list: Option<seq<string>>)
    ensures var r := NormalizeInstalled(list);
            NormalizeInstalled(Some(r)) == r
  {
    NormalizedEntries(list);
    NormalizedIsFixed(NormalizeInstalled(list));
  }

  /**
   * The loop of the worker: entries are trimmed, blank and already-seen ones
   * skipped, the rest appended in order.
   */
  method NormalizeInstalledModels(list: Option<seq<string>>) returns (output: seq<string>)
    ensures output == NormalizeInstalled(list)
  {
    if list.None? {
      return [];
    }
    var items := list.value;
    ghost var keys := Keys(items);
    var seen: set<string> := {};
    output := [];
    var i := 0;
    while i < |items|
      invariant 0 <= i <= |items|
      invariant output == Firsts(keys[..i])
      invariant forall x :: x in seen <==> x in output
    {
      var modelId := Trim(items[i]);
      FirstsStep(keys, i);
      if modelId != "" && modelId !in seen {
        seen := seen + {modelId};
        output := output + [modelId];
      }
      i := i + 1;
    }
    assert keys[..|items|] == keys;
  }

  /** One more key: `Firsts` gains it exactly when it is non-empty and not yet among them. */
  lemma FirstsStep(keys: seq<string>, i: nat)
    requires i < |keys|
    ensures var pre := Firsts(keys[..i]);
            Firsts(keys[..i + 1]) == if keys[i] == "" || keys[i] in pre then pre else pre + [keys[i]]
  {
    assert keys[..i + 1][..i] == keys[..i];
    FirstsMembers(keys[..i]);
  }

  /** Appending a new trimmed id to a normalised list gives a normalised list. */
  lemma AppendStaysNormal(installed: seq<string>, id: string)
    requires id != "" && IsTrimmed(id) && id !in NormalizeInstalled(Some(installed))
    ensures var next := NormalizeInstalled(Some(installed)) + [id];
            NormalizeInstalled(Some(next)) == next
  {
    var current := NormalizeInstalled(Some(installed));
    NormalizedEntries(Some(installed));
    AppendDistinct(current, id);
    NormalizedIsFixed(current + [id]);
  }

  /**
   * Installing `modelId`: a blank id or one already in the (normalised) list
   * leaves the list as it is; otherwise the trimmed id goes last.
   */
  function MarkModelInstalled(installed: seq<string>, modelId: string): (r: seq<string>)
    ensures Trim(modelId) == "" || Trim(modelId) in NormalizeInstalled(Some(installed)) ==> r == installed
    ensures Trim(modelId) != "" && Trim(modelId) !in NormalizeInstalled(Some(installed)) ==>
              r == NormalizeInstalled(Some(installed)) + [Trim(modelId)]
  {
    var id := Trim(modelId);
    if id == "" then installed
    else
      var current := NormalizeInstalled(Some(installed));
      if id in current then installed
      else
        AppendStaysNormal(installed, id);
        NormalizeInstalled(Some(current + [id]))
  }

  /** After installing, the id is in the list; installing it again changes nothing. */
  lemma MarkModelInstalledIdempotent(installed: seq<string>, modelId: string)
    ensures var once := MarkModelInstalled(installed, modelId);
            && (Trim(modelId) != "" ==> Trim(modelId) in NormalizeInstalled(Some(once)))
            && MarkModelInstalled(once, modelId) == once
  {
    var id := Trim(modelId);
    var once := MarkModelInstalled(installed, modelId);
    if id != "" && id !in NormalizeInstalled(Some(installed)) {
      AppendStaysNormal(installed, id);
      assert NormalizeInstalled(Some(once)) == once;
      assert once[|once| - 1] == id;
    }
  }

  /** Installing into a normalised list keeps it normalised. */
  lemma MarkModelInstalledKeepsNormal(installed: seq<string>, modelId: string)
    requires NormalizeInstalled(Some(installed)) == installed
    ensures var r := MarkModelInstalled(installed, modelId);
            NormalizeInstalled(Some(r)) == r
  {
    var id := Trim(modelId);
    if id != "" && id !in NormalizeInstalled(Some(installed)) {
      AppendStaysNormal(installed, id);
    }
  }

  // ---------------------------------------------------------------------------
  // Subtitle layout

  /** The overlay box in CSS pixels. */
  datatype Layout = Layout(width: int, height: int, left: int, top: int)

  /** A stored or received layout, each field as `Number(...)` makes it. */
  datatype RawLayout = RawLayout(width: Num, height: Num, left: Num, top: Num)

  const MinLayoutWidth: int := 260
  const MinLayoutHeight: int := 56

  /** `Math.round`, then into `[lo, hi]`. */
  function RoundInto(v: real, lo: int, hi: int): (r: int)
    requires lo <= hi
    ensures lo <= r <= hi
    ensures lo <= Round(v) <= hi ==> r == Round(v)
    ensures Round(v) < lo ==> r == lo
    ensures Round(v) > hi ==> r == hi
    ensures lo as real <= v <= hi as real && IsIntegral(v) ==> r as real == v
  {
    var n := Round(v);
    assert IsIntegral(v) ==> n as real == v by {
      if IsIntegral(v) { RoundIntegral(v); }
    }
    if n < lo then lo else if n > hi then hi else n
  }

  /** The bounds every stored layout keeps. */
  predicate LayoutInBounds(l: Layout) {
    && MinLayoutWidth <= l.width <= 2400 && MinLayoutHeight <= l.height <= 1600
    && -8000 <= l.left <= 8000 && -8000 <= l.top <= 8000
  }

  /**
   * A layout from storage or the page: none unless it is an object with four
   * finite numbers, otherwise each rounded and clamped into its bounds.
   */
  function SanitizeSubtitleLayout(layout: Option<RawLayout>): (r: Option<Layout>)
    ensures r.Some? <==> layout.Some? && layout.value.width.Finite? && layout.value.height.Finite?
                         && layout.value.left.Finite? && layout.value.top.Finite?
    ensures r.Some? ==> LayoutInBounds(r.value)
    ensures r.Some? ==>
              && r.value.width == RoundInto(layout.value.width.value, MinLayoutWidth, 2400)
              && r.value.height == RoundInto(layout.value.height.value, MinLayoutHeight, 1600)
              && r.value.left == RoundInto(layout.value.left.value, -8000, 8000)
              && r.value.top == RoundInto(layout.value.top.value, -8000, 8000)
  {
    match layout
    case Some(RawLayout(Finite(w), Finite(h), Finite(x), Finite(y))) =>
      Some(Layout(RoundInto(w, MinLayoutWidth, 2400), RoundInto(h, MinLayoutHeight, 1600),
                  RoundInto(x, -8000, 8000), RoundInto(y, -8000, 8000)))
    case _ => None
  }

  function ToRaw(l: Layout): RawLayout {
    RawLayout(Finite(l.width as real), Finite(l.height as real), Finite(l.left as real), Finite(l.top as real))
  }

  /** A layout within bounds is stored as it is; hence sanitising is idempotent. */
  lemma SanitizeLayoutKeepsInBounds(l: Layout)
    requires LayoutInBounds(l)
    ensures SanitizeSubtitleLayout(Some(ToRaw(l))) == Some(l)
  {
    assert IsIntegral(l.width as real) && IsIntegral(l.height as real);
    assert IsIntegral(l.left as real) && IsIntegral(l.top as real);
  }

  lemma SanitizeLayoutIdempotent(layout: Option<RawLayout>)
    requires SanitizeSubtitleLayout(layout).Some?
    ensures var r := SanitizeSubtitleLayout(layout).value;
            SanitizeSubtitleLayout(Some(ToRaw(r))) == Some(r)
  {
    SanitizeLayoutKeepsInBounds(SanitizeSubtitleLayout(layout).value);
  }

  // ---------------------------------------------------------------------------
  // Load log

  /** Lines the load log keeps. */
  const MaxLogLines: nat := 80

  /** The newest `n` entries (all of them when there are fewer). */
  function Newest<T>(s: seq<T>, n: nat): (r: seq<T>)
    ensures |r| == if |s| < n then |s| else n
    ensures r == s[|s| - |r|..]
  {
    if |s| <= n then s else s[|s| - n..]
  }

  /** Keeping the newest entries invents none. */
  lemma NewestElements<T>(s: seq<T>, n: nat)
    ensures forall x :: x in Newest(s, n) ==> x in s
  {
    var r := Newest(s, n);
    forall x | x in r ensures x in s {
      var k :| 0 <= k < |r| && r[k] == x;
      assert s[|s| - |r| + k] == x;
    }
  }

  /** The log line for `message` at time `stamp`. */
  function LogLine(stamp: string, message: string): string {
    "[" + stamp + "] " + message
  }

  /**
   * Appending a message to the load log: a blank message, or one the last
   * line already ends with (after a space), changes nothing; otherwise the
   * stamped line is appended and only the newest 80 lines are kept.
   */
  function AppendLoadLog(log: seq<string>, message: string, stamp: string): (r: seq<string>)
    ensures Trim(message) == "" ==> r == log
    ensures |log| > 0 && EndsWith(log[|log| - 1], " " + Trim(message)) ==> r == log
    ensures Trim(message) != "" && !(|log| > 0 && EndsWith(log[|log| - 1], " " + Trim(message))) ==>
              && |r| > 0 && r[|r| - 1] == LogLine(stamp, Trim(message))
              && r == Newest(log + [LogLine(stamp, Trim(message))], MaxLogLines)
    ensures |log| <= MaxLogLines ==> |r| <= MaxLogLines
  {
    var trimmed := Trim(message);
    if trimmed == "" then log
    else
      var last := if |log| > 0 then log[|log| - 1] else "";
      if EndsWith(last, " " + trimmed) then log
      else Newest(log + [LogLine(stamp, trimmed)], MaxLogLines)
  }

  /** A line ends with its own message after a space. */
  lemma LogLineEndsWithMessage(stamp: string, message: string)
    ensures EndsWith(LogLine(stamp, message), " " + message)
  {
    var line := LogLine(stamp, message);
    assert line == ("[" + stamp + "]") + (" " + message);
  }

  /** Logging the same message twice in a row adds one line. */
  lemma AppendLoadLogDeduplicates(log: seq<string>, message: string, s1: string, s2: string)
    ensures var once := AppendLoadLog(log, message, s1);
            AppendLoadLog(once, message, s2) == once
  {
    var once := AppendLoadLog(log, message, s1);
    var t := Trim(message);
    if t != "" && !(|log| > 0 && EndsWith(log[|log| - 1], " " + t)) {
      LogLineEndsWithMessage(s1, t);
      assert once[|once| - 1] == LogLine(s1, t);
    }
  }

  /** The log never grows beyond 80 lines. */
  lemma AppendLoadLogBounded(log: seq<string>, message: string, stamp: string)
    requires |log| <= MaxLogLines
    ensures |AppendLoadLog(log, message, stamp)| <= MaxLogLines
  {
  }

  // ---------------------------------------------------------------------------
  // Tabs

  /** URL schemes of pages the browser does not let an extension capture. */
  const NonCapturablePrefixes: seq<string> :=
    ["chrome://", "chrome-extension://", "edge://", "devtools://", "about:", "view-source:"]

  /** A tab's URL (`None` when it is not a string) can be captured: not an internal page, and http or https. */
  function IsCapturableTabUrl(url: Option<string>): (b: bool)
    ensures b <==> url.Some? && url.value != "" && (StartsWith(url.value, "http://") || StartsWith(url.value, "https://"))
  {
    if url.None? || url.value == "" then false
    else if exists i :: 0 <= i < |NonCapturablePrefixes| && StartsWith(url.value, NonCapturablePrefixes[i]) then
      assert !StartsWith(url.value, "http://") && !StartsWith(url.value, "https://") by {
        var i :| 0 <= i < |NonCapturablePrefixes| && StartsWith(url.value, NonCapturablePrefixes[i]);
        assert url.value[0] == NonCapturablePrefixes[i][0];
      }
      false
    else StartsWith(url.value, "http://") || StartsWith(url.value, "https://")
  }

  /** The status shown while capture waits, chosen from the failure text of a retarget. */
  function ToRetargetStatus(errorText: string): (status: string)
    ensures Contains(ToLower(errorText), "chrome pages cannot be captured") ==>
              status == "waiting: active tab is a Chrome/internal page"
    ensures !Contains(ToLower(errorText), "chrome pages cannot be captured")
            && (Contains(ToLower(errorText), "has not been invoked") || Contains(ToLower(errorText), "activetab")) ==>
              status == "waiting: open extension once on this tab, then switch again"
    ensures !Contains(ToLower(errorText), "chrome pages cannot be captured")
            && !Contains(ToLower(errorText), "has not been invoked")
            && !Contains(ToLower(errorText), "activetab") ==>
              status == "waiting for active tab"
    ensures status in {"waiting: active tab is a Chrome/internal page",
                       "waiting: open extension once on this tab, then switch again",
                       "waiting for active tab"}
  {
    var text := ToLower(errorText);
    if Contains(text, "chrome pages cannot be captured") then "waiting: active tab is a Chrome/internal page"
    else if Contains(text, "has not been invoked") || Contains(text, "activetab") then
      "waiting: open extension once on this tab, then switch again"
    else "waiting for active tab"
  }

  /** The status does not depend on the case of the failure text. */
  lemma {:induction false} RetargetStatusIgnoresCase(errorText: string)
    ensures ToRetargetStatus(ToLower(errorText)) == ToRetargetStatus(errorText)
  {
    LowerIdempotent(errorText);
  }
}

=== FILE: captions.dfy ===
/**
 * The caption overlay of the content script: how an incoming transcript is
 * cleaned, whether it replaces the newest caption line or is appended, when
 * it is dropped as a shorter partial repeat of the newest line, the cap of
 * eight lines, and how a stored overlay box is fitted into the window.
 */
module Captions {
  import opened Wrappers
  import opened JsNum
  import opened Text
  import Background

  /** Lines of caption history kept. */
  const MaxCaptionLines: nat := 8

  /** Every run of whitespace as one space. */
  function Collapse(s: string): (r: string)
    ensures |r| <= |s|
    ensures |s| > 0 && !IsSpace(s[0]) ==> |r| > 0 && r[0] == s[0]
    ensures |s| > 0 && IsSpace(s[0]) ==> |r| > 0 && r[0] == ' '
    decreases |s|
  {
    if |s| == 0 then ""
    else if IsSpace(s[0]) then " " + Collapse(TrimStart(s[1..]))
    else [s[0]] + Collapse(s[1..])
  }

  /** No whitespace other than single spaces. */
  ghost predicate SingleSpaced(s: string) {
    forall i :: 0 <= i < |s| && IsSpace(s[i]) ==> s[i] == ' ' && (i + 1 < |s| ==> !IsSpace(s[i + 1]))
  }

  lemma {:induction false} CollapseSingleSpaced(s: string)
    ensures SingleSpaced(Collapse(s))
    decreases |s|
  {
    if |s| > 0 {
      if IsSpace(s[0]) {
        var t := TrimStart(s[1..]);
        CollapseSingleSpaced(t);
        var r := Collapse(s);
        assert r == " " + Collapse(t);
        forall i | 0 <= i < |r| && IsSpace(r[i])
          ensures r[i] == ' ' && (i + 1 < |r| ==> !IsSpace(r[i + 1]))
        {
          if i > 0 {
            assert r[i] == Collapse(t)[i - 1];
            if i + 1 < |r| {
              assert r[i + 1] == Collapse(t)[i];
            }
          }
        }
      } else {
        CollapseSingleSpaced(s[1..]);
        var r := Collapse(s);
        assert r == [s[0]] + Collapse(s[1..]);
        forall i | 0 <= i < |r| && IsSpace(r[i])
          ensures r[i] == ' ' && (i + 1 < |r| ==> !IsSpace(r[i + 1]))
        {
          assert r[i] == Collapse(s[1..])[i - 1];
          if i + 1 < |r| {
            assert r[i + 1] == Collapse(s[1..])[i];
          }
        }
      }
    }
  }

  /** A piece of a single-spaced text is single-spaced. */
  lemma SingleSpacedPiece(s: string, t: string, a: int)
    requires SingleSpaced(s) && OccursAt(s, t, a)
    ensures SingleSpaced(t)
  {
    forall i | 0 <= i < |t| && IsSpace(t[i])
      ensures t[i] == ' ' && (i + 1 < |t| ==> !IsSpace(t[i + 1]))
    {
      assert t[i] == s[a + i];
      if i + 1 < |t| {
        assert t[i + 1] == s[a + i + 1];
      }
    }
  }

  /** The characters of `s` that are not whitespace, in order. */
  function NonSpace(s: string): string {
    if |s| == 0 then ""
    else if IsSpace(s[0]) then NonSpace(s[1..])
    else [s[0]] + NonSpace(s[1..])
  }

  lemma {:induction false} NonSpaceAppend(a: string, b: string)
    ensures NonSpace(a + b) == NonSpace(a) + NonSpace(b)
    decreases |a|
  {
    if |a| == 0 {
      assert a + b == b;
    } else {
      assert (a + b)[0] == a[0] && (a + b)[1..] == a[1..] + b;
      NonSpaceAppend(a[1..], b);
    }
  }

  lemma {:induction false} NonSpaceOfSpaces(s: string)
    requires forall i :: 0 <= i < |s| ==> IsSpace(s[i])
    ensures NonSpace(s) == ""
    decreases |s|
  {
    if |s| > 0 {
      NonSpaceOfSpaces(s[1..]);
    }
  }

  /** Trimming removes whitespace only. */
  lemma {:induction false} TrimStartKeepsNonSpace(s: string)
    ensures NonSpace(TrimStart(s)) == NonSpace(s)
  {
    var t := TrimStart(s);
    var front := s[..|s| - |t|];
    assert s == front + t;
    assert forall i :: 0 <= i < |front| ==> IsSpace(front[i]);
    NonSpaceAppend(front, t);
    NonSpaceOfSpaces(front);
  }

  lemma {:induction false} TrimEndKeepsNonSpace(s: string)
    ensures NonSpace(TrimEnd(s)) == NonSpace(s)
  {
    var e := TrimEnd(s);
    var back := s[|e|..];
    assert s == e + back;
    NonSpaceAppend(e, back);
    NonSpaceOfSpaces(back);
  }

  lemma {:induction false} TrimKeepsNonSpace(s: string)
    ensures NonSpace(Trim(s)) == NonSpace(s)
  {
    TrimStartKeepsNonSpace(s);
    TrimEndKeepsNonSpace(TrimStart(s));
  }

  /** Collapsing whitespace loses no other character and adds none. */
  lemma {:induction false} CollapseKeepsNonSpace(s: string)
    ensures NonSpace(Collapse(s)) == NonSpace(s)
    decreases |s|
  {
    if |s| > 0 {
      if IsSpace(s[0]) {
        var t := TrimStart(s[1..]);
        CollapseKeepsNonSpace(t);
        TrimStartKeepsNonSpace(s[1..]);
        assert (" " + Collapse(t))[1..] == Collapse(t);
      } else {
        CollapseKeepsNonSpace(s[1..]);
        assert ([s[0]] + Collapse(s[1..]))[1..] == Collapse(s[1..]);
      }
    }
  }

  /** Leading whitespace in front of a word is removed up to the word. */
  lemma {:induction false} TrimStartBeforeWord(w: string, b: string)
    requires forall i :: 0 <= i < |w| ==> IsSpace(w[i])
    requires |b| > 0 && !IsSpace(b[0])
    ensures TrimStart(w + b) == b
    decreases |w|
  {
    if |w| == 0 {
      assert w + b == b;
    } else {
      assert (w + b)[1..] == w[1..] + b;
      TrimStartBeforeWord(w[1..], b);
    }
  }

  /** Trimming the front of a text that ends in a word stops inside it, leaving the rest alone. */
  lemma {:induction false} TrimStartAppend(x: string, y: string)
    requires |x| > 0 && !IsSpace(x[|x| - 1])
    ensures TrimStart(x + y) == TrimStart(x) + y
    decreases |x|
  {
    if IsSpace(x[0]) {
      assert (x + y)[1..] == x[1..] + y;
      TrimStartAppend(x[1..], y);
    }
  }

  /** A run of whitespace in front of a word becomes one space. */
  lemma {:induction false} CollapseSpaceRun(w: string, b: string)
    requires |w| > 0 && forall i :: 0 <= i < |w| ==> IsSpace(w[i])
    requires |b| > 0 && !IsSpace(b[0])
    ensures Collapse(w + b) == " " + Collapse(b)
  {
    assert (w + b)[0] == w[0];
    assert (w + b)[1..] == w[1..] + b;
    TrimStartBeforeWord(w[1..], b);
  }

  /** Collapsing a text that starts with a word character keeps it and goes on with the rest. */
  lemma {:induction false} CollapseWordCons(c: char, x: string)
    requires !IsSpace(c)
    ensures Collapse([c] + x) == [c] + Collapse(x)
  {
    assert ([c] + x)[1..] == x;
  }

  /** Collapsing a text that starts with whitespace gives one space, then the rest after its leading whitespace. */
  lemma {:induction false} CollapseSpaceCons(c: char, x: string)
    requires IsSpace(c)
    ensures Collapse([c] + x) == " " + Collapse(TrimStart(x))
  {
    assert ([c] + x)[1..] == x;
  }

  lemma {:induction false} JoinRegroup(p: string, q: string, r: string, u: string)
    ensures p + (q + r + u) == (p + q) + r + u
  {
  }

  /** One collapse step over leading whitespace, given the step for the text after it. */
  lemma {:induction false} AfterWordSpaceStep(c: char, rest: string, x: string, tail: string)
    requires IsSpace(c)
    requires |rest| > 0 && !IsSpace(rest[|rest| - 1])
    requires Collapse(TrimStart(rest) + x) == Collapse(TrimStart(rest)) + " " + tail
    ensures Collapse([c] + (rest + x)) == Collapse([c] + rest) + " " + tail
  {
    TrimStartAppend(rest, x);
    CollapseSpaceCons(c, rest + x);
    CollapseSpaceCons(c, rest);
    JoinRegroup(" ", Collapse(TrimStart(rest)), " ", tail);
  }

  /** One collapse step over a word character, given the step for the text after it. */
  lemma {:induction false} AfterWordWordStep(c: char, rest: string, x: string, tail: string)
    requires !IsSpace(c)
    requires Collapse(rest + x) == Collapse(rest) + " " + tail
    ensures Collapse([c] + (rest + x)) == Collapse([c] + rest) + " " + tail
  {
    CollapseWordCons(c, rest + x);
    CollapseWordCons(c, rest);
    JoinRegroup([c], Collapse(rest), " ", tail);
  }

  /** A single word character followed by whitespace. */
  lemma {:induction false} AfterWordBase(c: char, d: char, y: string)
    requires !IsSpace(c) && IsSpace(d)
    ensures Collapse([c] + ([d] + y)) == Collapse([c]) + " " + Collapse(TrimStart(y))
  {
    CollapseWordCons(c, [d] + y);
    CollapseSpaceCons(d, y);
    CollapseWordCons(c, "");
    assert [c] + "" == [c];
  }

  /** After a word, whitespace starts one space, and the collapse goes on from the next word. */
  lemma {:induction false} CollapseAfterWord(a: string, x: string)
    requires |a| > 0 && !IsSpace(a[|a| - 1])
    requires |x| > 0 && IsSpace(x[0])
    ensures Collapse(a + x) == Collapse(a) + " " + Collapse(TrimStart(x[1..]))
    decreases |a|
  {
    var c, rest := a[0], a[1..];
    var tail := Collapse(TrimStart(x[1..]));
    assert a == [c] + rest;
    assert a + x == [c] + (rest + x);
    if IsSpace(c) {
      var t := TrimStart(rest);
      assert |t| > 0 && t[|t| - 1] == a[|a| - 1];
      CollapseAfterWord(t, x);
      AfterWordSpaceStep(c, rest, x, tail);
    } else if |rest| == 0 {
      assert a == [c] && rest + x == x;
      assert x == [x[0]] + x[1..];
      AfterWordBase(c, x[0], x[1..]);
    } else {
      CollapseAfterWord(rest, x);
      AfterWordWordStep(c, rest, x, tail);
    }
  }

  /** Between two words, a run of whitespace becomes exactly one space and the words are collapsed on their own. */
  lemma CollapseJoin(a: string, w: string, b: string)
    requires |a| > 0 && !IsSpace(a[|a| - 1])
    requires |w| > 0 && forall i :: 0 <= i < |w| ==> IsSpace(w[i])
    requires |b| > 0 && !IsSpace(b[0])
    ensures Collapse(a + w + b) == Collapse(a) + " " + Collapse(b)
  {
    var x := w + b;
    assert a + w + b == a + x;
    assert x[0] == w[0] && x[1..] == w[1..] + b;
    TrimStartBeforeWord(w[1..], b);
    CollapseAfterWord(a, x);
  }

  /** A text that ends in a word still ends in that character once collapsed. */
  lemma {:induction false} CollapseLast(s: string)
    requires |s| > 0 && !IsSpace(s[|s| - 1])
    ensures |Collapse(s)| > 0 && Collapse(s)[|Collapse(s)| - 1] == s[|s| - 1]
    decreases |s|
  {
    assert s == [s[0]] + s[1..];
    if IsSpace(s[0]) {
      var t := TrimStart(s[1..]);
      assert |t| > 0 && t[|t| - 1] == s[|s| - 1];
      CollapseLast(t);
      CollapseSpaceCons(s[0], s[1..]);
    } else if |s| > 1 {
      CollapseLast(s[1..]);
      CollapseWordCons(s[0], s[1..]);
    } else {
      CollapseWordCons(s[0], "");
      assert [s[0]] + "" == [s[0]];
    }
  }

  /** A transcript cleaned for display: whitespace runs as single spaces, trimmed. */
  function NormalizeCaptionText(text: string): (r: string)
    ensures IsTrimmed(r)
  {
    var r := Trim(Collapse(text));
    assert IsTrimmed(r);
    r
  }

  /** The cleaned text has no outer whitespace and never two whitespace characters in a row. */
  lemma NormalizedCaptionShape(text: string)
    ensures var r := NormalizeCaptionText(text);
            && (|r| > 0 ==> !IsSpace(r[0]) && !IsSpace(r[|r| - 1]))
            && (forall i :: 0 <= i < |r| - 1 ==> !(IsSpace(r[i]) && IsSpace(r[i + 1])))
            && (forall i :: 0 <= i < |r| && IsSpace(r[i]) ==> r[i] == ' ')
  {
    var c := Collapse(text);
    CollapseSingleSpaced(text);
    var r := Trim(c);
    var a :| OccursAt(c, r, a);
    SingleSpacedPiece(c, r, a);
  }

  /** Cleaning a transcript changes only its whitespace. */
  lemma NormalizeKeepsNonSpace(text: string)
    ensures NonSpace(NormalizeCaptionText(text)) == NonSpace(text)
  {
    CollapseKeepsNonSpace(text);
    TrimKeepsNonSpace(Collapse(text));
  }

  /**
   * Two words separated by any run of whitespace are cleaned into the two
   * cleaned words with one space between them: whitespace between words is
   * kept as a single space, never dropped.
   */
  lemma NormalizeJoin(a: string, w: string, b: string)
    requires |a| > 0 && IsTrimmed(a)
    requires |w| > 0 && forall i :: 0 <= i < |w| ==> IsSpace(w[i])
    requires |b| > 0 && IsTrimmed(b)
    ensures NormalizeCaptionText(a + w + b) == NormalizeCaptionText(a) + " " + NormalizeCaptionText(b)
  {
    CollapseJoin(a, w, b);
    CollapseLast(a);
    CollapseLast(b);
    var ca, cb := Collapse(a), Collapse(b);
    TrimOfTrimmed(ca);
    TrimOfTrimmed(cb);
    var joined := ca + " " + cb;
    assert joined[0] == ca[0] && joined[|joined| - 1] == cb[|cb| - 1];
    TrimOfTrimmed(joined);
  }

  /** The characters a caption's core ignores: whitespace and common ASCII and CJK punctuation. */
  predicate IsCaptionPunct(c: char) {
    IsSpace(c) || c in ".,!?;:'\"()[]{}-_/\\~`|<>" || c in "。、，．！？：；「」『』（）［］｛｝…"
  }

  /** A caption without its whitespace and punctuation. */
  function StripPunct(s: string): (r: string)
    ensures |r| <= |s|
    ensures forall i :: 0 <= i < |r| ==> !IsCaptionPunct(r[i])
  {
    if |s| == 0 then ""
    else if IsCaptionPunct(s[0]) then StripPunct(s[1..])
    else [s[0]] + StripPunct(s[1..])
  }

  /** The core of a caption; as no whitespace is left, the final trim changes nothing. */
  function StripCaptionPunctuation(text: string): (r: string)
    ensures r == StripPunct(text)
    ensures forall i :: 0 <= i < |r| ==> !IsCaptionPunct(r[i])
  {
    var s := StripPunct(text);
    assert IsTrimmed(s);
    TrimOfTrimmed(s);
    Trim(s)
  }

  /** Stripping a single character drops it exactly when it is punctuation or whitespace. */
  lemma StripPunctChar(c: char)
    ensures StripPunct([c]) == if IsCaptionPunct(c) then "" else [c]
  {
    assert [c][1..] == "";
  }

  /** Stripping works character by character: it distributes over concatenation. */
  lemma {:induction false} StripPunctAppend(a: string, b: string)
    ensures StripPunct(a + b) == StripPunct(a) + StripPunct(b)
    decreases |a|
  {
    if |a| == 0 {
      assert a + b == b;
    } else {
      assert (a + b)[0] == a[0] && (a + b)[1..] == a[1..] + b;
      StripPunctAppend(a[1..], b);
    }
  }

  /** Stripping is empty iff the text is all punctuation and whitespace. */
  lemma {:induction false} StripEmptyIffAllPunct(s: string)
    ensures StripPunct(s) == "" <==> forall i :: 0 <= i < |s| ==> IsCaptionPunct(s[i])
    decreases |s|
  {
    if |s| > 0 {
      StripEmptyIffAllPunct(s[1..]);
      assert forall i :: 1 <= i < |s| ==> s[i] == s[1..][i - 1];
    }
  }

  lemma {:induction false} StripIdempotent(s: string)
    ensures StripPunct(StripPunct(s)) == StripPunct(s)
    decreases |s|
  {
    if |s| > 0 {
      StripIdempotent(s[1..]);
    }
  }

  /**
   * Whether `next` replaces the newest caption `last` rather than being
   * appended: never when there is no caption; yes when one contains the
   * other; else compared on the punctuation-free cores, by containment and
   * then by length.
   */
  function ShouldReplaceLastCaption(last: string, next: string): (b: bool)
    ensures last == "" ==> !b
    ensures last != "" && (last == next || Contains(next, last) || Contains(last, next)) ==> b
  {
    if last == "" then false
    else if last == next then true
    else if Contains(next, last) then true
    else if Contains(last, next) then true
    else
      var lastCore := StripCaptionPunctuation(last);
      var nextCore := StripCaptionPunctuation(next);
      if lastCore == "" || nextCore == "" then |next| >= |last|
      else if Contains(nextCore, lastCore) then true
      else if Contains(lastCore, nextCore) then true
      else |nextCore| >= |lastCore|
  }

  /** Of two non-empty captions, at least one would replace the other: the rule never leaves both to be appended. */
  lemma ReplaceIsTotal(last: string, next: string)
    requires last != "" && next != ""
    ensures ShouldReplaceLastCaption(last, next) || ShouldReplaceLastCaption(next, last)
  {
  }

  /** A caption that differs from the newest one only in punctuation and whitespace replaces it. */
  lemma ReplaceIgnoresPunctuation(last: string, next: string)
    requires last != "" && StripCaptionPunctuation(last) == StripCaptionPunctuation(next) != ""
    ensures ShouldReplaceLastCaption(last, next)
  {
    var core := StripCaptionPunctuation(last);
    ContainsPrefix(core, |core|);
    assert core[..|core|] == core;
  }

  /** When neither text contains the other, the decision rests on the cores alone. */
  lemma ReplaceByCores(last: string, next: string)
    requires last != "" && !Contains(next, last) && !Contains(last, next)
    ensures var lc := StripCaptionPunctuation(last);
            var nc := StripCaptionPunctuation(next);
            ShouldReplaceLastCaption(last, next) <==>
              if lc == "" || nc == "" then |next| >= |last|
              else Contains(nc, lc) || Contains(lc, nc) || |nc| >= |lc|
  {
  }

  /** The length of the longest common prefix of `a` and `b`. */
  function CommonPrefix(a: string, b: string): (k: nat)
    ensures k <= |a| && k <= |b|
    ensures a[..k] == b[..k]
    ensures k == |a| || k == |b| || a[k] != b[k]
  {
    if |a| == 0 || |b| == 0 || a[0] != b[0] then 0
    else
      var k := 1 + CommonPrefix(a[1..], b[1..]);
      assert a[..k] == [a[0]] + a[1..][..k - 1];
      assert b[..k] == [b[0]] + b[1..][..k - 1];
      k
  }

  /** The scan of the content script: advance while both texts agree. */
  method CommonPrefixLength(a: string, b: string) returns (i: nat)
    ensures i == CommonPrefix(a, b)
  {
    var max := if |a| < |b| then |a| else |b|;
    i := 0;
    while i < max && a[i] == b[i]
      invariant i <= max
      invariant a[..i] == b[..i]
    {
      assert a[..i + 1] == a[..i] + [a[i]];
      assert b[..i + 1] == b[..i] + [b[i]];
      i := i + 1;
    }
    PrefixUnique(a, b, i);
  }

  /** Only one length meets the three conditions of a longest common prefix. */
  lemma PrefixUnique(a: string, b: string, i: nat)
    requires i <= |a| && i <= |b| && a[..i] == b[..i]
    requires i == |a| || i == |b| || a[i] != b[i]
    ensures i == CommonPrefix(a, b)
  {
    var k := CommonPrefix(a, b);
    if k < i {
    } else if i < k {
    }
  }

  /** The core compared for regressions: punctuation-free and lowercased. */
  function LowerCore(text: string): string {
    ToLower(StripCaptionPunctuation(text))
  }

  /**
   * `next` is a shorter, partial repeat of `last`: strictly shorter, with
   * non-empty cores one of which contains the other, a shorter core of at
   * least six characters, and a common prefix of at least three quarters of it.
   */
  function IsLikelyPartialRegression(last: string, next: string): (b: bool)
    ensures b ==> last != "" && next != "" && |next| < |last|
  {
    if last == "" || next == "" || |next| >= |last| then false
    else
      var lastCore := LowerCore(last);
      var nextCore := LowerCore(next);
      if lastCore == "" || nextCore == "" then false
      else if !Contains(lastCore, nextCore) && !Contains(nextCore, lastCore) then false
      else
        var prefix := CommonPrefix(lastCore, nextCore);
        var minLen := if |lastCore| < |nextCore| then |lastCore| else |nextCore|;
        if minLen < 6 then false
        else 4 * prefix >= 3 * minLen
  }

  /** Multiplying by a positive number keeps an order. */
  lemma MulStrict(x: real, y: real, m: real)
    requires x < y && m > 0.0
    ensures x * m < y * m
  {
  }

  lemma MulLe(x: real, y: real, m: real)
    requires x <= y && m > 0.0
    ensures x * m <= y * m
  {
  }

  lemma DivMul(p: real, m: real)
    requires m > 0.0
    ensures (p / m) * m == p
  {
  }

  /** The ratio test of the content script as integer arithmetic. */
  lemma ThreeQuarters(p: nat, m: nat)
    requires m > 0
    ensures p as real / m as real >= 0.75 <==> 4 * p >= 3 * m
  {
    var pr := p as real;
    var mr := m as real;
    var q := pr / mr;
    DivMul(pr, mr);
    if q >= 0.75 {
      MulLe(0.75, q, mr);
      assert 0.75 * mr <= pr;
    } else {
      MulStrict(q, 0.75, mr);
      assert pr < 0.75 * mr;
    }
  }

  /** The four conditions of a partial regression, both ways, with the ratio written as in the content script. */
  lemma PartialRegressionIff(last: string, next: string)
    ensures IsLikelyPartialRegression(last, next) <==>
              var lc := LowerCore(last);
              var nc := LowerCore(next);
              var minLen := if |lc| < |nc| then |lc| else |nc|;
              && last != "" && next != "" && |next| < |last|
              && lc != "" && nc != "" && (Contains(lc, nc) || Contains(nc, lc))
              && minLen >= 6
              && CommonPrefix(lc, nc) as real / minLen as real >= 0.75
  {
    var lc := LowerCore(last);
    var nc := LowerCore(next);
    var minLen := if |lc| < |nc| then |lc| else |nc|;
    if minLen > 0 {
      ThreeQuarters(CommonPrefix(lc, nc), minLen);
    }
  }

  /**
   * A transcript arriving at the overlay. Empty after cleaning, equal to the
   * newest line, or a partial regression of it: nothing changes. Otherwise
   * it replaces the newest line or is appended, keeping the newest eight.
   */
  function ShowCaption(history: seq<string>, text: string): (r: seq<string>)
    ensures var clean := NormalizeCaptionText(text);
            var last := if |history| > 0 then history[|history| - 1] else "";
            && (clean == "" || clean == last || IsLikelyPartialRegression(last, clean) ==> r == history)
            && (r != history ==> |r| > 0 && r[|r| - 1] == clean)
            && (clean != "" && clean != last && !IsLikelyPartialRegression(last, clean) ==>
                  r == if |history| > 0 && ShouldReplaceLastCaption(last, clean) then history[..|history| - 1] + [clean]
                       else Background.Newest(history + [clean], MaxCaptionLines))
  {
    var clean := NormalizeCaptionText(text);
    var last := if |history| > 0 then history[|history| - 1] else "";
    if clean == "" || last == clean then history
    else if IsLikelyPartialRegression(last, clean) then history
    else if |history| > 0 && ShouldReplaceLastCaption(last, clean) then history[..|history| - 1] + [clean]
    else Background.Newest(history + [clean], MaxCaptionLines)
  }

  /** Appending and keeping the newest lines drops only from the front. */
  lemma AppendKeepsNewest(history: seq<string>, clean: string)
    ensures var r := Background.Newest(history + [clean], MaxCaptionLines);
            && |r| <= MaxCaptionLines
            && exists k :: 0 <= k <= |history| && r == history[k..] + [clean]
  {
    var whole := history + [clean];
    var r := Background.Newest(whole, MaxCaptionLines);
    var k := |whole| - |r|;
    assert r == whole[k..];
    assert whole[k..] == history[k..] + [clean];
  }

  /**
   * A change either replaces the newest line, keeping the length, or appends
   * and drops only from the front; the history never exceeds eight lines.
   */
  lemma ShowCaptionShape(history: seq<string>, text: string)
    requires |history| <= MaxCaptionLines
    ensures var r := ShowCaption(history, text);
            var clean := NormalizeCaptionText(text);
            && |r| <= MaxCaptionLines
            && (r == history
                || (|r| == |history| && r[..|r| - 1] == history[..|history| - 1] && r[|r| - 1] == clean)
                || (exists k :: 0 <= k <= |history| && r == history[k..] + [clean]))
  {
    var r := ShowCaption(history, text);
    var clean := NormalizeCaptionText(text);
    var last := if |history| > 0 then history[|history| - 1] else "";
    if clean == "" || clean == last || IsLikelyPartialRegression(last, clean) {
    } else if |history| > 0 && ShouldReplaceLastCaption(last, clean) {
      assert r == history[..|history| - 1] + [clean];
      assert r[..|r| - 1] == history[..|history| - 1];
    } else {
      AppendKeepsNewest(history, clean);
    }
  }

  /** Replacing needs a newest line: with an empty history a transcript is appended. */
  lemma FirstCaptionAppends(text: string)
    requires NormalizeCaptionText(text) != ""
    ensures ShowCaption([], text) == [NormalizeCaptionText(text)]
  {
  }

  /** `CLEAR_SUBTITLES` empties the history; the next transcript starts a fresh one. */
  function ClearSubtitles(history: seq<string>): (r: seq<string>)
    ensures r == []
  {
    []
  }

  // ---------------------------------------------------------------------------
  // Overlay box

  const MinWidth: int := 260
  const MinHeight: int := 42

  function MaxInt(a: int, b: int): int {
    if a >= b then a else b
  }

  /** `clamp(v, lo, hi)` as `min(hi, max(lo, v))`. */
  function ClampInt(v: int, lo: int, hi: int): (r: int)
    requires lo <= hi
    ensures lo <= r <= hi
    ensures lo <= v <= hi ==> r == v
  {
    if v < lo then lo else if v > hi then hi else v
  }

  /** The box a page gets when none is stored: up to 900 wide, 84 high, centred near the bottom. */
  function DefaultLayout(innerWidth: int, innerHeight: int): (l: Background.Layout) {
    var width := if MaxInt(MinWidth, innerWidth - 24) < 900 then MaxInt(MinWidth, innerWidth - 24) else 900;
    var height := 84;
    Background.Layout(width, height, Round((innerWidth - width) as real / 2.0),
                      MaxInt(8, Round((innerHeight - height - 56) as real)))
  }

  /** The box inside a window of `innerWidth` by `innerHeight`. */
  predicate Fits(l: Background.Layout, innerWidth: int, innerHeight: int) {
    && MinWidth <= l.width <= MaxInt(MinWidth, innerWidth - 8)
    && MinHeight <= l.height <= MaxInt(MinHeight, innerHeight - 8)
    && 0 <= l.left <= MaxInt(0, innerWidth - l.width)
    && 0 <= l.top <= MaxInt(0, innerHeight - l.height)
  }

  /** A layout as stored, each field as a number. */
  function ToRawLayout(l: Background.Layout): Background.RawLayout {
    Background.RawLayout(Finite(l.width as real), Finite(l.height as real), Finite(l.left as real), Finite(l.top as real))
  }

  /** Half of a non-negative integer, rounded half up: stays within `[0, n]`. */
  function HalfRounded(n: int): (r: int)
    requires n >= 0
    ensures 0 <= r <= n
  {
    Round(n as real / 2.0)
  }

  /**
   * Fitting a box into the window: fields are rounded and clamped; a missing
   * width is the widest allowed, a missing height the least, a missing left
   * centres the box, a missing top puts it at the bottom. A layout that is not
   * an object is replaced by the default one first.
   */
  function NormalizeLayout(layout: Option<Background.RawLayout>, innerWidth: int, innerHeight: int)
    : (r: Background.Layout)
    ensures Fits(r, innerWidth, innerHeight)
    ensures layout.Some? ==>
              var l := layout.value;
              && r.width == (if l.width.Finite? then ClampInt(Round(l.width.value), MinWidth, MaxInt(MinWidth, innerWidth - 8))
                             else MaxInt(MinWidth, innerWidth - 8))
              && r.height == (if l.height.Finite? then ClampInt(Round(l.height.value), MinHeight, MaxInt(MinHeight, innerHeight - 8))
                              else MinHeight)
              && r.left == (if l.left.Finite? then ClampInt(Round(l.left.value), 0, MaxInt(0, innerWidth - r.width))
                            else HalfRounded(MaxInt(0, innerWidth - r.width)))
              && r.top == (if l.top.Finite? then ClampInt(Round(l.top.value), 0, MaxInt(0, innerHeight - r.height))
                           else MaxInt(0, innerHeight - r.height))
  {
    var base := if layout.Some? then layout.value else ToRawLayout(DefaultLayout(innerWidth, innerHeight));
    var maxWidth := MaxInt(MinWidth, innerWidth - 8);
    var maxHeight := MaxInt(MinHeight, innerHeight - 8);
    var width := match base.width
                 case Finite(w) => ClampInt(Round(w), MinWidth, maxWidth)
                 case NonFinite => maxWidth;
    var height := match base.height
                  case Finite(h) => ClampInt(Round(h), MinHeight, maxHeight)
                  case NonFinite => MinHeight;
    var maxLeft := MaxInt(0, innerWidth - width);
    var maxTop := MaxInt(0, innerHeight - height);
    var left := match base.left
                case Finite(x) => ClampInt(Round(x), 0, maxLeft)
                case NonFinite => HalfRounded(maxLeft);
    var top := match base.top
               case Finite(y) => ClampInt(Round(y), 0, maxTop)
               case NonFinite => maxTop;
    Background.Layout(width, height, left, top)
  }

  /** A box that fits is kept as it is, so fitting twice is fitting once. */
  lemma NormalizeLayoutKeepsFitting(l: Background.Layout, innerWidth: int, innerHeight: int)
    requires Fits(l, innerWidth, innerHeight)
    ensures NormalizeLayout(Some(ToRawLayout(l)), innerWidth, innerHeight) == l
  {
    RoundIntegral(l.width as real);
    RoundIntegral(l.height as real);
    RoundIntegral(l.left as real);
    RoundIntegral(l.top as real);
  }

  /** A window of at least 260 by 92 pixels takes the default box unchanged when none is stored. */
  lemma MissingLayoutIsDefault(innerWidth: int, innerHeight: int)
    requires innerWidth >= MinWidth && innerHeight >= 92
    ensures NormalizeLayout(None, innerWidth, innerHeight) == DefaultLayout(innerWidth, innerHeight)
  {
    var d := DefaultLayout(innerWidth, innerHeight);
    assert 0 <= d.left <= innerWidth - d.width by {
      var gap := innerWidth - d.width;
      assert gap >= 0;
      assert d.left == HalfRounded(gap);
    }
    assert Fits(d, innerWidth, innerHeight);
    NormalizeLayoutKeepsFitting(d, innerWidth, innerHeight);
  }

  lemma NormalizeLayoutIdempotent(layout: Option<Background.RawLayout>, innerWidth: int, innerHeight: int)
    ensures var r := NormalizeLayout(layout, innerWidth, innerHeight);
            NormalizeLayout(Some(ToRawLayout(r)), innerWidth, innerHeight) == r
  {
    NormalizeLayoutKeepsFitting(NormalizeLayout(layout, innerWidth, innerHeight), innerWidth, innerHeight);
  }
}

=== FILE: dispatch.dfy ===
/**
 * The dispatch gate of the offscreen document. After every audio chunk it
 * decides whether to send the newest window of audio to the engine: only
 * while capturing with a ready model, at most once per dispatch interval,
 * only once enough audio is buffered, and only while voice was heard recently
 * (within the voice-hold time, inclusive) or is heard in this window.
 */
module Dispatch {
  import opened Wrappers
  import opened JsNum
  import Settings
  import Models
  import SampleBuffer
  import Resample

  /** The two timestamps (milliseconds) the gate keeps between chunks. */
  datatype Gate = Gate(lastDispatchedAt: int, lastVoiceAt: int)

  /** The gate after a stop: no voice heard. `lastDispatchedAt` survives a stop. */
  function ResetVoice(g: Gate): (r: Gate)
    ensures r.lastVoiceAt == 0 && r.lastDispatchedAt == g.lastDispatchedAt
  {
    g.(lastVoiceAt := 0)
  }

  /** The outcome for one chunk: nothing, or a resampled window to transcribe. */
  datatype Decision = Skip | Send(audio: seq<real>)

  /** The window of audio a dispatch at `sampleRate` takes: the newest `floor(rate * window)` samples at 16 kHz. */
  function WindowAudio(buffer: SampleBuffer.Buffer, sampleRate: real, modelId: string,
                       s: Settings.Settings): (audio: seq<real>)
    requires SampleBuffer.Valid(buffer) && sampleRate > 0.0 && Settings.Valid(s)
    ensures var n := Floor(sampleRate * Models.WindowSecondsFor(modelId, s));
            n >= 0 && |SampleBuffer.LastSamples(buffer, n)| > 0 ==> |audio| > 0
  {
    var w := Models.WindowSecondsFor(modelId, s);
    assert sampleRate * w >= 0.0;
    var n := Floor(sampleRate * w);
    Resample.ResampleLinear(SampleBuffer.LastSamples(buffer, n), sampleRate, Resample.TargetRate)
  }

  /** The minimum number of buffered samples, `floor(rate * minSeconds)`. */
  function MinimumSamples(sampleRate: real, s: Settings.Settings): int {
    Floor(sampleRate * s.minSeconds)
  }

  /** The three gate conditions on timing, buffered audio and voice. */
  predicate Open(g: Gate, now: int, totalSamples: int, sampleRate: real, voiced: bool, s: Settings.Settings) {
    && (now - g.lastDispatchedAt) as real >= s.dispatchIntervalMs
    && totalSamples >= MinimumSamples(sampleRate, s)
    && (voiced || (now - g.lastVoiceAt) as real <= s.voiceHoldMs)
  }

  /**
   * One evaluation of the gate at time `now`. `sampleRate` is `None` when
   * there is no audio context. The window is voiced when its RMS reaches the
   * silence threshold.
   */
  function Evaluate(g: Gate, capturing: bool, modelReady: bool, sampleRate: Option<real>, now: int,
                    buffer: SampleBuffer.Buffer, modelId: string, s: Settings.Settings): (r: (Gate, Decision))
    requires SampleBuffer.Valid(buffer) && Settings.Valid(s)
    requires sampleRate.Some? ==> sampleRate.value > 0.0
    ensures r.1.Send? <==>
              && capturing && modelReady && sampleRate.Some?
              && Open(g, now, buffer.totalSamples, sampleRate.value,
                      Resample.RmsAtLeast(WindowAudio(buffer, sampleRate.value, modelId, s), s.silenceRmsThreshold), s)
    ensures r.1.Skip? ==> r.0 == g
    ensures r.1.Send? ==> r.0.lastDispatchedAt == now
    ensures r.1.Send? ==> r.1.audio == WindowAudio(buffer, sampleRate.value, modelId, s)
    ensures r.1.Send? ==>
              (r.0.lastVoiceAt == now <==>
                 Resample.RmsAtLeast(r.1.audio, s.silenceRmsThreshold) || g.lastVoiceAt == now)
    ensures r.1.Send? ==> r.0.lastVoiceAt == now || r.0.lastVoiceAt == g.lastVoiceAt
  {
    if !capturing || !modelReady || sampleRate.None? then
      (g, Skip)
    else
      var rate := sampleRate.value;
      if ((now - g.lastDispatchedAt) as real) < s.dispatchIntervalMs then
        (g, Skip)
      else if buffer.totalSamples < MinimumSamples(rate, s) then
        (g, Skip)
      else
        var audio := WindowAudio(buffer, rate, modelId, s);
        if Resample.RmsAtLeast(audio, s.silenceRmsThreshold) then
          (Gate(now, now), Send(audio))
        else if ((now - g.lastVoiceAt) as real) > s.voiceHoldMs then
          (g, Skip)
        else
          (g.(lastDispatchedAt := now), Send(audio))
  }

  /**
   * Two dispatches are at least the dispatch interval apart: after a send at
   * `t1`, the gate stays shut at any `t2` with `t2 - t1 < dispatchIntervalMs`.
   */
  lemma DispatchesAreSpaced(g: Gate, capturing: bool, modelReady: bool, sampleRate: Option<real>,
                            t1: int, t2: int, b1: SampleBuffer.Buffer, b2: SampleBuffer.Buffer,
                            modelId: string, s: Settings.Settings)
    requires SampleBuffer.Valid(b1) && SampleBuffer.Valid(b2) && Settings.Valid(s)
    requires sampleRate.Some? ==> sampleRate.value > 0.0
    requires Evaluate(g, capturing, modelReady, sampleRate, t1, b1, modelId, s).1.Send?
    requires ((t2 - t1) as real) < s.dispatchIntervalMs
    ensures var g1 := Evaluate(g, capturing, modelReady, sampleRate, t1, b1, modelId, s).0;
            Evaluate(g1, capturing, modelReady, sampleRate, t2, b2, modelId, s).1.Skip?
  {
  }

  /**
   * The voice hold is inclusive: a silent window still goes out exactly
   * `voiceHoldMs` after the last voice, and not one millisecond later.
   */
  lemma VoiceHoldBoundary(g: Gate, sampleRate: real, buffer: SampleBuffer.Buffer, modelId: string,
                          s: Settings.Settings)
    requires SampleBuffer.Valid(buffer) && Settings.Valid(s) && sampleRate > 0.0
    requires !Resample.RmsAtLeast(WindowAudio(buffer, sampleRate, modelId, s), s.silenceRmsThreshold)
    requires buffer.totalSamples >= MinimumSamples(sampleRate, s)
    requires g.lastDispatchedAt <= g.lastVoiceAt
    requires s.voiceHoldMs >= s.dispatchIntervalMs
    ensures var hold := s.voiceHoldMs.Floor;
            var open := g.lastVoiceAt + hold;
            && Evaluate(g, true, true, Some(sampleRate), open, buffer, modelId, s).1.Send?
            && Evaluate(g, true, true, Some(sampleRate), open + 1, buffer, modelId, s).1.Skip?
  {
    assert Settings.Admissible(Settings.VoiceHoldMs, s.Get(Settings.VoiceHoldMs));
    assert s.voiceHoldMs.Floor as real == s.voiceHoldMs;
  }

  /**
   * Silence with no voice on record keeps the gate shut once the hold after
   * time 0 has passed, however long the buffer is.
   */
  lemma SilenceAfterResetNeverDispatches(g: Gate, sampleRate: Option<real>, now: int,
                                         buffer: SampleBuffer.Buffer, modelId: string, s: Settings.Settings)
    requires SampleBuffer.Valid(buffer) && Settings.Valid(s)
    requires sampleRate.Some? ==> sampleRate.value > 0.0
    requires g.lastVoiceAt == 0 && now as real > s.voiceHoldMs
    requires sampleRate.Some? ==>
               !Resample.RmsAtLeast(WindowAudio(buffer, sampleRate.value, modelId, s), s.silenceRmsThreshold)
    ensures forall capturing: bool, ready: bool ::
              Evaluate(g, capturing, ready, sampleRate, now, buffer, modelId, s).1.Skip?
  {
  }
}

=== FILE: jsnum.dfy ===
/**
 * JavaScript numbers as the extension uses them: `Number(x)` is either a
 * finite value or NaN/±Infinity, `Math.round` rounds halves upwards, and
 * `Math.min(hi, Math.max(lo, x))` clamps. Finite values are modelled as exact
 * reals.
 */
module JsNum {

  /** The outcome of `Number(x)` for some stored or received value `x`. */
  datatype Num = Finite(value: real) | NonFinite

  /** `Number.isFinite(n) ? n : fallback`. */
  function OrElse(n: Num, fallback: real): real {
    match n
    case Finite(v) => v
    case NonFinite => fallback
  }

  function Min(a: real, b: real): real {
    if a <= b then a else b
  }

  function Max(a: real, b: real): real {
    if a >= b then a else b
  }

  /** `Math.round`: the nearest integer, halves rounded towards +Infinity. */
  function Round(x: real): (r: int)
    ensures x - 0.5 < r as real <= x + 0.5
  {
    (x + 0.5).Floor
  }

  /** `Math.min(hi, Math.max(lo, x))`. */
  function Clamp(x: real, lo: real, hi: real): (r: real)
    ensures lo <= hi ==> lo <= r <= hi
    ensures lo <= x <= hi ==> r == x
    ensures x < lo <= hi ==> r == lo
    ensures lo <= hi < x ==> r == hi
  {
    Min(hi, Max(lo, x))
  }

  /** A real that holds an integer value. */
  predicate IsIntegral(x: real) {
    x == x.Floor as real
  }

  /** Rounding an integral value returns it. */
  lemma RoundIntegral(x: real)
    requires IsIntegral(x)
    ensures Round(x) as real == x
  {
    var n := x.Floor;
    assert n as real <= x + 0.5 < n as real + 1.0;
    assert (x + 0.5).Floor == n;
  }

  /** `Math.round` of a clamped value stays within integral bounds. */
  lemma RoundWithin(x: real, lo: int, hi: int)
    requires lo as real <= x <= hi as real
    ensures lo <= Round(x) <= hi
  {
  }

  /** Integer floor of a real, `Math.floor`. */
  function Floor(x: real): (r: int)
    ensures r as real <= x < r as real + 1.0
  {
    x.Floor
  }
}

=== FILE: language.dfy ===
/**
 * Normalisation of the caption language the user picks: a blank choice means
 * English, twenty English language names map to their two-letter codes, any
 * other two lowercase letters pass through, and everything else falls back to
 * English. The background worker and the popup hold identical copies of this
 * rule.
 *
 * The copies look the name up in a plain object literal, so a name that is a
 * property every object inherits (`constructor`, `__proto__`) finds that
 * inherited member instead of a code. `NormalizeAsWritten` models the lookup as
 * the code performs it and `Normalize` the evidently intended one.
 */
module Language {
  import opened Text

  /** The English names the selector accepts, and their codes. */
  const Aliases: map<string, string> := map[
    "english" := "en", "spanish" := "es", "chinese" := "zh", "french" := "fr",
    "german" := "de", "italian" := "it", "portuguese" := "pt", "russian" := "ru",
    "japanese" := "ja", "korean" := "ko", "arabic" := "ar", "hindi" := "hi",
    "turkish" := "tr", "dutch" := "nl", "polish" := "pl", "indonesian" := "id",
    "vietnamese" := "vi", "thai" := "th", "ukrainian" := "uk", "persian" := "fa"]

  /** The lowercase names every plain object inherits a truthy member under. */
  predicate IsInheritedKey(k: string) {
    k == "constructor" || k == "__proto__"
  }

  /** Two lowercase ASCII letters: what `^[a-z]{2}$` accepts. */
  predicate IsCode(s: string) {
    |s| == 2 && 'a' <= s[0] <= 'z' && 'a' <= s[1] <= 'z'
  }

  lemma AliasesAreCodes()
    ensures forall k :: k in Aliases ==> IsCode(Aliases[k])
    ensures forall k :: k in Aliases ==> 2 < |k| <= 10 && 'a' <= k[0] <= 'z'
  {
  }

  /** No English name is an inherited name. */
  lemma AliasNotInherited(k: string)
    requires k in Aliases
    ensures !IsInheritedKey(k)
  {
    AliasesAreCodes();
    assert k != "constructor" by {
      assert |k| <= 10;
    }
    assert k != "__proto__" by {
      assert k[0] != '_';
    }
  }

  /** The choice trimmed and lowercased, as it is looked up. */
  function Key(language: string): string {
    ToLower(Trim(language))
  }

  /** What the lookup of a language choice can produce. */
  datatype Selection = Code(code: string) | InheritedMember(name: string)

  /** The rule as the code performs it, inherited object members included. */
  function NormalizeAsWritten(language: string): (r: Selection)
    ensures r.InheritedMember? <==> IsInheritedKey(Key(language))
    ensures r.Code? ==> IsCode(r.code)
  {
    var raw := Key(language);
    if raw == "" then Code("en")
    else if raw in Aliases then
      AliasesAreCodes();
      AliasNotInherited(raw);
      Code(Aliases[raw])
    else if IsInheritedKey(raw) then InheritedMember(raw)
    else if IsCode(raw) then Code(raw)
    else Code("en")
  }

  /**
   * The rule with an own-property lookup: always a two-letter code; blank or
   * unknown input gives `en`, a known name its code, a code itself.
   */
  function Normalize(language: string): (r: string)
    ensures IsCode(r)
    ensures Key(language) == "" ==> r == "en"
    ensures Key(language) in Aliases ==> r == Aliases[Key(language)]
    ensures Key(language) !in Aliases && IsCode(Key(language)) ==> r == Key(language)
    ensures Key(language) !in Aliases && !IsCode(Key(language)) ==> r == "en"
  {
    AliasesAreCodes();
    var raw := Key(language);
    if raw == "" then "en"
    else if raw in Aliases then Aliases[raw]
    else if IsCode(raw) then raw
    else "en"
  }

  /** The two agree on every input except the inherited names. */
  lemma AsWrittenAgreesElsewhere(language: string)
    requires !IsInheritedKey(Key(language))
    ensures NormalizeAsWritten(language) == Code(Normalize(language))
  {
  }

  /** A string with no outer whitespace and no uppercase ASCII letter is its own key. */
  lemma KeyOfLowerTrimmed(s: string)
    requires IsTrimmed(s)
    requires forall i :: 0 <= i < |s| ==> !('A' <= s[i] <= 'Z')
    ensures Key(s) == s
  {
    TrimOfTrimmed(s);
    assert ToLower(s) == s;
  }

  /** `"constructor"` is not normalised to a language code by the code as written. */
  lemma ConstructorIsNotACode()
    ensures NormalizeAsWritten("constructor") == InheritedMember("constructor")
    ensures Normalize("constructor") == "en"
  {
    var name := "constructor";
    KeyOfLowerTrimmed(name);
    AliasesAreCodes();
    assert name !in Aliases;
  }

  /** A code has no outer whitespace and no uppercase letter, so it is its own key. */
  lemma KeyOfCode(code: string)
    requires IsCode(code)
    ensures Key(code) == code
  {
    KeyOfLowerTrimmed(code);
  }

  /** Normalising is idempotent. */
  lemma NormalizeIdempotent(language: string)
    ensures Normalize(Normalize(language)) == Normalize(language)
  {
    var r := Normalize(language);
    KeyOfCode(r);
    AliasesAreCodes();
  }
}

=== FILE: model_loader.dfy ===
/**
 * The model-load lifecycle of the offscreen document. A request to use a
 * model either finds it ready, waits for the load in progress, or begins a
 * new load with a fresh load id. While a load runs, a heartbeat fails it when
 * no progress has arrived for 10 s or when 180 s have elapsed; progress
 * reports from a superseded load or within 350 ms of the last report are
 * ignored; any failure clears the loading, ready and recognizer state.
 *
 * Asynchrony becomes explicit steps with the time `now` as a parameter; load
 * ids are a counter. `recognizer` is the recognizer being built or held,
 * named by its model.
 *
 * The success handler of a load is not guarded by its load id, and a
 * re-entrant request drops the recognizer of a load in progress, so the
 * model as written can become ready without a recognizer.
 * `ResolvedAsWritten` and `BeginRequestAsWritten` model that; `Resolved` and
 * `BeginRequest` are the guarded versions, under which the lifecycle
 * invariant `Consistent` holds.
 */
module ModelLoader {
  import opened Wrappers
  import opened JsNum

  /** Milliseconds without progress after which a load is declared stalled. */
  const NoProgressTimeoutMs: int := 10000
  /** Milliseconds after which a load is declared timed out. */
  const LoadTimeoutMs: int := 180000
  /** Least gap between two forwarded progress reports. */
  const ProgressThrottleMs: int := 350

  datatype Loader = Loader(
    currentModel: string,
    loadedModel: Option<string>,
    ready: bool,
    loading: bool,
    pending: bool,
    activeLoadId: nat,
    nextLoadId: nat,
    startedAt: int,
    lastSignalAt: int,
    lastReportAt: int,
    recognizer: Option<string>,
    errors: seq<string>)

  const Initial: Loader := Loader("", None, false, false, false, 0, 1, 0, 0, 0, None, [])

  /**
   * The lifecycle invariant: a ready model is the one whose recognizer is
   * held, and no load runs; a running load's id has been handed out.
   */
  predicate Consistent(l: Loader) {
    && (l.ready ==> !l.loading && l.loadedModel.Some? && l.recognizer == l.loadedModel)
    && (l.loading ==> l.activeLoadId < l.nextLoadId)
  }

  /** The request is satisfied: the current model is ready. This is the loop's exit condition. */
  predicate Satisfied(l: Loader) {
    l.ready && l.loadedModel == Some(l.currentModel)
  }

  /** A failure: nothing loading, nothing ready, no recognizer; the message is reported. */
  function SetModelError(l: Loader, message: string): (r: Loader)
    ensures !r.loading && !r.ready && r.recognizer.None?
    ensures r.errors == l.errors + [message]
    ensures Consistent(r)
  {
    l.(loading := false, ready := false, recognizer := None, errors := l.errors + [message])
  }

  /** The model a request names: an empty name keeps the current model. */
  function Requested(l: Loader, model: string): string {
    if model == "" then l.currentModel else model
  }

  /**
   * The entry of a request, as written: the current model is updated and a
   * recognizer held for it while it is not ready is dropped, even when a load
   * for it is in progress.
   */
  function BeginRequestAsWritten(l: Loader, model: string): (r: Loader)
    ensures r.currentModel == Requested(l, model)
    ensures !l.ready && l.recognizer == Some(r.currentModel) ==> r.recognizer.None?
  {
    var l1 := l.(currentModel := Requested(l, model));
    if !l1.ready && l1.recognizer == Some(l1.currentModel) then l1.(recognizer := None) else l1
  }

  /** The entry of a request: a hung recognizer is dropped only when no load is in progress. */
  function BeginRequest(l: Loader, model: string): (r: Loader)
    ensures r.currentModel == Requested(l, model)
    ensures !l.ready && !l.loading && l.recognizer == Some(r.currentModel) ==> r.recognizer.None?
    ensures Consistent(l) ==> Consistent(r)
  {
    var l1 := l.(currentModel := Requested(l, model));
    if !l1.ready && !l1.loading && l1.recognizer == Some(l1.currentModel) then l1.(recognizer := None) else l1
  }

  /** One turn of the request loop. */
  datatype Step = Done | Wait | Began(loadId: nat)

  /**
   * One turn of the request loop at time `now`: done when the current model
   * is ready; waiting when a load is pending; otherwise a new load begins
   * with a fresh id and fresh timers. Its promise is not installed yet: the
   * loop first awaits the "initializing" progress message, and only `Arm`
   * makes the load pending.
   */
  function LoopStep(l: Loader, now: int): (r: (Loader, Step))
    ensures r.1.Done? <==> Satisfied(l)
    ensures r.1.Done? || r.1.Wait? ==> r.0 == l
    ensures r.1.Wait? <==> !Satisfied(l) && l.loading && l.pending
    ensures r.1.Began? ==>
              && r.0.loading && !r.0.ready
              && r.1.loadId == l.nextLoadId == r.0.activeLoadId && r.0.nextLoadId == l.nextLoadId + 1
              && r.0.startedAt == now && r.0.lastSignalAt == now && r.0.lastReportAt == 0
              && r.0.pending == l.pending && r.0.recognizer == l.recognizer
    ensures Consistent(l) ==> Consistent(r.0)
  {
    if Satisfied(l) then (l, Done)
    else if l.loading && l.pending then (l, Wait)
    else
      var id := l.nextLoadId;
      (l.(loading := true, ready := false, activeLoadId := id, nextLoadId := id + 1,
          startedAt := now, lastSignalAt := now, lastReportAt := 0),
       Began(id))
  }

  /**
   * The load's promise is installed, after the "initializing" message: the
   * load is pending. A recognizer held for another model is dropped together
   * with readiness, and a recognizer for the current model is built unless
   * one is already held.
   */
  function Arm(l: Loader): (r: Loader)
    ensures r.pending && r.recognizer == Some(l.currentModel)
    ensures l.recognizer == Some(l.currentModel) ==> r == l.(pending := true)
    ensures l.recognizer.Some? && l.recognizer != Some(l.currentModel) ==> !r.ready
    ensures r.loading == l.loading && r.activeLoadId == l.activeLoadId && r.nextLoadId == l.nextLoadId
    ensures Consistent(l) ==> Consistent(r)
  {
    if l.recognizer == Some(l.currentModel) then l.(pending := true)
    else if l.recognizer.Some? then l.(pending := true, ready := false, recognizer := Some(l.currentModel))
    else l.(pending := true, recognizer := Some(l.currentModel))
  }

  /**
   * A request that arrives after a load began but before it is armed does not
   * wait for it: it begins a second load with the next id, which supersedes
   * the first.
   */
  lemma RequestBeforeArmBeginsAgain(l: Loader, model: string, t0: int, t1: int)
    requires !l.pending && !Satisfied(l)
    ensures var (l1, first) := LoopStep(l, t0);
            var (l2, second) := LoopStep(BeginRequest(l1, model), t1);
            && first.Began? && second.Began?
            && second.loadId == first.loadId + 1 && l2.activeLoadId == second.loadId
  {
  }

  /** Once the load is armed, a request for the same model waits for it. */
  lemma ArmedLoadMakesRequestsWait(l: Loader, t0: int, t1: int)
    requires !Satisfied(l) && !(l.loading && l.pending)
    ensures var (l1, first) := LoopStep(l, t0);
            first.Began? && LoopStep(BeginRequest(Arm(l1), ""), t1).1 == Wait
  {
  }

  /** What one heartbeat tick decides. */
  datatype Verdict = Idle | Stalled | TimedOut | StillWaiting

  function HeartbeatVerdict(l: Loader, now: int): (v: Verdict)
    ensures v == Idle <==> !l.loading
    ensures v == Stalled <==> l.loading && now - l.lastSignalAt >= NoProgressTimeoutMs
    ensures v == TimedOut <==>
              l.loading && now - l.lastSignalAt < NoProgressTimeoutMs && now - l.startedAt >= LoadTimeoutMs
  {
    var elapsed := if now - l.startedAt > 0 then now - l.startedAt else 0;
    var stalled := if now - l.lastSignalAt > 0 then now - l.lastSignalAt else 0;
    if !l.loading then Idle
    else if stalled >= NoProgressTimeoutMs then Stalled
    else if elapsed >= LoadTimeoutMs then TimedOut
    else StillWaiting
  }

  /** A heartbeat tick: a stalled or timed-out load fails, anything else is left alone. */
  function Heartbeat(l: Loader, now: int): (r: Loader)
    ensures HeartbeatVerdict(l, now) == Stalled || HeartbeatVerdict(l, now) == TimedOut ==>
              !r.loading && !r.ready && r.recognizer.None? && |r.errors| == |l.errors| + 1
    ensures HeartbeatVerdict(l, now) == Idle || HeartbeatVerdict(l, now) == StillWaiting ==> r == l
    ensures Consistent(l) ==> Consistent(r)
  {
    match HeartbeatVerdict(l, now)
    case Stalled => SetModelError(l, "Model load stalled: no progress for 10s.")
    case TimedOut => SetModelError(l, "Model load timed out (180s). Check network and reload extension.")
    case _ => l
  }

  /** The 180 s timer of load `loadId`: it fails that load only while it is still the active one. */
  function LoadTimer(l: Loader, loadId: nat): (r: Loader)
    ensures l.loading && l.activeLoadId == loadId ==> !r.loading && r.recognizer.None?
    ensures !(l.loading && l.activeLoadId == loadId) ==> r == l
    ensures Consistent(l) ==> Consistent(r)
  {
    if !l.loading || l.activeLoadId != loadId then l
    else SetModelError(l, "Model load timed out (180s). Check network and reload extension.")
  }

  /**
   * A progress callback of load `loadId` at `now`: ignored for a superseded or
   * finished load and within 350 ms of the last report; otherwise it is
   * reported and refreshes the progress signal.
   */
  function Progress(l: Loader, loadId: nat, now: int): (r: (Loader, bool))
    ensures r.1 <==> l.loading && l.activeLoadId == loadId && now - l.lastReportAt >= ProgressThrottleMs
    ensures r.1 ==> r.0 == l.(lastReportAt := now, lastSignalAt := now)
    ensures !r.1 ==> r.0 == l
    ensures Consistent(l) ==> Consistent(r.0)
  {
    if !l.loading || l.activeLoadId != loadId then (l, false)
    else if now - l.lastReportAt < ProgressThrottleMs then (l, false)
    else (l.(lastReportAt := now, lastSignalAt := now), true)
  }

  /** Two reported progress events are at least 350 ms apart. */
  lemma ReportsAreThrottled(l: Loader, id1: nat, t1: int, id2: nat, t2: int)
    requires Progress(l, id1, t1).1
    requires Progress(Progress(l, id1, t1).0, id2, t2).1
    ensures t2 - t1 >= ProgressThrottleMs
  {
  }

  /** A report keeps a running load from being declared stalled for the next 10 s. */
  lemma ReportDefersStall(l: Loader, loadId: nat, t: int, later: int)
    requires Progress(l, loadId, t).1
    requires t <= later < t + NoProgressTimeoutMs
    ensures HeartbeatVerdict(Progress(l, loadId, t).0, later) != Stalled
  {
  }

  /** The end of load `loadId` releases the pending marker only if it is still the active load. */
  function Settle(l: Loader, loadId: nat): Loader {
    if l.activeLoadId == loadId then l.(pending := false) else l
  }

  /** Success of load `loadId` as written: whatever happened meanwhile, the current model becomes ready. */
  function ResolvedAsWritten(l: Loader, loadId: nat): (r: Loader)
    ensures r.ready && !r.loading && r.loadedModel == Some(l.currentModel)
    ensures r.recognizer == l.recognizer
  {
    Settle(l.(ready := true, loadedModel := Some(l.currentModel), loading := false), loadId)
  }

  /**
   * Success of load `loadId`, guarded: it counts only while that load is the
   * active one, and the model that becomes ready is the one its recognizer
   * was built for.
   */
  function Resolved(l: Loader, loadId: nat): (r: Loader)
    ensures l.loading && l.activeLoadId == loadId && l.recognizer.Some? ==>
              r.ready && !r.loading && r.loadedModel == l.recognizer && !r.pending
    ensures !(l.loading && l.activeLoadId == loadId && l.recognizer.Some?) ==> r == Settle(l, loadId)
    ensures Consistent(l) ==> Consistent(r)
  {
    if l.loading && l.activeLoadId == loadId && l.recognizer.Some? then
      Settle(l.(ready := true, loadedModel := l.recognizer, loading := false), loadId)
    else
      Settle(l, loadId)
  }

  /** Failure of load `loadId`: the recognizer is dropped and the error reported. */
  function Failed(l: Loader, loadId: nat, message: string): (r: Loader)
    ensures !r.loading && !r.ready && r.recognizer.None?
    ensures Consistent(r)
  {
    Settle(SetModelError(l, message), loadId)
  }

  /** Every step of the guarded lifecycle keeps `Consistent`, starting from the initial state. */
  lemma GuardedLifecycleConsistent(l: Loader, model: string, now: int, loadId: nat, message: string)
    requires Consistent(l)
    ensures Consistent(Initial)
    ensures Consistent(BeginRequest(l, model))
    ensures Consistent(LoopStep(l, now).0)
    ensures Consistent(Arm(l))
    ensures Consistent(Heartbeat(l, now))
    ensures Consistent(LoadTimer(l, loadId))
    ensures Consistent(Progress(l, loadId, now).0)
    ensures Consistent(Resolved(l, loadId))
    ensures Consistent(Failed(l, loadId, message))
  {
  }

  /** Ready under `Consistent` means the loaded model's recognizer is held. */
  lemma SatisfiedHoldsRecognizer(l: Loader)
    requires Consistent(l) && Satisfied(l)
    ensures l.recognizer == Some(l.currentModel) && !l.loading
  {
  }

  /**
   * As written, a load that the heartbeat declared stalled can still succeed
   * later, and then the model is ready with no recognizer held.
   */
  lemma StalledLoadResolvesWithoutRecognizer(model: string, t0: int)
    requires model != ""
    ensures var l1 := BeginRequestAsWritten(Initial, model);
            var (l2, step) := LoopStep(l1, t0);
            var l3 := Heartbeat(Arm(l2), t0 + NoProgressTimeoutMs);
            var l4 := ResolvedAsWritten(l3, step.loadId);
            && step.Began? && Consistent(Arm(l2)) && l3.errors != []
            && Satisfied(l4) && l4.recognizer.None? && !Consistent(l4)
  {
  }

  /**
   * As written, a second request for the model being loaded drops its
   * recognizer; when the load then succeeds, the model is ready with no
   * recognizer held.
   */
  lemma ReentrantRequestLosesRecognizer(model: string, t0: int)
    requires model != ""
    ensures var l1 := BeginRequestAsWritten(Initial, model);
            var (l2, step) := LoopStep(l1, t0);
            var l3 := BeginRequestAsWritten(Arm(l2), model);
            var l4 := ResolvedAsWritten(l3, step.loadId);
            && step.Began? && LoopStep(l3, t0).1 == Wait
            && Satisfied(l4) && l4.recognizer.None? && !Consistent(l4)
  {
  }

  /** With the guards, the same two scenarios leave the model consistent. */
  lemma GuardedScenarios(model: string, t0: int)
    requires model != ""
    ensures var l1 := BeginRequest(Initial, model);
            var (l2, step) := LoopStep(l1, t0);
            var armed := Arm(l2);
            && Consistent(Resolved(Heartbeat(armed, t0 + NoProgressTimeoutMs), step.loadId))
            && !Satisfied(Resolved(Heartbeat(armed, t0 + NoProgressTimeoutMs), step.loadId))
            && Satisfied(Resolved(BeginRequest(armed, model), step.loadId))
            && Resolved(BeginRequest(armed, model), step.loadId).recognizer == Some(model)
  {
  }

  /**
   * Progress percentage: a finite `progress` above 1 is already a
   * percentage, otherwise a fraction; failing that, loaded over total bytes
   * when the total is positive.
   */
  function ProgressPercent(progress: Option<real>, loaded: Option<real>, total: Option<real>): (p: Option<int>)
    ensures progress.Some? && 0.0 <= progress.value <= 100.0 ==> p.Some? && 0 <= p.value <= 100
    ensures progress.None? && loaded.Some? && total.Some? && 0.0 <= loaded.value <= total.value && total.value > 0.0 ==>
              p.Some? && 0 <= p.value <= 100
    ensures progress.None? && !(loaded.Some? && total.Some? && total.value > 0.0) ==> p.None?
    ensures progress.Some? && progress.value > 1.0 ==> p == Some(Round(progress.value))
    ensures progress.Some? && progress.value <= 1.0 ==> p == Some(Round(progress.value * 100.0))
    ensures progress.None? && loaded.Some? && total.Some? && total.value > 0.0 ==>
              p == Some(Round(loaded.value / total.value * 100.0))
  {
    if progress.Some? then
      var v := progress.value;
      Some(if v > 1.0 then Round(v) else Round(v * 100.0))
    else if loaded.Some? && total.Some? && total.value > 0.0 then
      var q := loaded.value / total.value;
      assert 0.0 <= loaded.value <= total.value ==> 0.0 <= q <= 1.0 by {
        if 0.0 <= loaded.value <= total.value {
          assert q * total.value == loaded.value;
        }
      }
      Some(Round(q * 100.0))
    else None
  }

  /** A fraction and the same amount as a percentage report the same percent, when that is above one. */
  lemma FractionAndPercentAgree(f: real, loaded: Option<real>, total: Option<real>)
    requires 0.01 < f <= 1.0
    ensures ProgressPercent(Some(f), loaded, total) == ProgressPercent(Some(f * 100.0), loaded, total)
  {
  }

  /** Byte counts report what their ratio would as a fraction. */
  lemma BytesAgreeWithFraction(loaded: real, total: real, progress: Option<real>)
    requires 0.0 <= loaded <= total && total > 0.0
    ensures ProgressPercent(None, Some(loaded), Some(total)) == ProgressPercent(Some(loaded / total), progress, None)
  {
    var q := loaded / total;
    assert q * total == loaded;
    assert q <= 1.0;
  }

  /** A progress of exactly one is read as a whole fraction, not as one percent. */
  lemma ProgressOfOneIsFull(loaded: Option<real>, total: Option<real>)
    ensures ProgressPercent(Some(1.0), loaded, total) == Some(100)
    ensures ProgressPercent(Some(0.5), loaded, total) == Some(50)
    ensures ProgressPercent(Some(2.0), loaded, total) == Some(2)
  {
  }
}

=== FILE: models.dfy ===
/**
 * Facts about speech models and the engine call of the offscreen document:
 * which ids name English-only or base-size models, the analysis window each
 * gets, the decoding options passed to the engine, when a failed call is
 * retried without forcing the language, and how the engine's result becomes
 * text.
 */
module Models {
  import opened Wrappers
  import opened Text
  import opened Settings

  /** An English-only model: its lowercased id contains `whisper-` and ends in `.en`. */
  predicate IsEnglishOnly(modelId: string): (b: bool)
    ensures b ==> |modelId| >= 11
  {
    var lower := ToLower(modelId);
    MarkersDoNotOverlap(lower);
    Contains(lower, "whisper-") && EndsWith(lower, ".en")
  }

  /** `whisper-` holds no `.`, so in an id that ends in `.en` the two take at least 11 characters. */
  lemma MarkersDoNotOverlap(id: string)
    ensures Contains(id, "whisper-") && EndsWith(id, ".en") ==> |id| >= 11
  {
    if Contains(id, "whisper-") && |id| <= 10 {
      var i :| OccursAt(id, "whisper-", i);
      var p := |id| - 3;
      assert id[p] == "whisper-"[p - i];
      assert id[p] != '.';
    }
  }

  /** Whether a model is English-only does not depend on the case of its id. */
  lemma EnglishOnlyIgnoresCase(modelId: string)
    ensures IsEnglishOnly(ToLower(modelId)) == IsEnglishOnly(modelId)
  {
    LowerIdempotent(modelId);
  }

  /** A base-size model: its lowercased id contains `whisper-base`. */
  predicate IsBase(modelId: string) {
    Contains(ToLower(modelId), "whisper-base")
  }

  lemma ValidWindows(s: Settings)
    ensures Valid(s) ==> 0.8 <= s.windowSeconds <= 12.0 && 0.5 <= s.baseWindowSeconds <= 12.0
  {
    if Valid(s) {
      assert Admissible(WindowSeconds, s.Get(WindowSeconds));
      assert Admissible(BaseWindowSeconds, s.Get(BaseWindowSeconds));
    }
  }

  /**
   * Seconds of recent audio sent to the engine: base models use their own
   * window, every other model the general one; with sanitised settings it is
   * between half a second and twelve seconds.
   */
  function WindowSecondsFor(modelId: string, s: Settings): (w: real)
    ensures Valid(s) ==> 0.5 <= w <= 12.0
    ensures IsBase(modelId) ==> w == s.baseWindowSeconds
    ensures !IsBase(modelId) ==> w == s.windowSeconds
  {
    ValidWindows(s);
    if IsBase(modelId) then s.baseWindowSeconds else s.windowSeconds
  }

  /**
   * The options object of one engine call. `returnTimestamps` is always false;
   * `forcedDecoderIdsCleared` records the `forced_decoder_ids: null` key.
   */
  datatype DecodeOptions = DecodeOptions(
    returnTimestamps: bool,
    chunkLengthS: real,
    strideLengthS: real,
    forcedDecoderIdsCleared: bool,
    task: Option<string>,
    isMultilingual: Option<bool>,
    language: Option<string>)

  /** The language put into the options: trimmed and lowercased, `en` when blank. */
  function DecodeLanguage(language: string): (r: string)
    ensures |r| > 0
    ensures IsTrimmed(Trim(language)) && (Trim(language) != "" ==> r == ToLower(Trim(language)))
    ensures Trim(language) == "" ==> r == "en"
    ensures forall i :: 0 <= i < |r| ==> !('A' <= r[i] <= 'Z')
  {
    var t := Trim(language);
    var l := ToLower(t);
    if l == "" then "en" else l
  }

  /**
   * The decoding options for `modelId`. English-only models get the plain
   * chunking options; other models also clear the forced decoder ids and,
   * per flag, force the transcribe task and the selected language.
   */
  function BuildOptions(modelId: string, language: string, forceLanguage: bool, forceTask: bool,
                        s: Settings): (o: DecodeOptions)
    ensures !o.returnTimestamps
    ensures IsBase(modelId) ==> o.chunkLengthS == s.baseChunkLengthS && o.strideLengthS == s.baseStrideLengthS
    ensures !IsBase(modelId) ==> o.chunkLengthS == s.chunkLengthS && o.strideLengthS == s.strideLengthS
    ensures o.forcedDecoderIdsCleared <==> !IsEnglishOnly(modelId)
    ensures o.task.Some? <==> !IsEnglishOnly(modelId) && forceTask
    ensures o.task.Some? ==> o.task.value == "transcribe" && o.isMultilingual == Some(true)
    ensures o.isMultilingual.Some? <==> o.task.Some?
    ensures o.language.Some? <==> !IsEnglishOnly(modelId) && forceLanguage
    ensures o.language.Some? ==> o.language.value == DecodeLanguage(language)
  {
    var chunk := if IsBase(modelId) then s.baseChunkLengthS else s.chunkLengthS;
    var stride := if IsBase(modelId) then s.baseStrideLengthS else s.strideLengthS;
    if IsEnglishOnly(modelId) then
      DecodeOptions(false, chunk, stride, false, None, None, None)
    else
      DecodeOptions(false, chunk, stride, true,
                    if forceTask then Some("transcribe") else None,
                    if forceTask then Some(true) else None,
                    if forceLanguage then Some(DecodeLanguage(language)) else None)
  }

  /** With sanitised settings every option set chunks with a stride below the chunk. */
  lemma OptionsStrideBelowChunk(modelId: string, language: string, forceLanguage: bool, forceTask: bool,
                                s: Settings)
    requires Valid(s)
    ensures var o := BuildOptions(modelId, language, forceLanguage, forceTask, s);
            0.0 < o.strideLengthS < o.chunkLengthS
  {
    assert Admissible(StrideLengthS, s.Get(StrideLengthS));
    assert Admissible(BaseStrideLengthS, s.Get(BaseStrideLengthS));
  }

  /** An English-only model is never told a language or a task, whatever the flags. */
  lemma EnglishOnlyOptionsIgnoreLanguage(modelId: string, l1: string, l2: string,
                                         fl1: bool, fl2: bool, ft1: bool, ft2: bool, s: Settings)
    requires IsEnglishOnly(modelId)
    ensures BuildOptions(modelId, l1, fl1, ft1, s) == BuildOptions(modelId, l2, fl2, ft2, s)
    ensures BuildOptions(modelId, l1, fl1, ft1, s).language.None?
  {
  }

  /**
   * A failed engine call is retried once without forced language and task
   * when its message mentions a language token lookup.
   */
  predicate ShouldRetryWithoutForcedLanguage(message: string): (b: bool)
    ensures b <==> (exists i :: OccursAt(message, "reading '<|", i)) || (exists i :: OccursAt(message, "lang_to_id", i))
  {
    Contains(message, "reading '<|") || Contains(message, "lang_to_id")
  }

  /**
   * The retry decision looks only for the markers, so wrapping a message that
   * asks for a retry in more text, as a rethrown or prefixed error does,
   * still asks for a retry.
   */
  lemma {:induction false} RetrySurvivesWrapping(before: string, message: string, after: string)
    requires ShouldRetryWithoutForcedLanguage(message)
    ensures ShouldRetryWithoutForcedLanguage(before + message + after)
  {
    var wrapped := before + message + after;
    if exists i :: OccursAt(message, "reading '<|", i) {
      var i :| OccursAt(message, "reading '<|", i);
      assert wrapped[|before| + i..|before| + i + 11] == message[i..i + 11];
      assert OccursAt(wrapped, "reading '<|", |before| + i);
    } else {
      var i :| OccursAt(message, "lang_to_id", i);
      assert wrapped[|before| + i..|before| + i + 10] == message[i..i + 10];
      assert OccursAt(wrapped, "lang_to_id", |before| + i);
    }
  }

  lemma TokenLookupErrorRetried()
    ensures ShouldRetryWithoutForcedLanguage("Cannot read properties of undefined (reading '<|fr|>')")
  {
    var m := "Cannot read properties of undefined (reading '<|fr|>')";
    assert OccursAt(m, "reading '<|", 37);
  }

  lemma OutOfMemoryNotRetried()
    ensures !ShouldRetryWithoutForcedLanguage("out of memory")
  {
    var n := "out of memory";
    assert !Contains(n, "reading '<|") by {
      forall i ensures !OccursAt(n, "reading '<|", i) {
        if 0 <= i <= 2 {
          assert n[i + 10] != "reading '<|"[10];
        }
      }
    }
    assert !Contains(n, "lang_to_id") by {
      forall i ensures !OccursAt(n, "lang_to_id", i) {
        if 0 <= i <= 3 {
          assert n[i + 4] != "lang_to_id"[4];
        }
      }
    }
  }

  /** What the engine may resolve with: a string, an object with or without a string `text`, or nothing. */
  datatype EngineOutput = OutString(s: string) | OutObject(text: Option<string>) | OutNothing

  /** The engine's output as text: a string as is, else a string `text` member, else empty. */
  function NormalizeText(output: EngineOutput): (t: string)
    ensures output.OutString? ==> t == output.s
    ensures output.OutObject? && output.text.Some? ==> t == output.text.value
    ensures output.OutNothing? || (output.OutObject? && output.text.None?) ==> t == ""
  {
    match output
    case OutString(s) => s
    case OutObject(Some(text)) => text
    case _ => ""
  }

  /** Wrapping a text as the engine may return it, bare or as an object's `text`, and normalising gives it back. */
  lemma NormalizeTextRoundTrip(text: string)
    ensures NormalizeText(OutString(text)) == text
    ensures NormalizeText(OutObject(Some(text))) == text
  {
  }

  /** Normalising is idempotent: its result, returned as a string, normalises to itself. */
  lemma NormalizeTextIdempotent(output: EngineOutput)
    ensures NormalizeText(OutString(NormalizeText(output))) == NormalizeText(output)
  {
  }
}

=== FILE: popup.dfy ===
/**
 * The popup's own rules: its copy of the tuning sanitiser (over the defaults
 * alone), the status line and the load-log text it shows, whether the
 * selected model is the ready one, and which controls it enables.
 */
module Popup {
  import opened Wrappers
  import opened Text
  import Settings
  import Background
  import Session
  import Models

  /** The popup's sanitiser: the update over the defaults; what is missing or not finite is the default. */
  function SanitizeTuning(next: Option<Settings.Raw>): (r: Settings.Settings)
    ensures Settings.Valid(r)
  {
    Settings.SanitizeFrom(Settings.Overlay(Settings.FromSettings(Background.Defaults), Settings.ObjectOrEmpty(next)),
                          Background.Defaults)
  }

  /** The popup's copy is the background's with no current tuning: both give the same tuning for every update. */
  lemma PopupAgreesWithBackground(next: Option<Settings.Raw>)
    ensures SanitizeTuning(next) == Background.SanitizeTuning(next, None)
  {
    assert Settings.Overlay(Settings.FromSettings(Background.Defaults), Settings.ObjectOrEmpty(None))
        == Settings.FromSettings(Background.Defaults);
  }

  /** Every field of the popup's tuning is the update's finite value clamped into range, or the default. */
  lemma PopupFieldSource(next: Option<Settings.Raw>, f: Settings.Field)
    requires !Settings.IsStride(f)
    ensures var n := Settings.ObjectOrEmpty(next).Get(f);
            var r := SanitizeTuning(next).Get(f);
            && (Settings.HasFinite(n) ==> r == Settings.ClampField(f, n.value.value))
            && (!Settings.HasFinite(n) ==> r == Background.Defaults.Get(f))
  {
    PopupAgreesWithBackground(next);
    Background.TuningPrecedence(next, None, f);
  }

  /**
   * The status line: an error first, then `<status> on tab <id>` while
   * running (`running` for an empty status, `tab` without a tab), else the
   * status or `Idle`.
   */
  function FormatStatus(s: Session.Session): (text: string)
    ensures s.error.Some? && s.error.value != "" ==> text == "Error: " + s.error.value
    ensures !(s.error.Some? && s.error.value != "") && s.running ==>
              text == Or(s.status, "running") + " on " + (if s.tabId.Some? then "tab " + IntToString(s.tabId.value) else "tab")
    ensures !(s.error.Some? && s.error.value != "") && !s.running ==> text == Or(s.status, "Idle")
  {
    if s.error.Some? && s.error.value != "" then "Error: " + s.error.value
    else if s.running then
      var tab := if s.tabId.Some? then "tab " + IntToString(s.tabId.value) else "tab";
      Or(s.status, "running") + " on " + tab
    else Or(s.status, "Idle")
  }

  /** After stopping, the popup shows whether the model is ready; after a failure, the error. */
  lemma StatusAfterStopAndError(s: Session.Session, error: string, stamp: string)
    ensures FormatStatus(Session.StopCaptioning(s).0) == (if s.modelReady then "model ready" else "idle")
    ensures FormatStatus(Session.OffscreenError(s, error, stamp).0) == "Error: " + Or(error, "Unknown error")
  {
  }

  /** Lines of the load log the popup shows. */
  const ShownLogLines: nat := 20

  /** The load log as text: its newest 20 lines joined by newlines, or a placeholder when there are none. */
  function FormatLoadLog(log: Option<seq<string>>): (text: string)
    ensures log.None? || log.value == [] ==> text == "No logs yet."
    ensures log.Some? && log.value != [] ==> text == Join(Background.Newest(log.value, ShownLogLines), "\n")
  {
    if log.None? || |log.value| == 0 then "No logs yet."
    else Join(Background.Newest(log.value, ShownLogLines), "\n")
  }

  /** The shown text ends with the newest line, and a log of at most 20 lines is shown whole. */
  lemma {:induction false} JoinEndsWithLast(parts: seq<string>, sep: string)
    requires |parts| > 0
    ensures EndsWith(Join(parts, sep), parts[|parts| - 1])
    decreases |parts|
  {
    if |parts| > 1 {
      JoinEndsWithLast(parts[1..], sep);
      var rest := Join(parts[1..], sep);
      var last := parts[|parts| - 1];
      assert parts[1..][|parts[1..]| - 1] == last;
      var whole := parts[0] + sep + rest;
      assert whole[|whole| - |last|..] == rest[|rest| - |last|..];
    }
  }

  lemma LoadLogShowsNewest(log: seq<string>)
    requires log != []
    ensures EndsWith(FormatLoadLog(Some(log)), log[|log| - 1])
    ensures |log| <= ShownLogLines ==> FormatLoadLog(Some(log)) == Join(log, "\n")
  {
    var shown := Background.Newest(log, ShownLogLines);
    assert shown[|shown| - 1] == log[|log| - 1];
    JoinEndsWithLast(shown, "\n");
  }

  /** The selected model is the loaded, ready one. */
  predicate IsSelectedModelReady(s: Session.Session, selected: string): (b: bool)
    ensures b ==> s.modelReady && s.loadedModel.Some? && s.loadedModel.value == selected
  {
    s.modelReady && s.loadedModel == Some(selected)
  }

  /**
   * The popup shows the selected model as ready exactly when the background
   * accepts it: with captions stopped and a start request the browser does
   * not refuse, starting the selected model runs captions on that tab with
   * that model. The background does not look at the tab's address here.
   */
  lemma ReadySelectionStarts(s: Session.Session, selected: string, tab: int, language: string,
                             tuning: Option<Settings.Raw>, probe: Session.TabProbe, stamp: string)
    requires selected != "" && !s.running && probe.failure.None?
    ensures var r := Session.StartCaptioning(s, Some(tab), selected, language, tuning, probe, stamp);
            && (r.0.running <==> IsSelectedModelReady(s, selected))
            && (r.0.running ==> r.0.tabId == Some(tab) && r.0.model == selected)
  {
    Session.StartCapturesReadyModel(s, Some(tab), selected, language, tuning, probe, stamp);
  }

  /** The controls of the popup and the language it shows. */
  datatype View = View(loadDisabled: bool, startDisabled: bool, stopDisabled: bool,
                       languageDisabled: bool, language: string)

  /** The popup locks the language for a selected model whose id ends in `.en` (case-sensitive). */
  predicate LocksLanguage(selected: string) {
    EndsWith(selected, ".en")
  }

  /**
   * The controls for a session, the selected model and the language shown:
   * load and start are disabled while loading or running, stop while not
   * running; an `.en` model locks the language to `en`.
   */
  function Render(s: Session.Session, selected: string, language: string): (v: View)
    ensures v.loadDisabled <==> s.modelLoading || s.running
    ensures v.startDisabled <==> s.modelLoading || s.running
    ensures v.stopDisabled <==> !s.running
    ensures v.languageDisabled <==> LocksLanguage(selected)
    ensures LocksLanguage(selected) ==> v.language == "en"
    ensures !LocksLanguage(selected) ==> v.language == language
  {
    var englishOnly := LocksLanguage(selected);
    View(s.modelLoading || s.running, s.running || s.modelLoading, !s.running, englishOnly,
         if englishOnly && language != "en" then "en" else language)
  }

  /** Load and start are never enabled while stop is, so a running session only offers stop. */
  lemma ControlsExclusive(s: Session.Session, selected: string, language: string)
    ensures var v := Render(s, selected, language);
            !v.stopDisabled ==> v.loadDisabled && v.startDisabled
  {
  }

  /**
   * The popup's lock and the background's English-only rule differ: the
   * background lowercases and also wants `whisper-`; for an id already in
   * lowercase, every model the background treats as English-only is locked.
   */
  lemma LockCoversLowercaseEnglishOnly(selected: string)
    requires ToLower(selected) == selected && Models.IsEnglishOnly(selected)
    ensures LocksLanguage(selected)
  {
  }

  lemma LockAndEnglishOnlyDiffer()
    ensures LocksLanguage("custom-model.en") && !Models.IsEnglishOnly("custom-model.en")
  {
    var id := "custom-model.en";
    assert forall i :: 0 <= i < |id| ==> id[i] != 'w' && !('A' <= id[i] <= 'Z');
    assert id[|id| - 3..] == ".en";
    LockedButNotEnglishOnly(id);
  }

  /** An id ending in `.en` with no uppercase letter and no `w` is locked, yet not English-only. */
  lemma LockedButNotEnglishOnly(id: string)
    requires forall i :: 0 <= i < |id| ==> id[i] != 'w' && !('A' <= id[i] <= 'Z')
    requires EndsWith(id, ".en")
    ensures LocksLanguage(id) && !Models.IsEnglishOnly(id)
  {
    LowerOfLowercase(id);
    NoWhisperMarker(id);
  }

  /** A text without the letter `w` does not contain `whisper-`. */
  lemma NoWhisperMarker(id: string)
    requires forall i :: 0 <= i < |id| ==> id[i] != 'w'
    ensures !Contains(id, "whisper-")
  {
    forall i ensures !OccursAt(id, "whisper-", i) {
      if 0 <= i && i + 8 <= |id| {
        assert id[i] != "whisper-"[0];
      }
    }
  }
}

=== FILE: resample.dfy ===
/**
 * The linear resampler that brings captured audio to the engine's 16 kHz, and
 * the energy measure the voice gate compares with its threshold. Sample
 * values and positions are exact reals here.
 */
module Resample {
  import opened JsNum

  /** The engine's sample rate. */
  const TargetRate: real := 16000.0

  /** `max(1, round(length / ratio))`: the length of a resampled signal. */
  function OutputLength(length: nat, ratio: real): (m: int)
    requires ratio > 0.0
    ensures m >= 1
  {
    var r := Round(length as real / ratio);
    if r > 1 then r else 1
  }

  /**
   * Every position the resampler reads from lies inside the input: for each
   * output index `i`, `floor(i * ratio)` is a valid index of a non-empty input.
   */
  lemma ReadIndexInBounds(length: nat, ratio: real, i: nat)
    requires length > 0 && ratio > 0.0 && i < OutputLength(length, ratio)
    ensures 0.0 <= i as real * ratio < length as real
    ensures 0 <= Floor(i as real * ratio) < length
  {
    if i > 0 {
      var q := length as real / ratio;
      assert Round(q) >= i + 1;
      assert q + 0.5 >= (i + 1) as real;
      assert q >= i as real + 0.5;
      assert q * ratio == length as real;
      assert (i as real + 0.5) * ratio <= q * ratio;
      assert i as real * ratio < (i as real + 0.5) * ratio;
    }
  }

  lemma ProductNonNegative(x: real, y: real)
    requires x >= 0.0 && y >= 0.0
    ensures x * y >= 0.0
  {
  }

  /** A weighted mean of two values lies between them. */
  lemma Between(a: real, b: real, w: real)
    requires 0.0 <= w <= 1.0
    ensures Min(a, b) <= a * (1.0 - w) + b * w <= Max(a, b)
  {
    var d := b - a;
    assert a * (1.0 - w) + b * w == a + d * w;
    assert d - d * w == d * (1.0 - w);
    if d >= 0.0 {
      ProductNonNegative(d, 1.0 - w);
      ProductNonNegative(d, w);
    } else {
      ProductNonNegative(-d, 1.0 - w);
      ProductNonNegative(-d, w);
    }
  }

  /** The index after `left`, clamped to the last sample. */
  function Next(length: nat, left: int): int {
    if left + 1 < length - 1 then left + 1 else length - 1
  }

  /**
   * The interpolated sample at position `origin`: the samples at its floor and
   * at the next index (clamped to the last one), weighted by the fraction.
   * It never leaves the range spanned by those two samples.
   */
  function Interpolate(input: seq<real>, origin: real): (v: real)
    requires 0.0 <= origin < |input| as real
    ensures 0 <= Floor(origin) < |input| && 0 <= Next(|input|, Floor(origin)) < |input|
    ensures Min(input[Floor(origin)], input[Next(|input|, Floor(origin))]) <= v
    ensures v <= Max(input[Floor(origin)], input[Next(|input|, Floor(origin))])
  {
    var left := Floor(origin);
    var right := Next(|input|, left);
    var weight := origin - left as real;
    Between(input[left], input[right], weight);
    input[left] * (1.0 - weight) + input[right] * weight
  }

  /** `ratio` is positive: a quotient of two positive rates. */
  lemma RatioPositive(fromRate: real, toRate: real)
    requires fromRate > 0.0 && toRate > 0.0
    ensures fromRate / toRate > 0.0
  {
    var q := fromRate / toRate;
    assert q * toRate == fromRate;
    if q <= 0.0 {
      ProductNonNegative(-q, toRate);
    }
  }

  /** Output sample `i`: the interpolation at `i * ratio`. */
  function SampleAt(input: seq<real>, ratio: real, i: nat): real
    requires |input| > 0 && ratio > 0.0 && i < OutputLength(|input|, ratio)
  {
    ReadIndexInBounds(|input|, ratio, i);
    Interpolate(input, i as real * ratio)
  }

  lemma SampleAtPosition(input: seq<real>, ratio: real, i: nat)
    requires |input| > 0 && ratio > 0.0 && i < OutputLength(|input|, ratio)
    ensures 0.0 <= i as real * ratio < |input| as real
    ensures SampleAt(input, ratio, i) == Interpolate(input, i as real * ratio)
  {
    ReadIndexInBounds(|input|, ratio, i);
  }

  /**
   * Resampling by `ratio` input samples per output sample:
   * `max(1, round(length / ratio))` samples, sample `i` interpolated at
   * `i * ratio`.
   */
  function ResampleByRatio(input: seq<real>, ratio: real): (output: seq<real>)
    requires |input| > 0 && ratio > 0.0
    ensures |output| == OutputLength(|input|, ratio)
  {
    var n := OutputLength(|input|, ratio);
    seq(n, i requires 0 <= i < n => SampleAt(input, ratio, i))
  }

  /**
   * The resampler: identity when the rates match or the input is empty,
   * otherwise resampling by `fromRate / toRate`.
   */
  function ResampleLinear(input: seq<real>, fromRate: real, toRate: real): (output: seq<real>)
    requires fromRate > 0.0 && toRate > 0.0
    ensures fromRate == toRate || |input| == 0 ==> output == input
    ensures fromRate != toRate && |input| > 0 ==> |output| == OutputLength(|input|, fromRate / toRate)
  {
    if fromRate == toRate || |input| == 0 then
      input
    else
      RatioPositive(fromRate, toRate);
      ResampleByRatio(input, fromRate / toRate)
  }

  /**
   * Sample `i` of a resampled signal lies between the two input samples
   * around position `i * ratio`, and both of them exist.
   */
  lemma ResampleSample(input: seq<real>, ratio: real, i: nat)
    requires |input| > 0 && ratio > 0.0 && i < OutputLength(|input|, ratio)
    ensures 0 <= Floor(i as real * ratio) < |input|
    ensures 0 <= Next(|input|, Floor(i as real * ratio)) < |input|
    ensures var left := Floor(i as real * ratio);
            var right := Next(|input|, left);
            Min(input[left], input[right]) <= ResampleByRatio(input, ratio)[i] <= Max(input[left], input[right])
  {
    ReadIndexInBounds(|input|, ratio, i);
    var v := Interpolate(input, i as real * ratio);
    assert SampleAt(input, ratio, i) == v;
    assert ResampleByRatio(input, ratio)[i] == v;
  }

  /**
   * Downsampling by a whole factor `k` (a capture rate of `k * 16000`) picks
   * samples: output sample `i` is input sample `k * i`.
   */
  lemma ResampleWholeFactor(input: seq<real>, k: nat, i: nat)
    requires k >= 1 && |input| > 0
    requires i < |ResampleByRatio(input, k as real)|
    ensures k * i < |input|
    ensures ResampleByRatio(input, k as real)[i] == input[k * i]
  {
    var ratio := k as real;
    var n := k * i;
    ReadIndexInBounds(|input|, ratio, i);
    ProductAsReal(k, i);
    assert n as real == i as real * ratio;
    assert n < |input|;
    ResampleAt(input, ratio, i);
    SampleAtPosition(input, ratio, i);
    InterpolateAtIndex(input, n);
  }

  lemma ResampleAt(input: seq<real>, ratio: real, i: nat)
    requires |input| > 0 && ratio > 0.0 && i < OutputLength(|input|, ratio)
    ensures ResampleByRatio(input, ratio)[i] == SampleAt(input, ratio, i)
  {
  }

  /** The product of two naturals, as a real, is the product of the reals. */
  lemma {:induction false} ProductAsReal(a: nat, b: nat)
    ensures (a * b) as real == (b as real) * (a as real)
    decreases b
  {
    if b > 0 {
      ProductAsReal(a, b - 1);
      assert a * b == a * (b - 1) + a;
    }
  }

  /** Interpolating at a whole index reads that sample. */
  lemma InterpolateAtIndex(input: seq<real>, n: nat)
    requires n < |input|
    ensures Interpolate(input, n as real) == input[n]
  {
    assert Floor(n as real) == n;
  }

  function SumSquares(samples: seq<real>): (s: real)
    ensures s >= 0.0
  {
    if |samples| == 0 then 0.0 else samples[0] * samples[0] + SumSquares(samples[1..])
  }

  /** The square of the RMS energy (`sum of squares / length`, 0 for no samples). */
  function MeanSquare(samples: seq<real>): (m: real)
    ensures m >= 0.0
    ensures |samples| == 0 ==> m == 0.0
  {
    if |samples| == 0 then 0.0 else SumSquares(samples) / |samples| as real
  }

  /**
   * `rms >= threshold` for a non-negative threshold: since both sides are
   * non-negative it is the comparison of the squares, which avoids the root.
   */
  predicate RmsAtLeast(samples: seq<real>, threshold: real) {
    MeanSquare(samples) >= threshold * threshold
  }

  lemma {:induction false} SumSquaresOfSilence(samples: seq<real>)
    requires forall i :: 0 <= i < |samples| ==> samples[i] == 0.0
    ensures SumSquares(samples) == 0.0
  {
    if |samples| > 0 {
      SumSquaresOfSilence(samples[1..]);
    }
  }

  /** Digital silence never reaches a positive threshold. */
  lemma SilenceIsBelowThreshold(samples: seq<real>, threshold: real)
    requires threshold > 0.0
    requires forall i :: 0 <= i < |samples| ==> samples[i] == 0.0
    ensures !RmsAtLeast(samples, threshold)
  {
    SumSquaresOfSilence(samples);
    calc {
      MeanSquare(samples);
      0.0 * threshold;
    < threshold * threshold;
    }
  }
}

=== FILE: sample_buffer.dfy ===
/**
 * The rolling sample buffer of the offscreen document: mono chunks from the
 * audio worklet in arrival order, with a running sample count, trimmed from
 * the oldest end to twenty seconds of audio at the capture rate.
 */
module SampleBuffer {
  import opened JsNum

  /** Seconds of audio the buffer retains. */
  const MaxBufferSeconds: real := 20.0

  /** All samples of `chunks`, oldest first. */
  function Flatten(chunks: seq<seq<real>>): seq<real>
    decreases |chunks|
  {
    if |chunks| == 0 then [] else chunks[0] + Flatten(chunks[1..])
  }

  lemma {:induction false} FlattenAppend(chunks: seq<seq<real>>, chunk: seq<real>)
    ensures Flatten(chunks + [chunk]) == Flatten(chunks) + chunk
    decreases |chunks|
  {
    if |chunks| == 0 {
      assert chunks + [chunk] == [chunk];
    } else {
      assert (chunks + [chunk])[1..] == chunks[1..] + [chunk];
      FlattenAppend(chunks[1..], chunk);
    }
  }

  /** Cutting the chunk sequence at `i` cuts the samples between the two parts. */
  lemma {:induction false} FlattenSplit(chunks: seq<seq<real>>, i: nat)
    requires i <= |chunks|
    ensures Flatten(chunks) == Flatten(chunks[..i]) + Flatten(chunks[i..])
    decreases i
  {
    if i > 0 {
      FlattenSplit(chunks[1..], i - 1);
      assert chunks[1..][..i - 1] == chunks[..i][1..];
      assert chunks[1..][i - 1..] == chunks[i..];
    }
  }

  /** The samples from chunk `i` on are chunk `i` followed by those after it. */
  lemma FlattenFrom(chunks: seq<seq<real>>, i: nat)
    requires i < |chunks|
    ensures Flatten(chunks[i..]) == chunks[i] + Flatten(chunks[i + 1..])
  {
    assert chunks[i..][1..] == chunks[i + 1..];
  }

  /** The chunks and the running total `totalSamples`. */
  datatype Buffer = Buffer(chunks: seq<seq<real>>, totalSamples: int)

  /** The running total equals the number of buffered samples. */
  predicate Valid(b: Buffer) {
    b.totalSamples == |Flatten(b.chunks)|
  }

  /** The buffered samples, oldest first. */
  function Samples(b: Buffer): seq<real> {
    Flatten(b.chunks)
  }

  /** The buffer after a reset: no chunks, total 0. */
  const Empty: Buffer := Buffer([], 0)

  /** Appending a worklet chunk: it goes last and the total grows by its length. */
  function Push(b: Buffer, chunk: seq<real>): (r: Buffer)
    requires Valid(b)
    ensures Valid(r)
    ensures r.chunks == b.chunks + [chunk]
    ensures Samples(r) == Samples(b) + chunk
  {
    FlattenAppend(b.chunks, chunk);
    Buffer(b.chunks + [chunk], b.totalSamples + |chunk|)
  }

  /** The retention limit, `floor(sampleRate * 20)`. */
  function SampleLimit(sampleRate: real): int {
    Floor(sampleRate * MaxBufferSeconds)
  }

  /**
   * Eviction: while the total exceeds `limit` and a chunk remains, the oldest
   * chunk is dropped. What remains is a suffix of the chunks, within the limit
   * (or empty), and every dropped chunk was needed to get there.
   */
  function Trim(b: Buffer, limit: int): (r: Buffer)
    requires Valid(b)
    ensures Valid(r)
    ensures |r.chunks| <= |b.chunks| && r.chunks == b.chunks[|b.chunks| - |r.chunks|..]
    ensures r.totalSamples <= limit || r.chunks == []
    ensures forall j :: 0 <= j < |b.chunks| - |r.chunks| ==> |Flatten(b.chunks[j..])| > limit
    decreases |b.chunks|
  {
    if b.totalSamples > limit && |b.chunks| > 0 then
      var rest := Buffer(b.chunks[1..], b.totalSamples - |b.chunks[0]|);
      var r := Trim(rest, limit);
      assert b.chunks[0..] == b.chunks;
      forall j | 1 <= j < |b.chunks| - |r.chunks| ensures |Flatten(b.chunks[j..])| > limit {
        assert b.chunks[1..][j - 1..] == b.chunks[j..];
      }
      assert b.chunks[1..][|b.chunks| - 1 - |r.chunks|..] == b.chunks[|b.chunks| - |r.chunks|..];
      r
    else
      b
  }

  /** With a non-negative limit the trimmed total never exceeds it. */
  lemma TrimWithinLimit(b: Buffer, limit: int)
    requires Valid(b) && limit >= 0
    ensures Trim(b, limit).totalSamples <= limit
  {
  }

  /**
   * Trimming is tight to one chunk: when something was evicted, putting the
   * last evicted chunk back would exceed the limit.
   */
  lemma TrimTight(b: Buffer, limit: int)
    requires Valid(b)
    ensures var r := Trim(b, limit);
            var k := |b.chunks| - |r.chunks|;
            k > 0 ==> r.totalSamples + |b.chunks[k - 1]| > limit
  {
    var r := Trim(b, limit);
    var k := |b.chunks| - |r.chunks|;
    if k > 0 {
      FlattenFrom(b.chunks, k - 1);
    }
  }

  /** The retained samples are the newest samples: a suffix of everything buffered. */
  lemma TrimKeepsNewest(b: Buffer, limit: int)
    requires Valid(b)
    ensures var s := Samples(b);
            var t := Samples(Trim(b, limit));
            |t| <= |s| && t == s[|s| - |t|..]
  {
    var r := Trim(b, limit);
    FlattenSplit(b.chunks, |b.chunks| - |r.chunks|);
  }

  /** The worklet message handler: push the chunk, then trim to the rate's limit. */
  function Receive(b: Buffer, chunk: seq<real>, sampleRate: real): (r: Buffer)
    requires Valid(b)
    ensures Valid(r)
    ensures sampleRate >= 0.0 ==> r.totalSamples <= SampleLimit(sampleRate)
    ensures var s := Samples(b) + chunk;
            var t := Samples(r);
            |t| <= |s| && t == s[|s| - |t|..]
  {
    var p := Push(b, chunk);
    TrimKeepsNewest(p, SampleLimit(sampleRate));
    Trim(p, SampleLimit(sampleRate))
  }

  /** Reference definition: the newest `min(n, total)` buffered samples. */
  function LastSamples(b: Buffer, n: nat): seq<real> {
    var s := Samples(b);
    var k := if n < |s| then n else |s|;
    s[|s| - k..]
  }

  /**
   * Extraction of the newest `sampleCount` samples, walking the chunks from
   * the newest and copying a partial chunk at the oldest end when needed.
   */
  method GetLastSamples(b: Buffer, sampleCount: nat) returns (output: seq<real>)
    requires Valid(b)
    ensures |output| == (if sampleCount < b.totalSamples then sampleCount else b.totalSamples)
    ensures output == LastSamples(b, sampleCount)
  {
    var available := if sampleCount < b.totalSamples then sampleCount else b.totalSamples;
    ghost var all := Flatten(b.chunks);
    output := [];
    var writeOffset := available;
    var i := |b.chunks| - 1;
    assert b.chunks[0..] == b.chunks;
    while i >= 0 && writeOffset > 0
      invariant -1 <= i < |b.chunks|
      invariant 0 <= writeOffset <= available
      invariant |output| == available - writeOffset
      invariant writeOffset > 0 ==> output == Flatten(b.chunks[i + 1..])
      invariant writeOffset == 0 ==> output == all[|all| - available..]
      decreases i + 1
    {
      var chunk := b.chunks[i];
      var copyCount := if writeOffset < |chunk| then writeOffset else |chunk|;
      var from := |chunk| - copyCount;
      writeOffset := writeOffset - copyCount;
      CopyStep(b.chunks, i, from, output);
      output := chunk[from..] + output;
      i := i - 1;
    }
  }

  /**
   * One step of the extraction: the newest samples of chunk `i` put in front
   * of everything after it are still the newest samples, and the whole chunk
   * gives everything from chunk `i` on.
   */
  lemma CopyStep(chunks: seq<seq<real>>, i: nat, from: nat, output: seq<real>)
    requires i < |chunks| && from <= |chunks[i]|
    requires output == Flatten(chunks[i + 1..])
    ensures var all := Flatten(chunks);
            var o := chunks[i][from..] + output;
            |o| <= |all| && o == all[|all| - |o|..]
    ensures from == 0 ==> chunks[i][from..] + output == Flatten(chunks[i..])
  {
    FlattenFrom(chunks, i);
    FlattenSplit(chunks, i);
    var all := Flatten(chunks);
    var c := chunks[i];
    var o := c[from..] + output;
    var before := Flatten(chunks[..i]);
    assert all == before + (c + output);
    assert c + output == c[..from] + o by {
      assert c == c[..from] + c[from..];
    }
    assert all == (before + c[..from]) + o;
    if from == 0 {
      assert c[from..] == c;
    }
  }

  /** Asking for more than is buffered returns everything buffered. */
  lemma LastSamplesAll(b: Buffer, n: nat)
    requires Valid(b) && n >= b.totalSamples
    ensures LastSamples(b, n) == Samples(b)
  {
  }
}

=== FILE: session.dfy ===
/**
 * The caption session the background worker keeps and publishes: which model
 * is loaded or loading, whether captions run and on which tab, the status
 * line and the load log. Every user request and every message from the
 * offscreen document is a step from one record to the next; a step also
 * returns the commands it sends to the offscreen document and to tabs, in
 * order. The answers of the browser (a tab's URL, whether injecting into a
 * tab or contacting the model host fails) are parameters, and `stamp` is the
 * clock's text for log lines.
 */
module Session {
  import opened Wrappers
  import opened Text
  import Settings
  import Language
  import Models
  import Background
  import JsNum

  datatype Session = Session(
    running: bool,
    tabId: Option<int>,
    model: string,
    language: string,
    tuning: Option<Settings.Settings>,
    installedModels: seq<string>,
    subtitleLayout: Option<Background.Layout>,
    loadedModel: Option<string>,
    modelReady: bool,
    modelLoading: bool,
    stage: string,
    loadLog: seq<string>,
    status: string,
    error: Option<string>)

  const Initial: Session :=
    Session(false, None, "Xenova/whisper-tiny.en", "en", None, [], None, None, false, false, "", [], "idle", None)

  /** What a step sends: to the offscreen document, or to a tab's content script. */
  datatype Command =
    | StartCapture(tab: int, model: string, language: string, tuning: Settings.Settings)
    | StopCapture
    | PreloadModel(model: string, language: string, tuning: Settings.Settings)
    | UpdateSettings(tuning: Settings.Settings)
    | ClearSubtitles(tab: int)
    | SubtitleText(target: Option<int>, text: string)

  /** One more line in the load log. */
  function Log(s: Session, message: string, stamp: string): (r: Session)
    ensures r == s.(loadLog := r.loadLog)
    ensures |s.loadLog| <= Background.MaxLogLines ==> |r.loadLog| <= Background.MaxLogLines
  {
    s.(loadLog := Background.AppendLoadLog(s.loadLog, message, stamp))
  }

  /** The language a request ends up with: `en` for English-only models, else the normalised selection. */
  function SelectLanguage(model: string, language: string): (r: string)
    ensures Language.IsCode(r)
    ensures Models.IsEnglishOnly(model) ==> r == "en"
    ensures !Models.IsEnglishOnly(model) ==> r == Language.Normalize(language)
  {
    if Models.IsEnglishOnly(model) then
      assert Language.IsCode("en");
      "en"
    else Language.Normalize(language)
  }

  /** The tuning stored, or the defaults when none is stored yet. */
  function CurrentTuning(s: Session): Settings.Settings {
    s.tuning.GetOr(Background.Defaults)
  }

  /** The tuning a request asks for, merged over the stored one. */
  function RequestTuning(s: Session, tuning: Option<Settings.Raw>): (t: Settings.Settings)
    ensures Settings.Valid(t)
  {
    Background.SanitizeTuning(tuning, Some(Settings.FromSettings(CurrentTuning(s))))
  }

  /** The commands that silence the previous tab after a failure: stop the capture, clear its captions. */
  function Teardown(running: bool, previous: Option<int>): (cs: seq<Command>)
    ensures StopCapture in cs <==> running || previous.Some?
    ensures forall t :: ClearSubtitles(t) in cs <==> previous == Some(t)
  {
    (if running || previous.Some? then [StopCapture] else [])
      + (if previous.Some? then [ClearSubtitles(previous.value)] else [])
  }

  /**
   * A request that throws: capture stops, no tab is targeted, loading ends,
   * and the error is the status. Whether the model is ready is left as it was.
   */
  function Fail(s: Session, message: string, stamp: string): (r: (Session, seq<Command>))
    ensures !r.0.running && r.0.tabId.None? && !r.0.modelLoading
    ensures r.0.status == "error" && r.0.error == Some(message)
    ensures r.0.modelReady == s.modelReady && r.0.loadedModel == s.loadedModel
    ensures r.0.model == s.model && r.0.language == s.language && r.0.tuning == s.tuning
    ensures r.1 == Teardown(s.running, s.tabId)
  {
    var l := Log(s, "error: " + message, stamp);
    (l.(running := false, tabId := None, modelLoading := false, status := "error", error := Some(message)),
     Teardown(s.running, s.tabId))
  }

  /** How contacting the model host and handing the load to the offscreen document turn out. */
  datatype Outcome = Proceeds | Throws(message: string)

  /** The model a request names, or the session's when it names none. */
  function RequestedModel(s: Session, model: string): string {
    Or(model, s.model)
  }

  /**
   * Loading a model. When the requested model is ready already, only the
   * status and log change; otherwise loading starts, and after a successful
   * check of the model host the model is preloaded.
   */
  function LoadModel(s: Session, model: string, language: string, tuning: Option<Settings.Raw>,
                     preflight: Outcome, stamp: string): (r: (Session, seq<Command>))
    ensures var requested := RequestedModel(s, model);
            && r.0.model == requested
            && r.0.language == SelectLanguage(requested, language)
            && r.0.tuning == Some(RequestTuning(s, tuning))
    ensures var requested := RequestedModel(s, model);
            s.modelReady && s.loadedModel == Some(requested) ==>
              && r.1 == [] && r.0.status == "model ready" && r.0.modelReady && !r.0.modelLoading
    ensures var requested := RequestedModel(s, model);
            !(s.modelReady && s.loadedModel == Some(requested)) && preflight.Proceeds? ==>
              && !r.0.modelReady && r.0.modelLoading
              && r.1 == [PreloadModel(requested, SelectLanguage(requested, language), RequestTuning(s, tuning))]
    ensures var requested := RequestedModel(s, model);
            !(s.modelReady && s.loadedModel == Some(requested)) && preflight.Throws? ==>
              && !r.0.modelReady && !r.0.modelLoading && !r.0.running && r.0.tabId.None?
              && r.0.status == "error" && r.0.error == Some(preflight.message)
              && r.1 == Teardown(s.running, s.tabId)
  {
    var requested := RequestedModel(s, model);
    var lang := SelectLanguage(requested, language);
    var selected := RequestTuning(s, tuning);
    var mode := if Models.IsEnglishOnly(requested) then "english-only" else "multilingual-" + lang;
    var already := s.modelReady && s.loadedModel == Some(requested);
    var s1 := s.(model := requested, language := lang, tuning := Some(selected),
                 modelLoading := !already, modelReady := already,
                 stage := if already then "ready" else "queued", loadLog := [],
                 status := if already then "model ready" else "loading model", error := None);
    var s2 := Log(Log(s1, "load requested: " + requested, stamp), "decode mode: " + mode, stamp);
    if already then
      (Log(s2, "model already loaded, skipping preload", stamp), [])
    else
      var s3 := Log(s2.(status := "preflight: checking network", stage := "preflight"),
                    "preflight: checking model and runtime assets", stamp);
      match preflight
      case Throws(message) => Fail(s3, message, stamp)
      case Proceeds => (Log(s3, "preflight ok", stamp), [PreloadModel(requested, lang, selected)])
  }

  /** A model that is ready already is not preloaded again, nor is the model host contacted. */
  lemma LoadReadyModelSkipsPreload(s: Session, model: string, language: string, tuning: Option<Settings.Raw>,
                                   preflight: Outcome, stamp: string)
    requires s.modelReady && s.loadedModel == Some(RequestedModel(s, model))
    ensures var r := LoadModel(s, model, language, tuning, preflight, stamp);
            && r.1 == [] && r.0.status == "model ready" && r.0.modelReady && !r.0.modelLoading
            && r == LoadModel(s, model, language, tuning, Throws("unreachable host"), stamp)
  {
  }

  /** A load of an English-only model is decoded in English whatever language was asked for. */
  lemma EnglishOnlyLoadUsesEnglish(s: Session, model: string, language: string, tuning: Option<Settings.Raw>,
                                   preflight: Outcome, stamp: string)
    requires Models.IsEnglishOnly(RequestedModel(s, model))
    ensures LoadModel(s, model, language, tuning, preflight, stamp).0.language == "en"
  {
  }

  /** The browser's answers about a tab: its URL (empty when unknown), and the failure of capturing it, if any. */
  datatype TabProbe = TabProbe(url: string, failure: Option<string>)

  /** Clearing the captions of the tab captured so far, if any. */
  function ClearPrevious(previous: Option<int>): seq<Command> {
    if previous.Some? then [ClearSubtitles(previous.value)] else []
  }

  /** The tuning a capture is started with on a tab switch: the stored tuning over the defaults. */
  function CaptureTuning(s: Session): (t: Settings.Settings)
    ensures Settings.Valid(t)
  {
    Background.SanitizeTuning(if s.tuning.Some? then Some(Settings.FromSettings(s.tuning.value)) else None, None)
  }

  /**
   * Moving a running capture to `target` (`None` when there is no active
   * tab). Not running, or already on that tab: nothing changes. No tab, a
   * tab that cannot be captured, or a failed capture: capture stops and the
   * session waits with no tab. Otherwise capture restarts on the new tab.
   */
  function Retarget(s: Session, target: Option<int>, probe: TabProbe, stamp: string): (r: (Session, seq<Command>))
    ensures !s.running || (target.Some? && s.tabId == target) ==> r == (s, [])
    ensures s.running && (target.None? || s.tabId != target) ==>
              var success := target.Some? && Background.IsCapturableTabUrl(Some(probe.url)) && probe.failure.None?;
              && r.0.running
              && (success ==> r.0.tabId == target && |r.1| > 0
                              && r.1[0] == StartCapture(target.value, s.model, s.language, CaptureTuning(s)))
              && (!success ==> r.0.tabId.None? && StopCapture in r.1 && forall c :: c in r.1 ==> !c.StartCapture?)
              && (s.tabId.Some? ==> ClearSubtitles(s.tabId.value) in r.1)
              && r.0.error.None?
              && (target.None? ==> r.0.status == "waiting for active tab")
              && (target.Some? && !Background.IsCapturableTabUrl(Some(probe.url)) ==>
                    r.0.status == "waiting: active tab is not capturable")
              && (target.Some? && Background.IsCapturableTabUrl(Some(probe.url)) && probe.failure.Some? ==>
                    r.0.status == Background.ToRetargetStatus(probe.failure.value))
              && (success ==> r.0.status == "switching tabs")
    ensures r.0.modelReady == s.modelReady && r.0.loadedModel == s.loadedModel && r.0.model == s.model
  {
    if !s.running then (s, [])
    else if target.None? then
      (s.(tabId := None, status := "waiting for active tab", error := None), ClearPrevious(s.tabId) + [StopCapture])
    else if s.tabId == target then (s, [])
    else
      var tab := target.value;
      if !Background.IsCapturableTabUrl(Some(probe.url)) then
        var l := Log(s, "active tab " + IntToString(tab) + " not capturable (" + Or(probe.url, "unknown url") + ")", stamp);
        (l.(tabId := None, status := "waiting: active tab is not capturable", error := None),
         ClearPrevious(s.tabId) + [StopCapture])
      else
        var s1 := Log(s, "switching capture to tab " + IntToString(tab), stamp)
                    .(tabId := target, status := "switching tabs", error := None);
        match probe.failure
        case Some(message) =>
          var s2 := Log(s1, "retarget failed: " + message, stamp);
          (s2.(tabId := None, status := Background.ToRetargetStatus(message), error := None),
           ClearPrevious(s.tabId) + [StopCapture])
        case None =>
          var others := if s.tabId.Some? && s.tabId.value != tab then [ClearSubtitles(s.tabId.value)] else [];
          (s1, [StartCapture(tab, s.model, s.language, CaptureTuning(s))] + others)
  }

  /** The message of a start refused because the requested model is not the ready one. */
  const NotLoadedMessage: string := "Model not loaded. Click \"Load model\" first."

  /**
   * Starting captions on `tabId` (`None` when no tab is given). It throws
   * without a tab, or unless the requested model is the ready one; while
   * captions run it moves them to the tab; otherwise it starts the capture.
   */
  function StartCaptioning(s: Session, tabId: Option<int>, model: string, language: string,
                           tuning: Option<Settings.Raw>, probe: TabProbe, stamp: string): (r: (Session, seq<Command>))
    ensures tabId.None? ==> !r.0.running && r.0.status == "error" && r.0.error == Some("No active tab selected")
    ensures r.0.running ==> s.modelReady && s.loadedModel == Some(RequestedModel(s, model))
    ensures r.0.modelReady == s.modelReady && r.0.loadedModel == s.loadedModel
  {
    if tabId.None? then Fail(s, "No active tab selected", stamp)
    else
      var requested := RequestedModel(s, model);
      var lang := SelectLanguage(requested, language);
      var selected := RequestTuning(s, tuning);
      if !s.modelReady || s.loadedModel != Some(requested) then Fail(s, NotLoadedMessage, stamp)
      else if s.running then Retarget(s, tabId, probe, stamp)
      else
        match probe.failure
        case Some(message) => Fail(s, message, stamp)
        case None =>
          (s.(running := true, tabId := tabId, model := requested, language := lang, tuning := Some(selected),
              status := "starting", error := None),
           [StartCapture(tabId.value, requested, lang, selected)])
  }

  /** A start that does not name the ready model is refused: captions end, and nothing is captured. */
  lemma StartRequiresReadyModel(s: Session, tabId: Option<int>, model: string, language: string,
                                tuning: Option<Settings.Raw>, probe: TabProbe, stamp: string)
    requires tabId.Some? && !(s.modelReady && s.loadedModel == Some(RequestedModel(s, model)))
    ensures var r := StartCaptioning(s, tabId, model, language, tuning, probe, stamp);
            && r.0.status == "error" && r.0.error == Some(NotLoadedMessage)
            && !r.0.running && r.0.tabId.None?
            && forall c :: c in r.1 ==> !c.StartCapture? && !c.PreloadModel?
  {
  }

  /**
   * With captions stopped, a start succeeds exactly when a tab is given, the
   * requested model is the ready one and the tab can be captured; it then
   * captures that tab with the requested model, language and tuning.
   */
  lemma StartCapturesReadyModel(s: Session, tabId: Option<int>, model: string, language: string,
                                tuning: Option<Settings.Raw>, probe: TabProbe, stamp: string)
    requires !s.running
    ensures var r := StartCaptioning(s, tabId, model, language, tuning, probe, stamp);
            var requested := RequestedModel(s, model);
            && (r.0.running <==> tabId.Some? && s.modelReady && s.loadedModel == Some(requested) && probe.failure.None?)
            && (r.0.running ==>
                  && r.0.tabId == tabId && r.0.model == requested
                  && r.1 == [StartCapture(tabId.value, requested, SelectLanguage(requested, language), RequestTuning(s, tuning))])
            && (!r.0.running ==> r.0.status == "error" && r.1 == Teardown(s.running, s.tabId))
  {
    var requested := RequestedModel(s, model);
    if tabId.None? || !s.modelReady || s.loadedModel != Some(requested) {
    } else if probe.failure.Some? {
    } else {
    }
  }

  /** While captions run, a start with the ready model only moves them to the given tab. */
  lemma StartWhileRunningRetargets(s: Session, tabId: Option<int>, model: string, language: string,
                                   tuning: Option<Settings.Raw>, probe: TabProbe, stamp: string)
    requires s.running && tabId.Some? && s.modelReady && s.loadedModel == Some(RequestedModel(s, model))
    ensures StartCaptioning(s, tabId, model, language, tuning, probe, stamp) == Retarget(s, tabId, probe, stamp)
  {
  }

  /** Stopping captions: nothing runs, no tab is targeted, and the status says whether the model is ready. */
  function StopCaptioning(s: Session): (r: (Session, seq<Command>))
    ensures !r.0.running && r.0.tabId.None? && r.0.error.None?
    ensures r.0.status == (if s.modelReady then "model ready" else "idle")
    ensures r.0 == s.(running := false, tabId := None, status := r.0.status, error := None)
    ensures r.1 == [StopCapture] + ClearPrevious(s.tabId)
  {
    (s.(running := false, tabId := None, status := if s.modelReady then "model ready" else "idle", error := None),
     [StopCapture] + ClearPrevious(s.tabId))
  }

  /**
   * A status from the offscreen document. While captions run with no tab,
   * `model ready` and `stopped` do not replace the waiting status.
   */
  function OffscreenStatus(s: Session, status: string, stamp: string): (r: Session)
    ensures r.error.None? && r.running == s.running && r.tabId == s.tabId
    ensures s.running && s.tabId.None? && Or(status, s.status) in {"model ready", "stopped"} ==> r.status == s.status
    ensures !(s.running && s.tabId.None? && Or(status, s.status) in {"model ready", "stopped"}) ==> r.status == Or(status, s.status)
    ensures r.modelReady == s.modelReady && r.modelLoading == s.modelLoading && r.loadedModel == s.loadedModel
  {
    var next := Or(status, s.status);
    var keepWaiting := s.running && s.tabId.None? && (next == "model ready" || next == "stopped");
    var resolved := if keepWaiting then s.status else next;
    var l := if resolved != s.status then Log(s, "status: " + resolved, stamp) else s;
    l.(status := resolved, stage := if s.modelLoading then Or(next, Or(s.stage, "loading")) else s.stage, error := None)
  }

  /** Load progress from the offscreen document: the status and stage it names, logged when either changes. */
  function OffscreenProgress(s: Session, status: string, stage: string, stamp: string): (r: Session)
    ensures r.status == Or(status, s.status) && r.stage != "" && r.error.None?
    ensures r.running == s.running && r.tabId == s.tabId
    ensures r.modelReady == s.modelReady && r.modelLoading == s.modelLoading && r.loadedModel == s.loadedModel
    ensures r.status == s.status && r.stage == s.stage ==> r.loadLog == s.loadLog
  {
    var next := Or(status, s.status);
    var nextStage := Or(stage, Or(s.stage, "loading"));
    var l := if next != s.status || nextStage != s.stage then Log(s, "progress: " + next, stamp) else s;
    l.(status := next, stage := nextStage, error := None)
  }

  /** Tenths of a second as JavaScript prints `n / 10`: `23` is `2.3`, `20` is `2`. */
  function TenthsText(tenths: nat): (t: string)
    ensures |t| > 0
    ensures tenths % 10 == 0 ==> t == NatToString(tenths / 10)
    ensures tenths % 10 != 0 ==> t == NatToString(tenths / 10) + "." + [DigitChar(tenths % 10)]
  {
    NatToString(tenths / 10) + (if tenths % 10 == 0 then "" else "." + [DigitChar(tenths % 10)])
  }

  /** Reading a time in seconds back as tenths: whole seconds, then one optional decimal. */
  function ParseTenths(t: string): int {
    if |t| >= 2 && t[|t| - 2] == '.' then 10 * ParseNat(t[..|t| - 2]) + DigitValue(t[|t| - 1])
    else 10 * ParseNat(t)
  }

  /** The printed time reads back as the same number of tenths, so distinct times print differently. */
  lemma TenthsTextRoundTrip(tenths: nat)
    ensures ParseTenths(TenthsText(tenths)) == tenths
  {
    var whole := NatToString(tenths / 10);
    NatToStringRoundTrip(tenths / 10);
    var t := TenthsText(tenths);
    if tenths % 10 == 0 {
      if |t| >= 2 {
        assert '0' <= t[|t| - 2] <= '9';
      }
    } else {
      assert t[..|t| - 2] == whole;
    }
  }

  /** The load time in tenths of a second, `max(0, round(loadMs / 100))`. */
  function LoadTenths(loadMs: real): nat {
    var n := JsNum.Round(loadMs / 100.0);
    if n > 0 then n else 0
  }

  /** The status after a load: the time in seconds, unless it rounds to zero. */
  function ReadyStatus(loadMs: real): (r: string)
    ensures loadMs < 50.0 <==> r == "model ready"
    ensures loadMs >= 50.0 ==>
              && |r| > 15 && r[..13] == "model ready (" && r[|r| - 2..] == "s)"
              && ParseTenths(r[13..|r| - 2]) == LoadTenths(loadMs)
  {
    var tenths := LoadTenths(loadMs);
    if tenths > 0 then
      var t := TenthsText(tenths);
      TenthsTextRoundTrip(tenths);
      var r := "model ready (" + t + "s)";
      assert r[13..|r| - 2] == t;
      r
    else "model ready"
  }

  /**
   * The offscreen document reports the model `model` (the session's when
   * empty) ready: loading ends, it is the ready and loaded model, and it is
   * recorded as installed.
   */
  function OffscreenModelReady(s: Session, model: string, loadMs: real, stamp: string): (r: Session)
    ensures r.modelReady && !r.modelLoading && r.loadedModel == Some(Or(model, s.model))
    ensures r.status == ReadyStatus(loadMs) && r.error.None?
    ensures r.installedModels == Background.MarkModelInstalled(s.installedModels, Or(model, s.model))
    ensures r.running == s.running && r.tabId == s.tabId
  {
    var loaded := Or(model, s.model);
    var l := Log(s, "model ready in " + TenthsText(LoadTenths(loadMs)) + "s", stamp);
    l.(installedModels := Background.MarkModelInstalled(s.installedModels, loaded),
       modelLoading := false, modelReady := true, loadedModel := Some(loaded), stage := "ready",
       status := ReadyStatus(loadMs), error := None)
  }

  /** The status line for two load times: 2340 ms shows as 2.3 s, 40 ms as no time at all. */
  lemma ReadyStatusExamples()
    ensures ReadyStatus(2340.0) == "model ready (2.3s)"
    ensures ReadyStatus(40.0) == "model ready"
  {
    assert JsNum.Round(23.4) == 23;
    assert LoadTenths(2340.0) == 23;
    assert NatToString(2) == "2";
    assert DigitChar(3) == '3';
    assert TenthsText(23) == "2.3";
  }

  /**
   * An error from the offscreen document: captions stop, loading ends, the
   * error becomes the status, and the model stops being ready only if the
   * error ended a load.
   */
  function OffscreenError(s: Session, error: string, stamp: string): (r: (Session, seq<Command>))
    ensures !r.0.running && r.0.tabId.None? && !r.0.modelLoading
    ensures r.0.status == "error" && r.0.error == Some(Or(error, "Unknown error"))
    ensures r.0.modelReady == (s.modelReady && !s.modelLoading)
    ensures r.0.loadedModel == s.loadedModel
    ensures r.1 == Teardown(s.running, s.tabId)
  {
    var message := Or(error, "Unknown error");
    var l := Log(s, "error: " + message, stamp);
    (l.(running := false, tabId := None, modelLoading := false,
        modelReady := if s.modelLoading then false else s.modelReady,
        stage := "error", status := "error", error := Some(message)),
     Teardown(s.running, s.tabId))
  }

  /** A runtime warning only adds a log line. */
  function OffscreenWarning(s: Session, warning: string, stamp: string): (r: Session)
    ensures r == s.(loadLog := r.loadLog)
  {
    Log(s, "runtime warning: " + Or(warning, "Unknown warning"), stamp)
  }

  /** A transcript is passed to the captured tab only while captions run, and only when it comes from that tab. */
  function OffscreenTranscript(s: Session, tabId: Option<int>, text: string): (cs: seq<Command>)
    ensures cs != [] <==> s.running && tabId == s.tabId
    ensures cs != [] ==> cs == [SubtitleText(s.tabId, text)]
  {
    if !s.running || tabId != s.tabId then [] else [SubtitleText(s.tabId, text)]
  }

  /** New tuning: merged over the stored tuning, and sent to the offscreen document when it is in use. */
  function SetTuning(s: Session, tuning: Option<Settings.Raw>, stamp: string): (r: (Session, seq<Command>))
    ensures r.0.tuning == Some(RequestTuning(s, tuning)) && Settings.Valid(r.0.tuning.value)
    ensures r.1 != [] <==> s.running || s.modelReady || s.modelLoading
    ensures r.1 != [] ==> r.1 == [UpdateSettings(RequestTuning(s, tuning))]
  {
    var next := RequestTuning(s, tuning);
    (Log(s.(tuning := Some(next)), "tuning updated", stamp),
     if s.running || s.modelReady || s.modelLoading then [UpdateSettings(next)] else [])
  }

  /** A new caption layout is stored when it sanitises; otherwise the request fails and nothing changes. */
  function SetSubtitleLayout(s: Session, layout: Option<Background.RawLayout>): (r: (Session, bool))
    ensures r.1 <==> Background.SanitizeSubtitleLayout(layout).Some?
    ensures r.1 ==> r.0 == s.(subtitleLayout := Background.SanitizeSubtitleLayout(layout))
    ensures !r.1 ==> r.0 == s
  {
    var next := Background.SanitizeSubtitleLayout(layout);
    if next.None? then (s, false) else (s.(subtitleLayout := next), true)
  }

  /** Reading the session fills in the default tuning when none is stored. */
  function GetState(s: Session): (r: Session)
    ensures r.tuning.Some? && (s.tuning.None? ==> Settings.Valid(r.tuning.value))
    ensures s.tuning.Some? ==> r == s
  {
    if s.tuning.Some? then s
    else
      var t := Background.SanitizeTuning(None, None);
      s.(tuning := Some(t))
  }

  /**
   * What every step keeps: a tab is targeted only while captions run; a
   * model is never ready and loading at once; a ready model is a loaded one;
   * the log holds at most 80 lines, the installed list is normalised, and a
   * stored tuning is sanitised.
   */
  predicate Coherent(s: Session) {
    && (s.tabId.Some? ==> s.running)
    && !(s.modelReady && s.modelLoading)
    && (s.modelReady ==> s.loadedModel.Some?)
    && |s.loadLog| <= Background.MaxLogLines
    && Background.NormalizeInstalled(Some(s.installedModels)) == s.installedModels
    && (s.tuning.Some? ==> Settings.Valid(s.tuning.value))
  }

  lemma InitialCoherent()
    ensures Coherent(Initial)
  {
  }

  lemma LoadModelKeepsCoherent(s: Session, model: string, language: string, tuning: Option<Settings.Raw>,
                               preflight: Outcome, stamp: string)
    requires Coherent(s)
    ensures Coherent(LoadModel(s, model, language, tuning, preflight, stamp).0)
  {
  }

  lemma StartCaptioningKeepsCoherent(s: Session, tabId: Option<int>, model: string, language: string,
                                     tuning: Option<Settings.Raw>, probe: TabProbe, stamp: string)
    requires Coherent(s)
    ensures Coherent(StartCaptioning(s, tabId, model, language, tuning, probe, stamp).0)
  {
    var requested := RequestedModel(s, model);
    if tabId.None? || !s.modelReady || s.loadedModel != Some(requested) {
    } else if s.running {
      RetargetKeepsCoherent(s, tabId, probe, stamp);
    } else if probe.failure.Some? {
    } else {
      var r := StartCaptioning(s, tabId, model, language, tuning, probe, stamp).0;
      assert r.running && r.tuning == Some(RequestTuning(s, tuning));
    }
  }

  lemma RetargetKeepsCoherent(s: Session, target: Option<int>, probe: TabProbe, stamp: string)
    requires Coherent(s)
    ensures Coherent(Retarget(s, target, probe, stamp).0)
  {
    if !s.running || target.None? || s.tabId == target {
    } else if !Background.IsCapturableTabUrl(Some(probe.url)) {
    } else if probe.failure.Some? {
    } else {
    }
  }

  lemma StopKeepsCoherent(s: Session)
    requires Coherent(s)
    ensures Coherent(StopCaptioning(s).0)
  {
  }

  lemma StatusKeepsCoherent(s: Session, status: string, stamp: string)
    requires Coherent(s)
    ensures Coherent(OffscreenStatus(s, status, stamp))
  {
  }

  lemma ProgressKeepsCoherent(s: Session, status: string, stage: string, stamp: string)
    requires Coherent(s)
    ensures Coherent(OffscreenProgress(s, status, stage, stamp))
  {
  }

  lemma WarningKeepsCoherent(s: Session, warning: string, stamp: string)
    requires Coherent(s)
    ensures Coherent(OffscreenWarning(s, warning, stamp))
  {
  }

  lemma ReadyKeepsCoherent(s: Session, model: string, loadMs: real, stamp: string)
    requires Coherent(s)
    ensures Coherent(OffscreenModelReady(s, model, loadMs, stamp))
  {
    Background.MarkModelInstalledKeepsNormal(s.installedModels, Or(model, s.model));
  }

  lemma ErrorKeepsCoherent(s: Session, error: string, stamp: string)
    requires Coherent(s)
    ensures Coherent(OffscreenError(s, error, stamp).0)
  {
  }

  lemma SetTuningKeepsCoherent(s: Session, tuning: Option<Settings.Raw>, stamp: string)
    requires Coherent(s)
    ensures Coherent(SetTuning(s, tuning, stamp).0)
  {
  }

  lemma SetLayoutKeepsCoherent(s: Session, layout: Option<Background.RawLayout>)
    requires Coherent(s)
    ensures Coherent(SetSubtitleLayout(s, layout).0)
  {
  }

  lemma GetStateKeepsCoherent(s: Session)
    requires Coherent(s)
    ensures Coherent(GetState(s))
  {
  }
}

=== FILE: settings.dfy ===
/**
 * Runtime tuning settings and the sanitiser shared by the three copies in the
 * extension (offscreen document, background worker, popup). Each copy merges
 * an update over some base object, reads every field with `Number(...)`,
 * falls back when the number is not finite, clamps every field into its range,
 * rounds the two millisecond fields, and finally forces each stride below its
 * chunk length. The copies differ only in the base and in the fallback; this
 * module holds the common part and the offscreen copy.
 */
module Settings {
  import opened JsNum
  import opened Wrappers

  datatype Field =
    | WindowSeconds | MinSeconds | DispatchIntervalMs | ChunkLengthS | StrideLengthS
    | SilenceRmsThreshold | VoiceHoldMs | BaseWindowSeconds | BaseChunkLengthS | BaseStrideLengthS

  /** Lower bound of each field's closed range. */
  function Lo(f: Field): real {
    match f
    case WindowSeconds => 0.8
    case MinSeconds => 0.1
    case DispatchIntervalMs => 100.0
    case ChunkLengthS => 1.0
    case StrideLengthS => 0.1
    case SilenceRmsThreshold => 0.0
    case VoiceHoldMs => 0.0
    case BaseWindowSeconds => 0.5
    case BaseChunkLengthS => 1.0
    case BaseStrideLengthS => 0.1
  }

  /** Upper bound of each field's closed range. */
  function Hi(f: Field): real {
    match f
    case WindowSeconds => 12.0
    case MinSeconds => 5.0
    case DispatchIntervalMs => 5000.0
    case ChunkLengthS => 30.0
    case StrideLengthS => 15.0
    case SilenceRmsThreshold => 0.05
    case VoiceHoldMs => 5000.0
    case BaseWindowSeconds => 12.0
    case BaseChunkLengthS => 30.0
    case BaseStrideLengthS => 15.0
  }

  /** The two fields `Math.round` is applied to. */
  predicate IsMs(f: Field) {
    f == DispatchIntervalMs || f == VoiceHoldMs
  }

  /** The two fields the stride-below-chunk correction may overwrite. */
  predicate IsStride(f: Field) {
    f == StrideLengthS || f == BaseStrideLengthS
  }

  /** A settings snapshot: every field a number. */
  datatype Settings = Settings(
    windowSeconds: real,
    minSeconds: real,
    dispatchIntervalMs: real,
    chunkLengthS: real,
    strideLengthS: real,
    silenceRmsThreshold: real,
    voiceHoldMs: real,
    baseWindowSeconds: real,
    baseChunkLengthS: real,
    baseStrideLengthS: real)
  {
    function Get(f: Field): real {
      match f
      case WindowSeconds => windowSeconds
      case MinSeconds => minSeconds
      case DispatchIntervalMs => dispatchIntervalMs
      case ChunkLengthS => chunkLengthS
      case StrideLengthS => strideLengthS
      case SilenceRmsThreshold => silenceRmsThreshold
      case VoiceHoldMs => voiceHoldMs
      case BaseWindowSeconds => baseWindowSeconds
      case BaseChunkLengthS => baseChunkLengthS
      case BaseStrideLengthS => baseStrideLengthS
    }
  }

  /** The snapshot whose every field is `value(field)`. */
  function Build(value: Field -> real): (s: Settings)
    ensures forall f :: s.Get(f) == value(f)
  {
    Settings(value(WindowSeconds), value(MinSeconds), value(DispatchIntervalMs), value(ChunkLengthS),
             value(StrideLengthS), value(SilenceRmsThreshold), value(VoiceHoldMs),
             value(BaseWindowSeconds), value(BaseChunkLengthS), value(BaseStrideLengthS))
  }

  /**
   * An untrusted settings object: for each of the ten keys, `None` when the
   * key is absent, otherwise what `Number(...)` makes of its value.
   */
  datatype Raw = Raw(
    windowSeconds: Option<Num>,
    minSeconds: Option<Num>,
    dispatchIntervalMs: Option<Num>,
    chunkLengthS: Option<Num>,
    strideLengthS: Option<Num>,
    silenceRmsThreshold: Option<Num>,
    voiceHoldMs: Option<Num>,
    baseWindowSeconds: Option<Num>,
    baseChunkLengthS: Option<Num>,
    baseStrideLengthS: Option<Num>)
  {
    function Get(f: Field): Option<Num> {
      match f
      case WindowSeconds => windowSeconds
      case MinSeconds => minSeconds
      case DispatchIntervalMs => dispatchIntervalMs
      case ChunkLengthS => chunkLengthS
      case StrideLengthS => strideLengthS
      case SilenceRmsThreshold => silenceRmsThreshold
      case VoiceHoldMs => voiceHoldMs
      case BaseWindowSeconds => baseWindowSeconds
      case BaseChunkLengthS => baseChunkLengthS
      case BaseStrideLengthS => baseStrideLengthS
    }
  }

  /** The object `{}`. */
  const Empty: Raw := Raw(None, None, None, None, None, None, None, None, None, None)

  /** The raw object holding exactly the values of a snapshot. */
  function FromSettings(s: Settings): (r: Raw)
    ensures forall f :: r.Get(f) == Some(Finite(s.Get(f)))
  {
    Raw(Some(Finite(s.windowSeconds)), Some(Finite(s.minSeconds)), Some(Finite(s.dispatchIntervalMs)),
        Some(Finite(s.chunkLengthS)), Some(Finite(s.strideLengthS)), Some(Finite(s.silenceRmsThreshold)),
        Some(Finite(s.voiceHoldMs)), Some(Finite(s.baseWindowSeconds)), Some(Finite(s.baseChunkLengthS)),
        Some(Finite(s.baseStrideLengthS)))
  }

  function Prefer(high: Option<Num>, low: Option<Num>): Option<Num> {
    if high.Some? then high else low
  }

  /** The object spread `{ ...low, ...high }`: a key of `high` wins over the same key of `low`. */
  function Overlay(low: Raw, high: Raw): (r: Raw)
    ensures forall f :: r.Get(f) == (if high.Get(f).Some? then high.Get(f) else low.Get(f))
  {
    Raw(Prefer(high.windowSeconds, low.windowSeconds), Prefer(high.minSeconds, low.minSeconds),
        Prefer(high.dispatchIntervalMs, low.dispatchIntervalMs), Prefer(high.chunkLengthS, low.chunkLengthS),
        Prefer(high.strideLengthS, low.strideLengthS), Prefer(high.silenceRmsThreshold, low.silenceRmsThreshold),
        Prefer(high.voiceHoldMs, low.voiceHoldMs), Prefer(high.baseWindowSeconds, low.baseWindowSeconds),
        Prefer(high.baseChunkLengthS, low.baseChunkLengthS), Prefer(high.baseStrideLengthS, low.baseStrideLengthS))
  }

  /** An update that is not an object counts as the empty object. */
  function ObjectOrEmpty(next: Option<Raw>): Raw {
    next.GetOr(Empty)
  }

  /** The number a key holds when it is present and finite. */
  predicate HasFinite(n: Option<Num>) {
    n.Some? && n.value.Finite?
  }

  /** The finite number under a key, otherwise the fallback. */
  function Pick(n: Option<Num>, fallback: real): (v: real)
    ensures HasFinite(n) ==> v == n.value.value
    ensures !HasFinite(n) ==> v == fallback
  {
    match n
    case Some(Finite(v)) => v
    case _ => fallback
  }

  /** A value inside a field's range, and integral for the millisecond fields. */
  predicate Admissible(f: Field, v: real) {
    Lo(f) <= v <= Hi(f) && (IsMs(f) ==> IsIntegral(v))
  }

  /** Clamping into the field's range, then `Math.round` for the millisecond fields. */
  function ClampField(f: Field, v: real): (r: real)
    ensures Admissible(f, r)
    ensures Admissible(f, v) ==> r == v
    ensures v < Lo(f) ==> r == Lo(f)
    ensures v > Hi(f) ==> r == Hi(f)
  {
    var c := Clamp(v, Lo(f), Hi(f));
    if IsMs(f) then
      var lo, hi := if f == DispatchIntervalMs then 100 else 0, 5000;
      RoundWithin(c, lo, hi);
      if IsIntegral(v) && Lo(f) <= v <= Hi(f) then RoundIntegral(v); Round(c) as real
      else Round(c) as real
    else c
  }

  /** A stride at or above its chunk becomes `max(0.1, chunk - 0.1)`; a smaller one is kept. */
  function FixStride(stride: real, chunk: real): real {
    if stride >= chunk then Max(0.1, chunk - 0.1) else stride
  }

  /** Every field admissible, and each stride strictly below its chunk. */
  predicate Valid(s: Settings) {
    && (forall f :: Admissible(f, s.Get(f)))
    && s.strideLengthS < s.chunkLengthS
    && s.baseStrideLengthS < s.baseChunkLengthS
  }

  /** The stride correction keeps an admissible stride admissible and puts it below the chunk. */
  lemma FixStrideBelowChunk(f: Field, g: Field, stride: real, chunk: real)
    requires (f, g) == (StrideLengthS, ChunkLengthS) || (f, g) == (BaseStrideLengthS, BaseChunkLengthS)
    requires Admissible(f, stride) && Admissible(g, chunk)
    ensures Admissible(f, FixStride(stride, chunk))
    ensures FixStride(stride, chunk) < chunk
    ensures FixStride(stride, chunk) == (if stride < chunk then stride else chunk - 0.1)
  {
  }

  /** Replacing the two strides leaves every other field alone. */
  lemma StrideUpdateFrame(c: Settings, s1: real, s2: real)
    ensures forall f :: !IsStride(f) ==> c.(strideLengthS := s1, baseStrideLengthS := s2).Get(f) == c.Get(f)
  {
  }

  /** Each field read from `source` (or `fallback`) and clamped, before the stride correction. */
  function ClampAll(source: Raw, fallback: Settings): (c: Settings)
    ensures forall f :: c.Get(f) == ClampField(f, Pick(source.Get(f), fallback.Get(f)))
    ensures forall f :: Admissible(f, c.Get(f))
  {
    Build(f => ClampField(f, Pick(source.Get(f), fallback.Get(f))))
  }

  /**
   * The common sanitiser: field `f` is read from `source` when it holds a
   * finite number, otherwise from `fallback`; it is then clamped, and finally
   * each stride is forced below its chunk.
   */
  function SanitizeFrom(source: Raw, fallback: Settings): (r: Settings)
    ensures Valid(r)
    ensures forall f :: !IsStride(f) ==> r.Get(f) == ClampField(f, Pick(source.Get(f), fallback.Get(f)))
    // a stride at or above its chunk becomes chunk - 0.1; one below it is kept
    ensures var s := ClampField(StrideLengthS, Pick(source.strideLengthS, fallback.strideLengthS));
            r.strideLengthS == (if s < r.chunkLengthS then s else r.chunkLengthS - 0.1)
    ensures var s := ClampField(BaseStrideLengthS, Pick(source.baseStrideLengthS, fallback.baseStrideLengthS));
            r.baseStrideLengthS == (if s < r.baseChunkLengthS then s else r.baseChunkLengthS - 0.1)
  {
    var c := ClampAll(source, fallback);
    assert c.Get(StrideLengthS) == c.strideLengthS && c.Get(ChunkLengthS) == c.chunkLengthS;
    assert c.Get(BaseStrideLengthS) == c.baseStrideLengthS && c.Get(BaseChunkLengthS) == c.baseChunkLengthS;
    var s1 := FixStride(c.strideLengthS, c.chunkLengthS);
    var s2 := FixStride(c.baseStrideLengthS, c.baseChunkLengthS);
    FixStrideBelowChunk(StrideLengthS, ChunkLengthS, c.strideLengthS, c.chunkLengthS);
    FixStrideBelowChunk(BaseStrideLengthS, BaseChunkLengthS, c.baseStrideLengthS, c.baseChunkLengthS);
    StrideUpdateFrame(c, s1, s2);
    var r := c.(strideLengthS := s1, baseStrideLengthS := s2);
    assert forall f :: Admissible(f, r.Get(f)) by {
      forall f ensures Admissible(f, r.Get(f)) {
        if !IsStride(f) {
          assert r.Get(f) == c.Get(f);
        }
      }
    }
    r
  }

  /** A finite, admissible input value is kept (strides: when below the chunk, see `SanitizeFrom`). */
  lemma SanitizeKeepsAdmissible(source: Raw, fallback: Settings, f: Field)
    requires !IsStride(f) && HasFinite(source.Get(f)) && Admissible(f, source.Get(f).value.value)
    ensures SanitizeFrom(source, fallback).Get(f) == source.Get(f).value.value
  {
  }

  /** A missing or non-finite input value is replaced by the (clamped) fallback. */
  lemma SanitizeFallsBack(source: Raw, fallback: Settings, f: Field)
    requires !IsStride(f) && !HasFinite(source.Get(f))
    ensures SanitizeFrom(source, fallback).Get(f) == ClampField(f, fallback.Get(f))
  {
  }

  /** A finite input value outside the range is replaced by the nearest bound. */
  lemma SanitizeClampsOutOfRange(source: Raw, fallback: Settings, f: Field)
    requires !IsStride(f) && HasFinite(source.Get(f))
    requires source.Get(f).value.value < Lo(f) || source.Get(f).value.value > Hi(f)
    ensures var r := SanitizeFrom(source, fallback).Get(f);
            r == (if source.Get(f).value.value < Lo(f) then Lo(f) else Hi(f))
  {
  }

  /** Sanitising a valid snapshot (over any fallback) returns it unchanged. */
  lemma SanitizeValidIsIdentity(s: Settings, fallback: Settings)
    requires Valid(s)
    ensures SanitizeFrom(FromSettings(s), fallback) == s
  {
    var r := SanitizeFrom(FromSettings(s), fallback);
    forall f ensures r.Get(f) == s.Get(f) {
      assert Admissible(f, s.Get(f));
    }
    assert r.strideLengthS == s.strideLengthS;
    assert r.baseStrideLengthS == s.baseStrideLengthS;
    assert r.windowSeconds == s.windowSeconds;
  }

  /** Sanitising is idempotent: its output is already a fixed point. */
  lemma SanitizeIdempotent(source: Raw, fallback: Settings, fallback2: Settings)
    ensures var r := SanitizeFrom(source, fallback);
            SanitizeFrom(FromSettings(r), fallback2) == r
  {
    SanitizeValidIsIdentity(SanitizeFrom(source, fallback), fallback2);
  }

  /** The offscreen document's defaults (a window of 8 seconds). */
  const OffscreenDefaults: Settings := Settings(8.0, 0.5, 700.0, 10.0, 2.0, 0.007, 800.0, 1.8, 6.0, 1.5)

  /**
   * The offscreen copy: the update is spread over the current settings, and a
   * missing or non-finite value falls back to the current value.
   */
  function SanitizeRuntimeSettings(next: Option<Raw>, current: Settings): (r: Settings)
    ensures Valid(r)
  {
    SanitizeFrom(Overlay(FromSettings(current), ObjectOrEmpty(next)), current)
  }

  /**
   * In the offscreen copy an update value is taken when finite and
   * admissible; a key that is missing, or whose value is not finite, keeps
   * the current value (clamped).
   */
  lemma RuntimeSettingsFieldSource(next: Option<Raw>, current: Settings, f: Field)
    requires !IsStride(f)
    ensures var n := ObjectOrEmpty(next).Get(f);
            var r := SanitizeRuntimeSettings(next, current).Get(f);
            && (HasFinite(n) && Admissible(f, n.value.value) ==> r == n.value.value)
            && (!HasFinite(n) ==> r == ClampField(f, current.Get(f)))
  {
    var source := Overlay(FromSettings(current), ObjectOrEmpty(next));
    assert source.Get(f) == (if ObjectOrEmpty(next).Get(f).Some? then ObjectOrEmpty(next).Get(f) else Some(Finite(current.Get(f))));
  }

  /** An empty update leaves valid current settings as they are. */
  lemma RuntimeEmptyUpdateKeepsValid(current: Settings)
    requires Valid(current)
    ensures SanitizeRuntimeSettings(None, current) == current
  {
    assert Overlay(FromSettings(current), Empty) == FromSettings(current);
    SanitizeValidIsIdentity(current, current);
  }

  lemma OffscreenDefaultsValid()
    ensures Valid(OffscreenDefaults)
  {
    forall f ensures Admissible(f, OffscreenDefaults.Get(f)) {
      match f
      case DispatchIntervalMs => assert IsIntegral(700.0) by { assert (700.0).Floor == 700; }
      case VoiceHoldMs => assert IsIntegral(800.0) by { assert (800.0).Floor == 800; }
      case _ =>
    }
  }

  /** Chunk 5 with stride 8 sanitises to stride 4.9; chunk 10 with stride 2 is kept. */
  lemma StrideExamples()
    ensures SanitizeRuntimeSettings(Some(Empty.(chunkLengthS := Some(Finite(5.0)), strideLengthS := Some(Finite(8.0)))),
                                    OffscreenDefaults).strideLengthS == 4.9
    ensures var r := SanitizeRuntimeSettings(Some(Empty.(chunkLengthS := Some(Finite(10.0)), strideLengthS := Some(Finite(2.0)))),
                                             OffscreenDefaults);
            r.chunkLengthS == 10.0 && r.strideLengthS == 2.0
  {
    var a := SanitizeRuntimeSettings(Some(Empty.(chunkLengthS := Some(Finite(5.0)), strideLengthS := Some(Finite(8.0)))),
                                     OffscreenDefaults);
    assert Admissible(ChunkLengthS, 5.0);
    assert a.Get(ChunkLengthS) == 5.0;
  }
}

=== FILE: text.dfy ===
/**
 * The string primitives the extension relies on, with JavaScript's meaning:
 * `trim`, the `\s` character class, `toLowerCase` (ASCII letters only),
 * `startsWith`, `endsWith`, `includes`, integer formatting and `join`.
 */
module Text {

  /** JavaScript's whitespace: the characters `\s` matches and `trim` removes. */
  predicate IsSpace(c: char) {
    || c == ' ' || c == '\t' || c == '\n' || c == '\r' || c == '\U{B}' || c == '\U{C}'
    || c == '\U{A0}' || c == '\U{1680}' || ('\U{2000}' <= c <= '\U{200A}')
    || c == '\U{2028}' || c == '\U{2029}' || c == '\U{202F}' || c == '\U{205F}'
    || c == '\U{3000}' || c == '\U{FEFF}'
  }

  /** `s` with its leading whitespace removed. */
  function TrimStart(s: string): (r: string)
    ensures |r| <= |s| && r == s[|s| - |r|..]
    ensures |r| > 0 ==> !IsSpace(r[0])
    ensures forall i :: 0 <= i < |s| - |r| ==> IsSpace(s[i])
  {
    if |s| > 0 && IsSpace(s[0]) then TrimStart(s[1..]) else s
  }

  /** `s` with its trailing whitespace removed. */
  function TrimEnd(s: string): (r: string)
    ensures |r| <= |s| && r == s[..|r|]
    ensures |r| > 0 ==> !IsSpace(r[|r| - 1])
    ensures forall i :: |r| <= i < |s| ==> IsSpace(s[i])
  {
    if |s| > 0 && IsSpace(s[|s| - 1]) then TrimEnd(s[..|s| - 1]) else s
  }

  /** `String.prototype.trim`. */
  function Trim(s: string): (r: string)
    ensures |r| > 0 ==> !IsSpace(r[0]) && !IsSpace(r[|r| - 1])
    ensures exists a :: OccursAt(s, r, a)
  {
    var t := TrimStart(s);
    var r := TrimEnd(t);
    assert OccursAt(s, r, |s| - |t|);
    r
  }

  /** A string without leading or trailing whitespace. */
  predicate IsTrimmed(s: string) {
    |s| > 0 ==> !IsSpace(s[0]) && !IsSpace(s[|s| - 1])
  }

  lemma {:induction false} TrimStartOfTrimmed(s: string)
    requires IsTrimmed(s)
    ensures TrimStart(s) == s
  {
  }

  /** Trimming a string that has no outer whitespace changes nothing. */
  lemma {:induction false} TrimOfTrimmed(s: string)
    requires IsTrimmed(s)
    ensures Trim(s) == s
  {
    TrimStartOfTrimmed(s);
  }

  function LowerChar(c: char): (d: char)
    ensures !('A' <= d <= 'Z')
  {
    if 'A' <= c <= 'Z' then (c as int - 'A' as int + 'a' as int) as char else c
  }

  /** Lowercasing twice is lowercasing once. */
  lemma LowerIdempotent(s: string)
    ensures ToLower(ToLower(s)) == ToLower(s)
  {
    assert forall i :: 0 <= i < |s| ==> LowerChar(LowerChar(s[i])) == LowerChar(s[i]);
  }

  /** A string without uppercase ASCII letters is its own lowercase. */
  lemma LowerOfLowercase(s: string)
    requires forall i :: 0 <= i < |s| ==> !('A' <= s[i] <= 'Z')
    ensures ToLower(s) == s
  {
  }

  /** `toLowerCase`, restricted to the ASCII letters. */
  function ToLower(s: string): (r: string)
    ensures |r| == |s|
    ensures forall i :: 0 <= i < |r| ==> r[i] == LowerChar(s[i])
  {
    seq(|s|, i requires 0 <= i < |s| => LowerChar(s[i]))
  }

  predicate StartsWith(s: string, prefix: string) {
    |prefix| <= |s| && s[..|prefix|] == prefix
  }

  predicate EndsWith(s: string, suffix: string) {
    |suffix| <= |s| && s[|s| - |suffix|..] == suffix
  }

  /** `t` occurs in `s` starting at index `i`. */
  ghost predicate OccursAt(s: string, t: string, i: int) {
    0 <= i && i + |t| <= |s| && s[i..i + |t|] == t
  }

  lemma OccursShift(s: string, t: string, i: int)
    requires |s| > 0 && 0 < i
    ensures OccursAt(s, t, i) <==> OccursAt(s[1..], t, i - 1)
  {
    if i + |t| <= |s| {
      assert s[1..][i - 1..i - 1 + |t|] == s[i..i + |t|];
    }
  }

  /** `s.includes(t)`. */
  function Contains(s: string, t: string): (b: bool)
    ensures b <==> exists i :: OccursAt(s, t, i)
    decreases |s|
  {
    if StartsWith(s, t) then
      assert OccursAt(s, t, 0);
      true
    else if |s| <= |t| then
      assert forall i :: !OccursAt(s, t, i) by {
        forall i ensures !OccursAt(s, t, i) {
        }
      }
      false
    else
      var b := Contains(s[1..], t);
      if b then
        assert exists i :: OccursAt(s, t, i) by {
          var i :| OccursAt(s[1..], t, i);
          OccursShift(s, t, i + 1);
        }
        true
      else
        assert forall i :: !OccursAt(s, t, i) by {
          forall i ensures !OccursAt(s, t, i) {
            if i > 0 {
              OccursShift(s, t, i);
            }
          }
        }
        false
  }

  /** Every string contains itself and its own prefixes. */
  lemma ContainsPrefix(s: string, n: nat)
    requires n <= |s|
    ensures Contains(s, s[..n])
  {
    assert OccursAt(s, s[..n], 0);
  }

  function DigitChar(d: int): (c: char)
    requires 0 <= d < 10
    ensures '0' <= c <= '9'
  {
    ('0' as int + d) as char
  }

  /** The value of a decimal digit character. */
  function DigitValue(c: char): int {
    c as int - '0' as int
  }

  /** Decimal digits of a natural number, as `${n}` renders it. */
  function NatToString(n: nat): (r: string)
    ensures |r| > 0
    ensures forall i :: 0 <= i < |r| ==> '0' <= r[i] <= '9'
    decreases n
  {
    if n < 10 then [DigitChar(n)] else NatToString(n / 10) + [DigitChar(n % 10)]
  }

  /** The number a string of decimal digits denotes. */
  function ParseNat(s: string): int {
    if |s| == 0 then 0 else 10 * ParseNat(s[..|s| - 1]) + DigitValue(s[|s| - 1])
  }

  /** Reading the digits of `n` back gives `n`. */
  lemma {:induction false} NatToStringRoundTrip(n: nat)
    ensures ParseNat(NatToString(n)) == n
    decreases n
  {
    var r := NatToString(n);
    if n < 10 {
      assert r[..|r| - 1] == "";
    } else {
      NatToStringRoundTrip(n / 10);
      assert r[..|r| - 1] == NatToString(n / 10);
    }
  }

  /** An integer as `${n}` renders it. */
  function IntToString(n: int): (r: string)
    ensures |r| > 0
  {
    if n < 0 then "-" + NatToString(-n) else NatToString(n)
  }

  /** `parts.join(sep)`. */
  function Join(parts: seq<string>, sep: string): string
  {
    if |parts| == 0 then ""
    else if |parts| == 1 then parts[0]
    else parts[0] + sep + Join(parts[1..], sep)
  }

  /** JavaScript's `a || b` on strings: `b` when `a` is empty. */
  function Or(a: string, b: string): (r: string)
    ensures a != "" ==> r == a
    ensures a == "" ==> r == b
  {
    if a != "" then a else b
  }
}

=== FILE: transcriber.dfy ===
/**
 * The single-flight transcription executor of the offscreen document. A
 * window of audio handed to it starts an engine call when none is running;
 * while one is running, the window replaces whatever waits in the one-slot
 * queue, so the newest window wins. When a call finishes, its text is
 * emitted if it is new, an error becomes a rate-limited warning, and the
 * waiting window (if any) is started.
 *
 * The engine's asynchrony becomes explicit steps: `Submit` for a window,
 * `Complete` for the end of one running call, `StopAsWritten` / `Stop` for the
 * end of capture. `running` lists the calls in flight, so the single-flight
 * property can be stated at all.
 */
module Transcriber {
  import opened Wrappers
  import opened Text
  import Models

  type Audio = seq<real>

  /** One engine call: the audio and whether it used the relaxed (retry) options. */
  datatype Call = Call(audio: Audio, relaxed: bool)

  /** How an engine call ended. */
  datatype CallResult = Resolved(output: Models.EngineOutput) | Rejected(message: string)

  /** Least gap, in milliseconds, between two runtime warnings. */
  const WarningGapMs: int := 1500

  datatype Executor = Executor(
    busy: bool,
    queued: Option<Audio>,
    lastText: string,
    lastWarningAt: int,
    running: seq<Audio>,
    calls: seq<Call>,
    transcripts: seq<string>,
    warnings: seq<string>)

  const Initial: Executor := Executor(false, None, "", 0, [], [], [], [])

  /**
   * A window handed to the executor. It is dropped unless capturing with a
   * ready model; it waits (replacing any waiting window) while a call runs;
   * otherwise a call starts on it.
   */
  function Submit(e: Executor, audio: Audio, capturing: bool, ready: bool): (r: Executor)
    ensures !(capturing && ready) ==> r == e
    ensures capturing && ready && e.busy ==> r == e.(queued := Some(audio))
    ensures capturing && ready && !e.busy ==>
              && r.busy && r.queued == e.queued
              && r.running == e.running + [audio] && r.calls == e.calls + [Call(audio, false)]
    ensures r.lastText == e.lastText && r.transcripts == e.transcripts && r.warnings == e.warnings
    ensures r.lastWarningAt == e.lastWarningAt
  {
    if !capturing || !ready then e
    else if e.busy then e.(queued := Some(audio))
    else e.(busy := true, running := e.running + [audio], calls := e.calls + [Call(audio, false)])
  }

  /** The list without its element at `k`. */
  function RemoveAt<T>(s: seq<T>, k: nat): (r: seq<T>)
    requires k < |s|
    ensures |r| == |s| - 1
  {
    s[..k] + s[k + 1..]
  }

  /** The text of a finished call, trimmed, as it would be emitted. */
  function ResultText(output: Models.EngineOutput): (t: string)
    ensures IsTrimmed(t)
  {
    var t := Trim(Models.NormalizeText(output));
    assert IsTrimmed(t);
    t
  }

  /**
   * Transcript emission: a trimmed, non-empty text different from the last
   * emitted one is emitted while capturing, and becomes the last text.
   */
  function Emit(e: Executor, text: string, capturing: bool): (r: Executor)
    ensures (capturing && text != "" && text != e.lastText) ==>
              r == e.(lastText := text, transcripts := e.transcripts + [text])
    ensures !(capturing && text != "" && text != e.lastText) ==> r == e
  {
    if capturing && text != "" && text != e.lastText then
      e.(lastText := text, transcripts := e.transcripts + [text])
    else e
  }

  /** A failure becomes a warning unless one was raised within the last 1500 ms. */
  function Warn(e: Executor, message: string, now: int): (r: Executor)
    ensures now - e.lastWarningAt > WarningGapMs ==>
              r == e.(lastWarningAt := now, warnings := e.warnings + [message])
    ensures now - e.lastWarningAt <= WarningGapMs ==> r == e
  {
    if now - e.lastWarningAt > WarningGapMs then
      e.(lastWarningAt := now, warnings := e.warnings + [message])
    else e
  }

  /** The first attempt failed with a language-token message, so it is retried once with relaxed options. */
  predicate Retried(first: CallResult) {
    first.Rejected? && Models.ShouldRetryWithoutForcedLanguage(first.message)
  }

  /**
   * How the engine call `running[k]` settles with `outcome`, before the
   * executor moves on: the call leaves `running`, a relaxed retry is logged if
   * the first attempt was retried, and the outcome's text is emitted or its
   * failure warned about.
   */
  function Settle(e: Executor, k: nat, outcome: CallResult, retried: bool, capturing: bool, now: int): (r: Executor)
    requires k < |e.running|
    ensures r.running == RemoveAt(e.running, k)
    ensures r.calls == e.calls + (if retried then [Call(e.running[k], true)] else [])
    ensures r.busy == e.busy && r.queued == e.queued
    ensures || r.transcripts == e.transcripts
            || (&& capturing
                && |r.transcripts| == |e.transcripts| + 1
                && r.transcripts[..|e.transcripts|] == e.transcripts
                && var t := r.transcripts[|e.transcripts|];
                   t != "" && t != e.lastText && IsTrimmed(t) && r.lastText == t)
    ensures r.transcripts == e.transcripts ==> r.lastText == e.lastText
    ensures r.warnings != e.warnings ==>
              now - e.lastWarningAt > WarningGapMs && r.lastWarningAt == now && |r.warnings| == |e.warnings| + 1 && r.warnings == e.warnings + [r.warnings[|e.warnings|]]
    ensures r.warnings == e.warnings ==> r.lastWarningAt == e.lastWarningAt
  {
    var e1 := e.(running := RemoveAt(e.running, k),
                 calls := if retried then e.calls + [Call(e.running[k], true)] else e.calls);
    match outcome
    case Resolved(output) =>
      var text := ResultText(output);
      var r := Emit(e1, text, capturing);
      assert r.transcripts == e.transcripts || r.transcripts == e.transcripts + [text];
      assert (e.transcripts + [text])[..|e.transcripts|] == e.transcripts;
      r
    case Rejected(message) =>
      var r := Warn(e1, message, now);
      assert r.transcripts == e.transcripts && r.lastText == e.lastText;
      r
  }

  /**
   * The end of the engine call `running[k]`. A first attempt rejected with a
   * language-token message is retried once with relaxed options, ending with
   * `retry`. Then the text is emitted or the failure warned about, `busy` is
   * cleared, and a waiting window is submitted.
   */
  function Complete(e: Executor, k: nat, first: CallResult, retry: CallResult,
                    capturing: bool, ready: bool, now: int): (r: Executor)
    requires k < |e.running|
    ensures SingleFlight(e) ==> SingleFlight(r) && |r.running| <= 1
    ensures |e.calls| <= |r.calls| && r.calls[..|e.calls|] == e.calls
  {
    var retried := Retried(first);
    var e3 := Settle(e, k, if retried then retry else first, retried, capturing, now).(busy := false, queued := None);
    if e.queued.Some? then Submit(e3, e.queued.value, capturing, ready) else e3
  }

  /** What one completion does to the call log: one relaxed retry, and only after a language-token error. */
  lemma CompleteRetriesOnce(e: Executor, k: nat, first: CallResult, retry: CallResult,
                            capturing: bool, ready: bool, now: int)
    requires k < |e.running|
    ensures var r := Complete(e, k, first, retry, capturing, ready, now);
            var relaxed := if Retried(first) then [Call(e.running[k], true)] else [];
            && |e.calls| <= |r.calls|
            && r.calls[..|e.calls|] == e.calls
            && (e.queued.None? ==> r.calls == e.calls + relaxed)
            && (e.queued.Some? ==> r.calls == e.calls + relaxed + (if capturing && ready then [Call(e.queued.value, false)] else []))
  {
    var relaxed := if Retried(first) then [Call(e.running[k], true)] else [];
    if e.queued.Some? && capturing && ready {
      assert (e.calls + relaxed + [Call(e.queued.value, false)])[..|e.calls|] == e.calls;
    } else {
      assert (e.calls + relaxed)[..|e.calls|] == e.calls;
    }
  }

  /** A completion emits at most one transcript: trimmed, non-empty and not the previous one. */
  lemma CompleteEmission(e: Executor, k: nat, first: CallResult, retry: CallResult,
                         capturing: bool, ready: bool, now: int)
    requires k < |e.running|
    ensures var r := Complete(e, k, first, retry, capturing, ready, now);
            && (r.transcripts == e.transcripts
                || (&& capturing
                    && |r.transcripts| == |e.transcripts| + 1
                    && r.transcripts[..|e.transcripts|] == e.transcripts
                    && var t := r.transcripts[|e.transcripts|];
                       t != "" && t != e.lastText && IsTrimmed(t) && r.lastText == t))
  {
  }

  /** A completion warns only if the last warning is more than 1500 ms old. */
  lemma CompleteWarningRateLimit(e: Executor, k: nat, first: CallResult, retry: CallResult,
                                 capturing: bool, ready: bool, now: int)
    requires k < |e.running|
    ensures var r := Complete(e, k, first, retry, capturing, ready, now);
            r.warnings != e.warnings ==>
              now - e.lastWarningAt > WarningGapMs && r.lastWarningAt == now && |r.warnings| == |e.warnings| + 1 && r.warnings == e.warnings + [r.warnings[|e.warnings|]]
  {
  }

  /** The end of capture as written: busy, the queue and the last text are cleared. */
  function StopAsWritten(e: Executor): (r: Executor)
    ensures !r.busy && r.queued.None? && r.lastText == ""
    ensures r.running == e.running
  {
    e.(busy := false, queued := None, lastText := "")
  }

  /**
   * The end of capture keeping the single-flight guard: the queue and the last
   * text are cleared, and `busy` stays set while a call is still running, so
   * the running call's completion clears it.
   */
  function Stop(e: Executor): (r: Executor)
    ensures r.queued.None? && r.lastText == ""
    ensures r.busy == e.busy && r.running == e.running
  {
    e.(queued := None, lastText := "")
  }

  /** Single flight: at most one call runs, exactly when `busy`, and a window waits only behind it. */
  predicate SingleFlight(e: Executor) {
    && |e.running| == (if e.busy then 1 else 0)
    && (e.queued.Some? ==> e.busy)
  }

  lemma InitialSingleFlight()
    ensures SingleFlight(Initial)
  {
  }

  lemma SubmitKeepsSingleFlight(e: Executor, audio: Audio, capturing: bool, ready: bool)
    requires SingleFlight(e)
    ensures SingleFlight(Submit(e, audio, capturing, ready))
    ensures |Submit(e, audio, capturing, ready).running| <= 1
  {
  }

  lemma CompleteKeepsSingleFlight(e: Executor, k: nat, first: CallResult, retry: CallResult,
                                  capturing: bool, ready: bool, now: int)
    requires SingleFlight(e) && k < |e.running|
    ensures SingleFlight(Complete(e, k, first, retry, capturing, ready, now))
  {
  }

  lemma StopKeepsSingleFlight(e: Executor)
    requires SingleFlight(e)
    ensures SingleFlight(Stop(e))
  {
  }

  /**
   * Latest wins: with J1 running, J2 and J3 arriving before it finishes, the
   * engine is called on J1 and then on J3; J2 is never transcribed.
   */
  lemma LatestWindowWins(j1: Audio, j2: Audio, j3: Audio, output: Models.EngineOutput, now: int)
    ensures var e1 := Submit(Initial, j1, true, true);
            var e2 := Submit(e1, j2, true, true);
            var e3 := Submit(e2, j3, true, true);
            var e4 := Complete(e3, 0, Resolved(output), Resolved(output), true, true, now);
            && e4.calls == [Call(j1, false), Call(j3, false)]
            && e4.running == [j3] && e4.busy && e4.queued.None?
  {
    var e1 := Submit(Initial, j1, true, true);
    assert e1.busy && e1.running == [j1] && e1.calls == [Call(j1, false)];
    var e2 := Submit(e1, j2, true, true);
    var e3 := Submit(e2, j3, true, true);
    assert e3.busy && e3.running == [j1] && e3.calls == [Call(j1, false)] && e3.queued == Some(j3);
    assert !Retried(Resolved(output));
    var settled := Settle(e3, 0, Resolved(output), false, true, now);
    assert settled.running == [] && settled.calls == [Call(j1, false)];
    var e4 := Complete(e3, 0, Resolved(output), Resolved(output), true, true, now);
    assert e4 == Submit(settled.(busy := false, queued := None), j3, true, true);
  }


  /**
   * As written, stopping clears `busy` under a running call: after a restart
   * the next window starts a second call while the first is still running.
   */
  lemma StopAsWrittenBreaksSingleFlight(j1: Audio, j2: Audio)
    ensures var e1 := Submit(Initial, j1, true, true);
            var e2 := StopAsWritten(e1);
            var e3 := Submit(e2, j2, true, true);
            && SingleFlight(e1) && !SingleFlight(e3) && |e3.running| == 2
  {
  }

  /** With the guard kept, the same steps queue the second window behind the first call. */
  lemma StopQueuesBehindRunningCall(j1: Audio, j2: Audio)
    ensures var e1 := Submit(Initial, j1, true, true);
            var e3 := Submit(Stop(e1), j2, true, true);
            && SingleFlight(e3) && e3.running == [j1] && e3.queued == Some(j2)
  {
  }
}

=== FILE: worker.dfy ===
/**
 * The alternative recognition worker: its network preflight, the recognizer
 * it caches per model, and the bounded queue of transcription jobs it drains
 * one at a time. Messages from the page are steps on a `Worker` state; the
 * results of fetches and of the engine are parameters.
 */
module Worker {
  import opened Wrappers
  import opened Text
  import JsNum
  import Models
  import Background

  const DefaultModel: string := "onnx-community/whisper-tiny.en"
  const InitialLanguage: string := "english"

  /** The queue keeps at most this many waiting jobs. */
  const MaxQueuedJobs: nat := 2

  /** The runtime files probed, in this order, under the extension's `/ort/` directory. */
  const OrtCandidates: seq<string> :=
    ["ort-wasm-simd-threaded.wasm", "ort-wasm-simd-threaded.jsep.wasm", "ort-wasm.wasm"]

  const MissingOrtMessage: string := "Local ONNX wasm assets are missing in /ort"

  // ---------------------------------------------------------------------------
  // Preflight
  // ---------------------------------------------------------------------------

  /** What a fetch gave: a response with its `ok` flag and status, or the message of the error it threw. */
  datatype Response = Answered(ok: bool, status: int) | Threw(message: string)

  predicate IsOk(r: Response) {
    r.Answered? && r.ok
  }

  predicate IsNotOk(r: Response) {
    r.Answered? && !r.ok
  }

  datatype Preflight = Passed | Failed(message: string)

  function HubFailure(model: string, status: int): string {
    "Hugging Face API failed (" + IntToString(status) + ") for " + model
  }

  /**
   * The runtime files in order: the first that answers ok passes, a fetch that
   * throws fails with its error, and when none answers ok the assets are missing.
   */
  function ProbeCandidates(files: seq<string>, probe: string -> Response): (p: Preflight)
    ensures files == [] ==> p == Failed(MissingOrtMessage)
    decreases |files|
  {
    if files == [] then Failed(MissingOrtMessage)
    else match probe(files[0])
      case Threw(m) => Failed(m)
      case Answered(ok, _) => if ok then Passed else ProbeCandidates(files[1..], probe)
  }

  /** The preflight for `model`: the hub must answer ok, then a runtime file must be reachable. */
  function PreflightOutcome(model: string, hub: Response, probe: string -> Response): (p: Preflight)
    ensures hub.Threw? ==> p == Failed(hub.message)
    ensures IsNotOk(hub) ==> p == Failed(HubFailure(model, hub.status))
  {
    match hub
    case Threw(m) => Failed(m)
    case Answered(ok, status) =>
      if !ok then Failed(HubFailure(model, status)) else ProbeCandidates(OrtCandidates, probe)
  }

  /** File `i` is the first that answers ok, and every file before it answered not ok. */
  ghost predicate FirstOk(files: seq<string>, probe: string -> Response, i: int) {
    && 0 <= i < |files|
    && IsOk(probe(files[i]))
    && (forall j :: 0 <= j < i ==> IsNotOk(probe(files[j])))
  }

  /** The probes pass exactly when some file answers ok and every file before it answered not ok. */
  lemma {:induction false} ProbePassesIff(files: seq<string>, probe: string -> Response)
    ensures ProbeCandidates(files, probe).Passed? <==> exists i :: FirstOk(files, probe, i)
    decreases |files|
  {
    if files != [] {
      var r := probe(files[0]);
      if IsOk(r) {
        assert FirstOk(files, probe, 0);
      } else if r.Threw? {
        forall i ensures !FirstOk(files, probe, i) {
          if 0 < i < |files| {
            assert !IsNotOk(probe(files[0]));
          }
        }
      } else {
        ProbePassesIff(files[1..], probe);
        if i :| FirstOk(files[1..], probe, i) {
          assert FirstOk(files, probe, i + 1) by {
            forall j | 0 <= j < i + 1 ensures IsNotOk(probe(files[j])) {
              if j > 0 {
                assert files[j] == files[1..][j - 1];
              }
            }
          }
        }
        if i :| FirstOk(files, probe, i) {
          assert i != 0;
          assert FirstOk(files[1..], probe, i - 1) by {
            forall j | 0 <= j < i - 1 ensures IsNotOk(probe(files[1..][j])) {
              assert files[1..][j] == files[j + 1];
            }
          }
        }
      }
    }
  }

  /** The preflight passes exactly when the hub answers ok and some runtime file is the first to answer ok. */
  lemma PreflightPassesIff(model: string, hub: Response, probe: string -> Response)
    ensures PreflightOutcome(model, hub, probe).Passed? <==>
            IsOk(hub) && exists i :: FirstOk(OrtCandidates, probe, i)
  {
    ProbePassesIff(OrtCandidates, probe);
  }

  /**
   * The preflight as the worker runs it: the hub first, then the runtime
   * files in order, stopping at the first that answers ok or throws.
   * `probed` counts the runtime files fetched.
   */
  method RunPreflight(model: string, hub: Response, probe: string -> Response) returns (result: Preflight, probed: nat)
    ensures result == PreflightOutcome(model, hub, probe)
    ensures probed <= |OrtCandidates|
    ensures !IsOk(hub) ==> probed == 0
    ensures result.Passed? ==> probed > 0 && FirstOk(OrtCandidates, probe, probed - 1)
  {
    if hub.Threw? {
      return Failed(hub.message), 0;
    }
    if !hub.ok {
      return Failed(HubFailure(model, hub.status)), 0;
    }
    var i := 0;
    while i < |OrtCandidates|
      invariant 0 <= i <= |OrtCandidates|
      invariant ProbeCandidates(OrtCandidates[i..], probe) == ProbeCandidates(OrtCandidates, probe)
      invariant forall j :: 0 <= j < i ==> IsNotOk(probe(OrtCandidates[j]))
    {
      var r := probe(OrtCandidates[i]);
      assert OrtCandidates[i..][1..] == OrtCandidates[i + 1..];
      if r.Threw? {
        return Failed(r.message), i + 1;
      }
      if r.ok {
        return Passed, i + 1;
      }
      i := i + 1;
    }
    return Failed(MissingOrtMessage), |OrtCandidates|;
  }

  // ---------------------------------------------------------------------------
  // Worker state and the cached recognizer
  // ---------------------------------------------------------------------------

  /** A transcription job: its audio, the language to decode in and the model to run. */
  datatype Job = Job(audio: seq<real>, language: string, model: string)

  /**
   * The cached recognizer: the model it was built for, which build it is, and
   * the error its load failed with, if it failed.
   */
  datatype Cached = Cached(model: string, generation: nat, failure: Option<string>)

  /**
   * The worker: its cached recognizer, how many it has built, the default
   * language, the waiting jobs, whether the queue is being drained, the job
   * the drain is working on and the error its recognizer lookup ended with,
   * taken when the job was dequeued.
   */
  datatype Worker = Worker(recognizer: Option<Cached>, builds: nat, defaultLanguage: string,
                           queue: seq<Job>, processing: bool, inFlight: Option<Job>,
                           lookupFailure: Option<string>)

  /** The messages the worker posts back. */
  datatype Posted = Ready(model: string, language: string, loadMs: int) | Transcript(text: string) | Error(error: string)

  const Initial: Worker := Worker(None, 0, InitialLanguage, [], false, None, None)

  /**
   * The recognizer lookup as written: the cached one whenever it was built for
   * the same model, even if its load failed; otherwise a new build whose load
   * ends with `load`. Gives the state and the lookup's error, if any.
   */
  function GetRecognizerAsWritten(w: Worker, model: string, load: Option<string>): (r: (Worker, Option<string>))
    ensures r.0.recognizer.Some? && r.0.recognizer.value.model == model
    ensures r.0 == w.(recognizer := r.0.recognizer, builds := r.0.builds)
  {
    if w.recognizer.Some? && w.recognizer.value.model == model then (w, w.recognizer.value.failure)
    else (w.(recognizer := Some(Cached(model, w.builds, load)), builds := w.builds + 1), load)
  }

  /**
   * A load that failed stays cached: a second lookup of the same model gets
   * the old error even though a new load would now succeed.
   */
  lemma FailedLoadIsNeverRetried(w: Worker, model: string, error: string)
    requires w.recognizer == Some(Cached(model, 0, Some(error)))
    ensures GetRecognizerAsWritten(w, model, None).1 == Some(error)
  {
  }

  /**
   * The recognizer lookup: the cached one when it was built for the same model
   * and its load succeeded, otherwise a new build whose load ends with `load`.
   */
  function GetRecognizer(w: Worker, model: string, load: Option<string>): (r: (Worker, Option<string>))
    ensures r.0.recognizer.Some? && r.0.recognizer.value.model == model
    ensures r.0 == w.(recognizer := r.0.recognizer, builds := r.0.builds)
    ensures w.recognizer.Some? && w.recognizer.value.model == model && w.recognizer.value.failure.None? ==> r == (w, None)
    ensures !(w.recognizer.Some? && w.recognizer.value.model == model && w.recognizer.value.failure.None?) ==>
              r.0.builds == w.builds + 1 && r.0.recognizer.value.generation == w.builds && r.1 == load
    ensures load.None? ==> r.1.None?
  {
    if w.recognizer.Some? && w.recognizer.value.model == model && w.recognizer.value.failure.None? then (w, None)
    else (w.(recognizer := Some(Cached(model, w.builds, load)), builds := w.builds + 1), load)
  }

  /** A second lookup of the same model reuses the first one's recognizer when it loaded. */
  lemma GetRecognizerReuses(w: Worker, model: string, first: Option<string>, second: Option<string>)
    requires first.None?
    ensures var (w1, _) := GetRecognizer(w, model, first);
            GetRecognizer(w1, model, second) == (w1, None)
  {
  }

  /** The two lookups differ only where the cached recognizer's load failed. */
  lemma LookupsAgreeOnHealthyCache(w: Worker, model: string, load: Option<string>)
    requires w.recognizer.None? || w.recognizer.value.failure.None?
    ensures GetRecognizer(w, model, load) == GetRecognizerAsWritten(w, model, load)
  {
  }

  // ---------------------------------------------------------------------------
  // Messages
  // ---------------------------------------------------------------------------

  /** `Math.max(0, Math.round(elapsed))`. */
  function LoadMs(elapsed: real): (ms: int)
    ensures ms >= 0
    ensures elapsed >= 0.0 ==> elapsed - 0.5 < ms as real <= elapsed + 0.5
  {
    var n := JsNum.Round(elapsed);
    if n < 0 then 0 else n
  }

  /**
   * INIT: the default language changes first (even if the rest fails), then
   * the preflight, then the recognizer lookup; READY on success, ERROR with
   * the first failure otherwise.
   */
  function OnInit(w: Worker, model: string, language: string, hub: Response, probe: string -> Response,
                  load: Option<string>, elapsed: real): (r: (Worker, Posted))
    ensures r.0.defaultLanguage == Or(language, w.defaultLanguage)
    ensures r.0.queue == w.queue && r.0.processing == w.processing && r.0.inFlight == w.inFlight
    ensures r.0.lookupFailure == w.lookupFailure
    ensures r.1.Ready? <==> PreflightOutcome(Or(model, DefaultModel), hub, probe).Passed? &&
                            GetRecognizer(w.(defaultLanguage := r.0.defaultLanguage), Or(model, DefaultModel), load).1.None?
    ensures r.1.Ready? ==> r.1 == Ready(Or(model, DefaultModel), r.0.defaultLanguage, LoadMs(elapsed)) &&
                           r.0.recognizer.Some? && r.0.recognizer.value.model == Or(model, DefaultModel)
    ensures r.1.Transcript? == false
  {
    var m := Or(model, DefaultModel);
    var w1 := w.(defaultLanguage := Or(language, w.defaultLanguage));
    match PreflightOutcome(m, hub, probe)
    case Failed(e) => (w1, Error(e))
    case Passed =>
      var (w2, failure) := GetRecognizer(w1, m, load);
      if failure.Some? then (w2, Error(failure.value)) else (w2, Ready(m, w1.defaultLanguage, LoadMs(elapsed)))
  }

  /** The model a new job runs: the last one a recognizer was built for, or the default. */
  function JobModel(w: Worker): string {
    if w.recognizer.Some? then Or(w.recognizer.value.model, DefaultModel) else DefaultModel
  }

  /**
   * The drain takes `job` off the queue, leaving `rest`, and at once looks up
   * its recognizer; a new build's load ends with `load`. The lookup's error
   * stays with the job until it finishes.
   */
  function StartJob(w: Worker, job: Job, rest: seq<Job>, load: Option<string>): (r: Worker)
    ensures r.queue == rest && r.processing && r.inFlight == Some(job) && r.defaultLanguage == w.defaultLanguage
    ensures var (w1, failure) := GetRecognizer(w, job.model, load);
            r.recognizer == w1.recognizer && r.builds == w1.builds && r.lookupFailure == failure
  {
    var (w1, failure) := GetRecognizer(w, job.model, load);
    w1.(queue := rest, processing := true, inFlight := Some(job), lookupFailure := failure)
  }

  /**
   * TRANSCRIBE: the job joins the queue, which keeps only its newest two
   * jobs; an idle worker then starts draining and takes the oldest job at
   * once, looking up its recognizer, while a draining one only queues it.
   */
  function OnTranscribe(w: Worker, audio: seq<real>, language: string, load: Option<string>): (r: Worker)
    requires !w.processing ==> w.queue == []
    ensures var job := Job(audio, Or(language, w.defaultLanguage), JobModel(w));
            && (w.processing ==> r.queue == Background.Newest(w.queue + [job], MaxQueuedJobs) && r.inFlight == w.inFlight
                                 && r.recognizer == w.recognizer && r.builds == w.builds
                                 && r.lookupFailure == w.lookupFailure)
            && (!w.processing ==> r == StartJob(w, job, [], load))
    ensures r.processing
    ensures |r.queue| <= MaxQueuedJobs
    ensures r.defaultLanguage == w.defaultLanguage
  {
    var job := Job(audio, Or(language, w.defaultLanguage), JobModel(w));
    var q := Background.Newest(w.queue + [job], MaxQueuedJobs);
    if w.processing then w.(queue := q)
    else
      assert q == [job];
      StartJob(w, q[0], q[1..], load)
  }

  /** What the engine did with a job's audio. */
  datatype Recognition = Recognized(output: Models.EngineOutput) | RecognitionThrew(message: string)

  /** The language the engine is asked for: the job's, or the worker's default. */
  function DecodeLanguage(w: Worker, job: Job): string {
    Or(job.language, w.defaultLanguage)
  }

  /**
   * The job in flight finishes: ERROR with its lookup's error if the lookup
   * failed, otherwise TRANSCRIPT with the output's text or ERROR with the
   * engine's message; then the drain takes the oldest waiting job and looks
   * up its recognizer (a new build's load ends with `load`), or stops when
   * none waits.
   */
  function OnJobDone(w: Worker, load: Option<string>, recognition: Recognition): (r: (Worker, Posted))
    requires w.inFlight.Some?
    ensures w.queue != [] ==> r.0 == StartJob(w, w.queue[0], w.queue[1..], load)
    ensures w.queue == [] ==> r.0.inFlight.None? && r.0.queue == [] && !r.0.processing && r.0.lookupFailure.None?
                              && r.0.recognizer == w.recognizer && r.0.builds == w.builds
    ensures r.0.defaultLanguage == w.defaultLanguage
    ensures r.1.Ready? == false
    ensures w.lookupFailure.Some? ==> r.1 == Error(w.lookupFailure.value)
    ensures r.1.Transcript? <==> w.lookupFailure.None? && recognition.Recognized?
    ensures r.1.Transcript? ==> r.1.text == Models.NormalizeText(recognition.output)
  {
    var posted :=
      if w.lookupFailure.Some? then Error(w.lookupFailure.value)
      else match recognition
        case Recognized(o) => Transcript(Models.NormalizeText(o))
        case RecognitionThrew(m) => Error(m);
    var next :=
      if |w.queue| > 0 then StartJob(w, w.queue[0], w.queue[1..], load)
      else w.(processing := false, inFlight := None, lookupFailure := None);
    (next, posted)
  }

  /**
   * An INIT that arrives while a job runs does not change what that job
   * posts: its recognizer was looked up when it was dequeued.
   */
  lemma InitLeavesJobInFlight(w: Worker, model: string, language: string, hub: Response,
                              probe: string -> Response, initLoad: Option<string>, elapsed: real,
                              load: Option<string>, recognition: Recognition)
    requires w.inFlight.Some?
    ensures var w1 := OnInit(w, model, language, hub, probe, initLoad, elapsed).0;
            w1.inFlight.Some? && OnJobDone(w1, load, recognition).1 == OnJobDone(w, load, recognition).1
  {
  }

  // ---------------------------------------------------------------------------
  // The drain and the worker's invariant
  // ---------------------------------------------------------------------------

  /**
   * The worker is draining exactly while a job is in flight, an idle worker
   * has no waiting jobs, at most two wait, and every language is non-empty.
   */
  predicate Coherent(w: Worker) {
    && (w.processing <==> w.inFlight.Some?)
    && (!w.processing ==> w.queue == [])
    && |w.queue| <= MaxQueuedJobs
    && w.defaultLanguage != ""
    && (forall k :: 0 <= k < |w.queue| ==> w.queue[k].language != "")
    && (w.inFlight.Some? ==> w.inFlight.value.language != "")
  }

  lemma InitialCoherent()
    ensures Coherent(Initial)
  {
  }

  lemma OnInitKeepsCoherent(w: Worker, model: string, language: string, hub: Response, probe: string -> Response,
                            load: Option<string>, elapsed: real)
    requires Coherent(w)
    ensures Coherent(OnInit(w, model, language, hub, probe, load, elapsed).0)
  {
  }

  lemma OnTranscribeKeepsCoherent(w: Worker, audio: seq<real>, language: string, load: Option<string>)
    requires Coherent(w)
    ensures Coherent(OnTranscribe(w, audio, language, load))
  {
    var job := Job(audio, Or(language, w.defaultLanguage), JobModel(w));
    var all := w.queue + [job];
    var q := Background.Newest(all, MaxQueuedJobs);
    var r := OnTranscribe(w, audio, language, load);
    assert job.language != "";
    assert forall x :: x in all ==> x.language != "" by {
      forall x | x in all ensures x.language != "" {
        var k :| 0 <= k < |all| && all[k] == x;
        if k < |w.queue| {
          assert x == w.queue[k];
        }
      }
    }
    Background.NewestElements(all, MaxQueuedJobs);
    assert r.processing && r.inFlight.Some? && r.inFlight.value.language != "";
    if w.processing {
      forall k | 0 <= k < |r.queue| ensures r.queue[k].language != "" {
        assert r.queue[k] in q;
      }
    }
  }

  lemma OnJobDoneKeepsCoherent(w: Worker, load: Option<string>, recognition: Recognition)
    requires Coherent(w) && w.inFlight.Some?
    ensures Coherent(OnJobDone(w, load, recognition).0)
  {
  }

  /** In a coherent worker the engine is always asked for the job's own language. */
  lemma DecodesInJobLanguage(w: Worker)
    requires Coherent(w) && w.inFlight.Some?
    ensures DecodeLanguage(w, w.inFlight.value) == w.inFlight.value.language
  {
  }

  /** The jobs still to run: the one in flight, then the waiting ones oldest first. */
  function Pending(w: Worker): seq<Job> {
    (if w.inFlight.Some? then [w.inFlight.value] else []) + w.queue
  }

  /**
   * Finishing the job in flight runs the first pending job and leaves the
   * rest pending in the same order; its message is never READY, and is an
   * ERROR when the engine threw.
   */
  lemma JobDoneRunsFirstPending(w: Worker, load: Option<string>, recognition: Recognition)
    requires Coherent(w) && w.inFlight.Some?
    ensures var (next, message) := OnJobDone(w, load, recognition);
            && Coherent(next)
            && Pending(w) == [w.inFlight.value] + Pending(next)
            && !message.Ready?
            && (recognition.RecognitionThrew? ==> message.Error?)
            && (w.lookupFailure.Some? ==> message == Error(w.lookupFailure.value))
  {
    OnJobDoneKeepsCoherent(w, load, recognition);
    if w.queue != [] {
      assert [w.queue[0]] + w.queue[1..] == w.queue;
    }
  }

  /**
   * The rest of a drain when no message arrives meanwhile: each job in turn,
   * the one in flight first and then the waiting ones oldest first, with its
   * own load (taken as it is dequeued) and engine results. Gives the final state, the messages posted
   * and the jobs run.
   */
  method DrainQueue(w: Worker, load: Job -> Option<string>, recognize: Job -> Recognition)
    returns (r: Worker, posted: seq<Posted>, ran: seq<Job>)
    requires Coherent(w)
    ensures ran == Pending(w)
    ensures |posted| == |ran|
    ensures forall k :: 0 <= k < |posted| ==> !posted[k].Ready?
    ensures forall k :: 0 <= k < |ran| && recognize(ran[k]).RecognitionThrew? ==> posted[k].Error?
    ensures Coherent(r) && !r.processing && r.queue == [] && r.inFlight.None?
  {
    r := w;
    posted := [];
    ran := [];
    while r.inFlight.Some?
      invariant Coherent(r)
      invariant ran + Pending(r) == Pending(w)
      invariant |posted| == |ran|
      invariant forall k :: 0 <= k < |posted| ==> !posted[k].Ready?
      invariant forall k :: 0 <= k < |ran| && recognize(ran[k]).RecognitionThrew? ==> posted[k].Error?
      decreases |Pending(r)|
    {
      var job := r.inFlight.value;
      var nextLoad := if r.queue != [] then load(r.queue[0]) else None;
      JobDoneRunsFirstPending(r, nextLoad, recognize(job));
      var (next, message) := OnJobDone(r, nextLoad, recognize(job));
      assert (ran + [job]) + Pending(next) == ran + Pending(r);
      ExtendDrainLog(posted, ran, message, job, recognize);
      ran := ran + [job];
      posted := posted + [message];
      r := next;
    }
  }

  /** One more job run and its message keep the drain's record of messages. */
  lemma ExtendDrainLog(posted: seq<Posted>, ran: seq<Job>, message: Posted, job: Job, recognize: Job -> Recognition)
    requires |posted| == |ran|
    requires forall k :: 0 <= k < |posted| ==> !posted[k].Ready?
    requires forall k :: 0 <= k < |ran| && recognize(ran[k]).RecognitionThrew? ==> posted[k].Error?
    requires !message.Ready? && (recognize(job).RecognitionThrew? ==> message.Error?)
    ensures var (p, q) := (posted + [message], ran + [job]);
            && |p| == |q|
            && (forall k :: 0 <= k < |p| ==> !p[k].Ready?)
            && (forall k :: 0 <= k < |q| && recognize(q[k]).RecognitionThrew? ==> p[k].Error?)
  {
  }

  /** Whatever arrives, a coherent worker never holds more than two waiting jobs. */
  lemma QueueStaysBounded(w: Worker, audio: seq<real>, language: string, load: Option<string>)
    requires Coherent(w)
    ensures |OnTranscribe(w, audio, language, load).queue| <= MaxQueuedJobs
  {
  }

  /**
   * A job arriving while two wait and one is in flight pushes out the oldest
   * waiting job, which is never run.
   */
  lemma FullQueueDropsOldest(w: Worker, audio: seq<real>, language: string, load: Option<string>)
    requires w.processing && |w.queue| == MaxQueuedJobs
    ensures var r := OnTranscribe(w, audio, language, load);
            r.queue == [w.queue[1], Job(audio, Or(language, w.defaultLanguage), JobModel(w))] && r.inFlight == w.inFlight
  {
    var job := Job(audio, Or(language, w.defaultLanguage), JobModel(w));
    var all := w.queue + [job];
    assert Background.Newest(all, MaxQueuedJobs) == all[1..];
    assert all[1..] == [w.queue[1], job];
  }


}

=== FILE: wrappers.dfy ===
/** Optional values, used wherever the extension stores `null` or an absent key. */
module Wrappers {

  datatype Option<+T> = None | Some(value: T) {

    /** The value, or `default` when there is none (JavaScript's `x || default`
        for values that are never falsy). */
    function GetOr(default: T): T {
      match this
      case Some(v) => v
      case None => default
    }
  }
}
